=== FILE: README.md ===
# Website-fingerprinting competition platform — a Dafny model

The modelled system is a Flask web application that runs a course
competition on website fingerprinting. Teams of at most two students do
two things:

- **Defence.** A team uploads a zipped CSV of network traces. Each trace
  is one capture of one web page (`cell_id`) under one repetition (`rep`).
  The platform checks the dataset, computes its utility cost (incoming
  volume, outgoing volume, duration) and splits it into a test set, a
  train set and a verification set.
- **Attack.** An attacking team classifies the test captures of the
  teams it was matched with. The platform checks the upload and scores it
  by accuracy and ROC AUC.

The admin can do three things:

- generate each round's matches with a round-robin over the shuffled
  non-admin teams;
- open or close the attack and defence phases;
- look at a leaderboard. It ranks teams by the product of utility and
  attack performance and is cached for a while.

The registration and upload forms validate usernames, e-mail addresses,
Sciper numbers, team names and uploaded archives. A sample attack script
groups the test and train captures into feature rows, zero-pads them,
classifies them and writes out one probability column per class.

The project is made of eight modules:

| file | module | models |
|---|---|---|
| `collections.dfy` | `Collections` | `Option`/`Result`, order-keeping `Distinct`, sums, max, mean and median, lexicographic keys, insertion sort (`SortBy`), `Filter`, `AllOk` |
| `text.dfy` | `Text` | decimal rendering and parsing of integers, ASCII and whitespace tests, `os.path.splitext` |
| `models.py` → `models.dfy` | `Models` | users, teams, matches, defences, attacks; team membership, per-round queries, the utility, attack-performance and total scores, match pagination |
| `tasks_defence.py` → `defence.dfy` | `TasksDefence`, `DefenceFindings` | dataset verification, the utility metric, repetition relabelling, the train/test/verification split |
| `tasks_attack.py` → `attack.dfy` | `TasksAttack` | attack-file verification and attack scoring |
| `routes.py`, `cached_items.py` → `routes.dfy` | `Routes` | match generation, phase switching, joining a team, and the leaderboard with its cache, as the classes `Competition` and `CachedLeaderboard` |
| `forms.py` → `forms.dfy` | `Forms` | the registration and upload validators |
| `fingerprinting.py` → `fingerprinting.dfy` | `Fingerprinting` | data loading, zero-padding and the output table of the sample attack |

**Tables and their order.** A pandas data frame is a sequence of row
datatypes, kept in file order.

- `groupby` yields its groups in ascending key order. The attack script's
  groupings (`Fingerprinting.GroupOrder`) sort the distinct keys. The
  per-capture volumes and durations of the utility metric
  (`TasksDefence.VolumePerCapture`, `DurationPerCapture`) keep the captures
  in the order of their first row instead. Only their maximum, mean and
  median are used, and these do not depend on the order.
- `drop_duplicates` keeps first occurrences in file order. This is
  `Distinct`.
- `sort_values` is a sort by a lexicographic key of reals.
- Python's stable `sorted(..., reverse=True)` is an insertion sort on the
  negated key.

**Application state.** It lives in `Routes.Competition`. That class holds:

- the users, teams and matches of the database;
- the next match id;
- the configuration entries `ROUND`, `ATTACK_PHASE` and `DEFENCE_PHASE`.

The admin routes and `join_team` are its methods.

**Parameters in place of the outside world.**

- `CachedLeaderboard` gets the clock as `now`/`finishedAt` parameters.
- Randomness is a parameter:
  - the 128-bit salts of `randomize_rep_index`;
  - `DataFrame.sample`, as a ranking function over the candidate captures;
  - `random.shuffle`, as a permutation of the participant indices.
- SHA-256, the byte order of the host, `roc_auc_score`, the utility
  aggregation (`log10`) and the number format are function parameters.

## Model

| member | source | states |
|---|---|---|
| Models.FindUser | app/models.py:90-95 | the `query(User).filter(User.id == member_id).first()` of `Team.members`: a user is found exactly when some user carries the given id, and the one found carries it |
| Models.HasAdmin | app/models.py:90-100 | a team has an admin exactly when one of its two member slots holds the id of an admin user |
| Models.IsFull | app/models.py:102-104 | a team is full exactly when both member slots hold an id |
| Models.FindTeamByName | app/routes.py:138-139 | `filter_by(team_name).first()`: none exactly when the name is missing or no team has it, otherwise the first team in table order with that name |
| Models.TeamIdToAttackInRound | app/models.py:117-131 | the teams to attack in a round are, without repetition, exactly the defenders of this team's attack matches of that round that exist in the team table |
| Models.GetMatchAgainst | app/models.py:137-141 | a match is returned exactly when this team attacks the other team in that round, and the match returned is such a match |
| Models.AttackMatchesInRound | app/models.py:289-297 | the matches counted by `nb_matches_in_round` are exactly this attacker's matches of that round |
| Models.NbMatchesInRound | app/models.py:288-297 | `nb_matches_in_round` counts exactly the matches of `AttackMatchesInRound` |
| Models.AggregatedResult | app/models.py:353-355 | an attack's aggregated result is 1000 × ROC AUC × accuracy; `AggregatedResultRange` bounds it |
| Models.MatchDone | app/models.py:328-330 | a match is done exactly when some attack refers to it |
| Models.RoundAttacks | app/models.py:156-164 | the attacks considered are exactly those made for one of this team's attack matches of the round |
| Models.AggregatedResultRange | app/models.py:353-355 | with accuracy and ROC AUC in [0, 1], the aggregated attack result lies in [0, 1000] and reaches 1000 for a perfect attack |
| Models.UtilityScore | app/models.py:143-152 | the message "No defence uploaded yet" exactly when the team has no defence in the round; otherwise the aggregated utility of its latest defence of that round |
| Models.AttackedMatchIds | app/models.py:166-170 | group-by match id: each attacked match id once, and exactly the ids of the attacks given |
| Models.LatestAttack | app/models.py:166-176 | the attack kept for a match is one of its attacks with the greatest timestamp |
| Models.LatestAttacksPerMatch | app/models.py:156-178 | one attack per attacked match of the round, each the latest for its match |
| Models.PerformanceOf | app/models.py:179-185 | a number exactly when some match was attacked and the number of latest attacks equals the number of matches; otherwise "Some attacks remain to do" |
| Models.AttackPerformanceAsWritten | app/models.py:154-186 | as written: the mean of the latest aggregated results when their number equals the round's match count (a division by zero when both are 0), the message otherwise |
| Models.AttackPerformanceAsWrittenFailsWithoutMatches | app/models.py:179-185 | as written, a team with no attack match in the round (an admin team) divides by zero |
| Models.AttackPerformance | app/models.py:154-186 | corrected attack performance: a number only when the team has matches in the round; otherwise "Some attacks remain to do" |
| Models.AttackPerformanceAgrees | app/models.py:154-186 | wherever the code as written returns, the corrected function returns the same value |
| Models.AttackPerformanceComplete | app/models.py:179-185 | the performance is a number exactly when the team has at least one match in the round and has attacked every one of them |
| Models.AllAttackedCounts | app/models.py:179-185 | once every match of the round is attacked, there are as many latest attacks as matches |
| Models.PendingCounts | app/models.py:179-185 | a match left unattacked makes the latest attacks fewer than the matches |
| Models.IdCounts | app/models.py:179-185 | with unique match ids, the number of a team's match ids in a round is its match count, and the number of attacked ids is the number of latest attacks |
| Models.OwnAllAttacked | app/models.py:166-176 | when every match is done, each of the team's match ids in the round has been attacked |
| Models.OwnNotAttacked | app/models.py:166-176 | an unattacked match's id is one of the team's but not among the attacked ids |
| Models.PerformanceOfRange | app/models.py:179-185 | the mean of aggregated results over valid attacks lies in [0, 1000] |
| Models.AttackPerformanceRange | app/models.py:154-186 | attack performance, when it is a number, lies in [0, 1000] |
| Models.TotalScore | app/models.py:188-195 | a number exactly when the utility is a number; it is the utility times the attack performance, or times 1.0 when attacks remain; otherwise "Cannot compute full score yet" |
| Models.TotalScoreRewardsCompletion | app/models.py:188-195 | with positive utility, completing the attacks with performance at least 1.0 never scores lower than leaving attacks undone |
| Models.Page | app/models.py:321-322 | Flask-SQLAlchemy `paginate` with `error_out`: page numbers below 1 or past the last non-empty page are 404 (with `perPage` 0, every page but the first); otherwise the page is the slice of at most `perPage` matches starting at `(page-1)*perPage` |
| Models.AttacksDone | app/models.py:311-319 | a listed match's id is among the attacked ids exactly when the match has an attack |
| Models.ItemizeMatches | app/models.py:323-325 | each itemised match on the page is flagged done exactly when its id is among the attacked ids, and keeps its match |
| Models.PaginateAndItemize | app/models.py:299-326 | 404 exactly when `paginate` fails; otherwise one item per match of the page, in order, flagged done exactly when some attack refers to it |
| TasksDefence.CheckDataframe | app/tasks_defence.py:25-63 | each rejection holds exactly when its check is the first one to fail, in the source's order: columns, number of classes, repetitions per class within the deviation, more than `ROWS_PER_CAPTURE` rows per capture; accepted exactly when all pass |
| TasksDefence.VerifyDataframe | app/tasks_defence.py:25-63 | the boolean is true exactly when the dataset is accepted, and the message is empty exactly then |
| TasksDefence.AcceptedCaptureBounds | app/tasks_defence.py:45-62 | in an accepted dataset every capture has more than `ROWS_PER_CAPTURE` rows, and its class has more than `mean - deviation` repetitions |
| TasksDefence.Incoming | app/tasks_defence.py:75-79 | the rows kept for incoming volume are exactly the rows with negative `direction_size` |
| TasksDefence.Outgoing | app/tasks_defence.py:80-84 | the rows kept for outgoing volume are exactly the rows with positive `direction_size` |
| TasksDefence.VolumePerCapture | app/tasks_defence.py:75-84 | one volume per capture present, in capture order, each the sum of `direction_size` over exactly that capture's rows |
| TasksDefence.DurationPerCapture | app/tasks_defence.py:85 | one duration per capture present, the last timestamp among its rows |
| TasksDefence.LastTimestamp | app/tasks_defence.py:85 | the duration of a capture is a timestamp of one of its rows and bounds all of them |
| TasksDefence.Summarize | app/tasks_defence.py:86-96 | max, mean and median of the per-capture values: absent exactly for no captures; the max is attained and bounds all; mean and median lie between min and max |
| Collections.Mean | app/tasks_defence.py:86-96 | the mean of a non-empty series lies between its minimum and maximum |
| Collections.Median | app/tasks_defence.py:86-96 | the median of a non-empty series lies between its minimum and maximum |
| Collections.Distinct | app/tasks_defence.py:46 | `drop_duplicates`: exactly the same elements, each once |
| Collections.DistinctFirstOccurrenceOrder | app/tasks_defence.py:46 | `drop_duplicates` keeps the order of first occurrence: an element listed before another first occurs earlier in the input |
| TasksDefence.EvaluateUtility | app/tasks_defence.py:66-96 | the utility is the summary of the incoming volumes, of the outgoing volumes and of the durations, per capture; its properties are `EvaluateUtilityProperties` |
| TasksDefence.EvaluateUtilityProperties | app/tasks_defence.py:66-96 | the incoming summary exists exactly when some row is incoming, and likewise outgoing; the time summary exists exactly for a non-empty frame; incoming maxima are negative and outgoing positive; the longest duration is the frame's latest timestamp |
| TasksDefence.VolumeSigns | app/tasks_defence.py:75-84 | every per-capture incoming volume is negative and every outgoing volume positive |
| TasksDefence.LongestDuration | app/tasks_defence.py:85 | the maximum per-capture duration equals the maximum timestamp of the frame |
| TasksDefence.ZeroSizedRowsIgnored | app/tasks_defence.py:75-84 | a row with `direction_size` 0 counts neither as incoming nor as outgoing |
| TasksDefence.FromBytes3 | app/tasks_defence.py:113-117 | `int.from_bytes` of three digest bytes is below 2^24 |
| TasksDefence.FromBytes3Reversed | app/tasks_defence.py:113-117 | big-endian reading equals little-endian reading of the reversed bytes |
| TasksDefence.FromBytes3Injective | app/tasks_defence.py:113-117 | for a fixed byte order, distinct byte triples give distinct numbers |
| TasksDefence.HashKey | app/tasks_defence.py:115 | the hashed text is `"{}{}{}".format(rnd, class_id, rep)`: the three decimals run together |
| TasksDefence.HashKeyCollidesAcrossClasses | app/tasks_defence.py:115 | with no separator, captures (1, 23) and (12, 3) hash the same text under every salt |
| TasksDefence.HashKeySeparatesSharedField | app/tasks_defence.py:115 | two captures sharing their class, or sharing their repetition, hash the same text only when they are the same capture |
| TasksDefence.RepLabel | app/tasks_defence.py:113-119 | the label is the first three SHA-256 bytes of the source's hashed text, read in the machine's byte order, and is below 2^24 |
| TasksDefence.RepLabelCollision | app/tasks_defence.py:111-112 | two distinct captures share a label only if they hash the same text, which needs different classes and different repetitions, or if the digests of two different texts agree on their first three bytes |
| TasksDefence.RepLabelCollidesAcrossClasses | app/tasks_defence.py:113-119 | captures (1, 23) and (12, 3) always receive the same label; the split keeps the class column beside it, so they remain distinct captures |
| TasksDefence.RandomizeRepIndex | app/tasks_defence.py:99-123 | one label per row, in row order, each the label of that row's capture and below 2^24 |
| TasksDefence.RandomizeRepIndexSeparates | app/tasks_defence.py:99-123 | rows of one capture get one label (the docstring's promise); two captures of one class share a label only through a digest collision between two different texts |
| TasksDefence.Relabelled | app/tasks_defence.py:138 | replacing the `rep` column keeps every other field and the row order |
| TasksDefence.RelabelReps | app/tasks_defence.py:138 | the frame, updated in place, becomes the old frame with the new repetition labels |
| TasksDefence.FirstRep | app/tasks_defence.py:141-143 | `groupby(cell_id).first()`: the repetition of the first row of that class |
| TasksDefence.SortedCells | app/tasks_defence.py:141-143 | the class ids, each once, exactly those of the frame |
| TasksDefence.Guaranteed | app/tasks_defence.py:141-143 | one capture per class, for every class, with distinct classes, each a capture of the frame |
| TasksDefence.GuaranteedFirstReps | app/tasks_defence.py:141-143 | each guaranteed capture pairs its class with the class's first repetition |
| TasksDefence.RowsIn | app/tasks_defence.py:157 | the merge keeps exactly the rows whose capture is selected |
| TasksDefence.RowsNotIn | app/tasks_defence.py:171 | the train rows are exactly the rows whose capture is not selected |
| TasksDefence.RowsInPartition | app/tasks_defence.py:157-171 | selected and remaining rows together are a permutation of the frame |
| TasksDefence.Pool | app/tasks_defence.py:145-152 | corrected sampling pool: the distinct captures that are not guaranteed, each once |
| TasksDefence.PoolAsWritten | app/tasks_defence.py:145-152 | as written: the distinct captures of the frame after its first m rows, m being the number of selected rows |
| TasksDefence.PoolSize | app/tasks_defence.py:145-152 | the pool has as many captures as the frame minus the number of classes |
| TasksDefence.Sample | app/tasks_defence.py:147-152 | `sample(n)` fails exactly for n < 0 or n larger than the pool; otherwise n captures of the pool, distinct when the pool is |
| TasksDefence.TestCaptures | app/tasks_defence.py:141-155 | corrected: the sample drawn from the corrected `Pool`, followed by the guaranteed captures; `TestCapturesFailure` and `TestCapturesValid` state its outcome |
| TasksDefence.TestCapturesFailure | app/tasks_defence.py:147-155 | the split fails exactly when `NB_TRACES_TO_CLASSIFY - nunique(cell_id)` is negative or exceeds the pool |
| TasksDefence.TestCapturesValid | app/tasks_defence.py:141-155 | the test captures are `NB_TRACES_TO_CLASSIFY` distinct captures of the frame that cover every class |
| TasksDefence.SampleThenGuaranteed | app/tasks_defence.py:147-155 | concatenating the sample and the guaranteed captures repeats no capture |
| TasksDefence.TestRows | app/tasks_defence.py:159-161 | each test row keeps size and timestamp and takes its capture id |
| TasksDefence.TestSet | app/tasks_defence.py:161-163 | the test set is the test rows sorted by capture id then timestamp |
| TasksDefence.VerificationPairs | app/tasks_defence.py:165-166 | one (capture id, class) pair per selected row |
| TasksDefence.VerificationSet | app/tasks_defence.py:165-169 | the pairs without duplicates, sorted by capture id |
| TasksDefence.TrainSet | app/tasks_defence.py:171 | corrected train set: the rows of unselected captures, sorted by class then repetition |
| TasksDefence.TrainSetAsWritten | app/tasks_defence.py:157-171 | as written: the merge renumbers the selected rows 0..m-1, so the drop removes the first m rows of the frame |
| TasksDefence.SetsFor | app/tasks_defence.py:157-171 | corrected: the test, verification and train sets built from the chosen captures, with the corrected `TrainSet`; `SplitPartition`, `VerificationMatchesTest` and `VerificationLabels` state what they hold |
| TasksDefence.Split | app/tasks_defence.py:141-171 | corrected: the split fails exactly when the test captures cannot be chosen, and otherwise is `SetsFor` of them |
| TasksDefence.SplitTrainTestSet | app/tasks_defence.py:126-173 | relabels the frame in place with the source's labels, then returns the corrected split of the relabelled frame (corrected `Pool` and `TrainSet`) |
| TasksDefence.SplitPartition | app/tasks_defence.py:157-171 | test and train rows together number the rows of the frame; a row is in the train set exactly when its capture was not selected |
| TasksDefence.VerificationMatchesTest | app/tasks_defence.py:159-169 | the verification set names exactly the capture ids of the test set |
| TasksDefence.VerificationLabels | app/tasks_defence.py:159-169 | every verification pair labels a selected capture's new id with that capture's class |
| TasksDefence.VerificationCoversClasses | app/tasks_defence.py:141-169 | after a successful split every class appears in the verification set, as the ROC AUC computation needs |
| DefenceFindings.PoolAsWrittenMisplaced | app/tasks_defence.py:145-152 | as written, a guaranteed capture can stay in the pool while a non-guaranteed one is dropped from it |
| DefenceFindings.TrainSetAsWrittenLeaks | app/tasks_defence.py:157-171 | as written, a test row stays in the train set while a train row is dropped; the corrected train set keeps only the other row |
| TasksAttack.ProbaColumns | app/tasks_attack.py:103-107 | `filter(regex=…)` with `re.search`: keeps exactly the columns whose name contains the configured prefix followed by a digit |
| TasksAttack.Targets | app/tasks_attack.py:46-52 | the teams to attack in the configured round, each once |
| TasksAttack.CheckAttack | app/tasks_attack.py:21-82 | each rejection holds exactly when its check is the first to fail: columns, row count equal to `NB_TRACES_TO_CLASSIFY` times the match count, targets, capture ids per target, probabilities in [0, 1] summing to 1 within 1e-10; accepted exactly when all pass |
| TasksAttack.VerifyAttack | app/tasks_attack.py:21-82 | true exactly for an accepted attack; the message is empty exactly then |
| TasksAttack.AcceptedAttackShape | app/tasks_attack.py:35-81 | each row of an accepted attack targets a team this team attacks this round, names a capture of that team's verification set, and has probabilities in [0, 1] |
| TasksAttack.AcceptedCoversTargets | app/tasks_attack.py:46-52 | an accepted attack has rows against every team it must attack |
| TasksAttack.HardClass | app/tasks_attack.py:109-116 | `idxmax` on no columns has no class |
| TasksAttack.HardClassOfNamedColumns | app/tasks_attack.py:109-116 | for columns named prefix + class, the hard class is the class of a column with the highest probability, the first such |
| Text.LastField | app/tasks_attack.py:114 | `x.split("_")[-1]`: a suffix of the column name holding no underscore |
| Text.ParseIntOfIntToString | app/tasks_attack.py:114 | `int` reads back the decimal rendering of a class id |
| TasksAttack.HardClasses | app/tasks_attack.py:109-117 | one hard class per row, in order, whenever each row has one |
| TasksAttack.Agreements | app/tasks_attack.py:119 | the number of agreeing positions is at most the length, and equals it exactly when the sequences are equal |
| TasksAttack.Accuracy | app/tasks_attack.py:119 | `accuracy_score` is defined for non-empty equal-length inputs, lies in [0, 1] and is 1 exactly when every prediction is right |
| TasksAttack.TrueLabelsAsWritten | app/tasks_attack.py:101 | as written, the true labels are the verification file's classes in file order |
| TasksAttack.LabelOf | app/tasks_attack.py:101 | corrected lookup: the class recorded for a capture id in the verification set |
| TasksAttack.TrueLabels | app/tasks_attack.py:101-117 | corrected: the true classes of the attack rows' capture ids, row by row, defined when all are known |
| TasksAttack.TrueLabelsFollowRows | app/tasks_attack.py:101-117 | reordering the attack rows reorders the corrected true labels the same way |
| TasksAttack.AllPredictionsRight | app/tasks_attack.py:109-119 | the true labels equal the hard classes exactly when each row's hard class is the class of its capture |
| TasksAttack.AttackOn | app/tasks_attack.py:96-127 | corrected: the attack on one target, its accuracy scored with the capture-id-joined `TrueLabels`; `AttackOnProperties` states its outcome |
| TasksAttack.AttackOnProperties | app/tasks_attack.py:96-127 | an attack result names the match in which this team attacks the target this round; its accuracy lies in [0, 1] and is 1 exactly when every capture is classified correctly |
| TasksAttack.TargetsHaveMatches | app/tasks_attack.py:123-125 | every team to attack has a match to record the attack under |
| TasksAttack.AttackResults | app/tasks_attack.py:93-127 | one result per target, in target order |
| TasksAttack.EvaluateAttackPerf | app/tasks_attack.py:85-128 | corrected: the loop's result is every target's attack, in order, scored with the capture-id-joined `TrueLabels`, or the first failure |
| TasksAttack.PositionalAccuracyMisjudges | app/tasks_attack.py:101-119 | as written, a fully correct attack listed in another order than the verification file scores below 1; the corrected labels give 1 |
| Routes.AttackerRow | app/routes.py:416-424 | attacker `a` meets the k teams at indices `a+1 … a+k` modulo n |
| Routes.Pairs | app/routes.py:415-424 | every index pair the nested loops yield lies within the team list |
| Routes.PairsLength | app/routes.py:415-416 | the first i passes of the outer loop yield i·k index pairs |
| Routes.PairsMembership | app/routes.py:415-424 | a pair is generated exactly when its attacker index is among the first i and its defender is `a+j mod n` for some `1 ≤ j ≤ k` |
| Routes.NextDistinct | app/routes.py:412-422 | with k < n, no team is matched against itself and the k opponents of a team are distinct |
| Routes.PairsNoDuplicates | app/routes.py:415-424 | no (attacker, defender) pair is generated twice |
| Routes.DefenderPairs | app/routes.py:415-424 | the attackers of defender d are exactly the teams at `d-j mod n` for `1 ≤ j ≤ k` |
| Routes.ToMatches | app/routes.py:420-425 | each index pair becomes a match of the round with the next database id |
| Routes.RoundMatchesShape | app/routes.py:415-426 | a round has n·k matches between listed teams, none against itself, all in the round, meeting the unique constraint on (defender, attacker, round) and with unique ids |
| Routes.RoundMatchesAttacks | app/routes.py:415-424 | every team attacks exactly k distinct teams |
| Routes.RoundMatchesDefends | app/routes.py:415-424 | every team is attacked by exactly k distinct teams |
| Routes.AddRoundKeepsConstraints | app/models.py:271-278 | adding a new round with fresh ids to earlier rounds keeps match ids unique and the unique constraint |
| Routes.Participants | app/routes.py:409 | the teams kept are exactly those without an admin member |
| Routes.MatchesPerTeam | app/routes.py:412 | `min(MATCHES_PER_TEAM, nb_teams - 1)`, floored at 0: below the number of teams, never above the setting, and at least 1 when two teams play |
| Routes.ShuffledIds | app/routes.py:414 | the shuffled list has one entry per participant |
| Routes.ShuffledIdsDistinct | app/routes.py:414 | with distinct team ids, shuffling keeps them distinct |
| Routes.ParticipantsPlay | app/routes.py:409-426 | every non-admin team attacks exactly k teams and is attacked by exactly k |
| Routes.AdminTeamsSitOut | app/routes.py:409 | no generated match involves a team with an admin member |
| Routes.GenerateCheck | app/routes.py:389-407 | in source order: 403 for non-admins, the usage page for round 0, 400 for a negative round, an existing round or a missing previous round; generation goes ahead exactly when the caller is admin, the round is positive and new, and round 1 or the previous round exists |
| Routes.PhaseFlags | app/routes.py:438-453 | exactly the four phase names are accepted |
| Routes.PhaseFlagsOneToOne | app/routes.py:439-450 | every combination of the two flags is reached by exactly one phase name |
| Routes.DecideJoinAsWritten | app/routes.py:134-149 | the decision as written; a join always names a listed team |
| Routes.DecideJoin | app/routes.py:134-149 | joining goes ahead exactly when the user has no team, the named team exists and is not full, and it has no admin or the user is one; the user takes the first slot exactly when it is empty |
| Routes.AdminJoinAsWrittenFails | app/routes.py:143 | as written, an admin joining an admin's team hits a call on a boolean (HTTP 500); the corrected decision lets them join |
| Routes.JoinPlacesUser | app/routes.py:146-150 | after joining, the user is a member of the team, the other slot and the other teams are unchanged, and one-team-per-user and unique team ids are kept |
| Routes.ScoresOf | app/routes.py:349-358 | a team's leaderboard entry carries the total score of its attack and utility scores |
| Routes.Standings | app/routes.py:349-358 | one entry per team, in table order, with that team's name |
| Routes.Ranking | app/routes.py:360-364 | the ranked entries are a permutation of the entries, in non-increasing score, with -1 for uncomputable scores |
| Routes.RankItems | app/routes.py:366-371 | the i-th item is the i-th ranked entry, with rank i+1 and its numeric scores formatted |
| Routes.Leaderboard | app/routes.py:360-371 | one item per team |
| Routes.LeaderboardIsRankedItems | app/routes.py:360-371 | the items built by the ranking loop are the leaderboard |
| Routes.LeaderboardOrder | app/routes.py:360-371 | the leaderboard lists some ranking of the entries, in order, with ranks 1, 2, 3, … |
| Routes.CachedLeaderboard.constructor | app/cached_items.py:6-10 | the cache starts with no leaderboard, stamped with the start time |
| Routes.CachedLeaderboard.Serve | app/routes.py:344-376 | when the cache is empty or older than the cache time, it recomputes the leaderboard, stores it and stamps the time; otherwise it serves the cached one unchanged |
| Routes.Competition.constructor | config.py:21-23 | the application starts in round 1 with both phases open and no match |
| Routes.Competition.SetPhase | app/routes.py:433-454 | 403 for non-admins; a known phase (default "None") sets both flags and nothing else; an unknown one gives 400 and changes nothing |
| Routes.Competition.JoinTeam | app/routes.py:134-152 | follows the corrected join decision: on success the team list becomes the joined one, with the "Congrats, you joined …" message; on refusal nothing changes |
| Routes.Competition.GenerateMatches | app/routes.py:388-428 | the outcome is the route's check; on success the round's matches from the shuffled participants are appended and `ROUND` becomes the new round; otherwise nothing changes; the state invariant is kept |
| Routes.Competition.AddRound | app/routes.py:415-426 | the outer loop appends exactly the round's matches with consecutive ids |
| Routes.AttackerMatches | app/routes.py:416-425 | the inner loop builds, for the attacker at position a, its matches against the positions `(a + j) % n` for j = 1..k, numbered consecutively |
| Routes.Competition.AddAttacks | app/routes.py:416-425 | one pass of the outer loop appends exactly the matches of one attacker, as the layout of pairs prescribes, and changes no other table |
| Forms.ValidateUsername | app/forms.py:57-64 | accepted exactly when no user has the name and it is ASCII; a taken name gives "Please use a different username." |
| Forms.ValidateEmail | app/forms.py:66-69 | accepted exactly when no user has the address |
| Forms.ValidateSciper | app/forms.py:41-47 | accepted exactly for numbers 100000–999999; a missing or zero value is "This field is required." |
| Forms.ValidateTeamSelect | app/forms.py:71-74 | accepted exactly when the choice is "New team", names no team, or names a team that is not full |
| Forms.NewTeamNameRules | app/forms.py:80-95 | the three checks after the reserved-name guard: accepted exactly when the name is empty for an existing team, non-empty and not blank for a new one, ASCII, and not an existing team's name |
| Forms.ValidateNewTeamNameAsWritten | app/forms.py:76-95 | as written: the reserved-name guard never fires, so the verdict is that of the three later checks |
| Forms.ValidateNewTeamName | app/forms.py:76-95 | corrected: rejects the name "New team"; otherwise accepted exactly when the name is empty unless a new team is chosen, is non-empty when one is, is ASCII, is not all whitespace and is not taken |
| Forms.NewTeamGuardAsWrittenNeverFires | app/forms.py:77-78 | as written, the first guard compares the field object with a string and never fires; ("New team", "New team") is accepted as written and rejected as intended |
| Forms.ValidateUploadAsWritten | app/forms.py:98-113 | as written, acceptance needs a file name and exactly one archive entry |
| Text.SplitExt | app/forms.py:109 | `os.path.splitext`: root and extension concatenate to the name; the extension is empty or a dot followed by no dot and no slash |
| Forms.UploadAsWrittenRejectsAll | app/forms.py:109-110 | as written, every upload is rejected, because the extension without its dot is compared with ".csv" |
| Forms.ValidateUpload | app/forms.py:98-113 | corrected: accepted exactly when there is a file name and exactly one entry, with extension ".csv"; no file name gives "No file uploaded" |
| Forms.UploadAcceptsCsv | app/forms.py:98-113 | the corrected validator accepts an archive holding one CSV file and rejects one without an extension or with a hidden extra file |
| Fingerprinting.GroupOrder | attack_defence_test_scripts/fingerprinting.py:23-35 | groups come once each, in ascending key order, exactly the keys present |
| Fingerprinting.CaptureSizes | attack_defence_test_scripts/fingerprinting.py:23-27 | a capture's sizes are non-empty exactly when the capture occurs |
| Fingerprinting.CellRepSizes | attack_defence_test_scripts/fingerprinting.py:30-34 | a (class, repetition) group's sizes are non-empty exactly when it occurs |
| Fingerprinting.TestFeatures | attack_defence_test_scripts/fingerprinting.py:23-28 | one non-empty feature row per test capture |
| Fingerprinting.TrainFeatures | attack_defence_test_scripts/fingerprinting.py:30-35 | one non-empty feature row per (class, repetition) group |
| Fingerprinting.TrainLabels | attack_defence_test_scripts/fingerprinting.py:36-40 | one label per distinct (class, repetition) in file order, the class of that pair |
| Fingerprinting.TestGroupsInFileOrder | attack_defence_test_scripts/fingerprinting.py:66-70 | for a test file sorted by capture id, as the split writes it, the group order equals the file order of first occurrences |
| Fingerprinting.TrainLabelsAlign | attack_defence_test_scripts/fingerprinting.py:30-40 | for a train file sorted by class and repetition, the i-th label is the class of the i-th feature row |
| Fingerprinting.MaxLen | attack_defence_test_scripts/fingerprinting.py:42 | the maximum length bounds every row and is attained; none for no rows, where `max` raises |
| Fingerprinting.ZeroPad | attack_defence_test_scripts/fingerprinting.py:43-49 | the matrix has one row per feature row and the common width; each row starts with its values and is zero after them |
| Fingerprinting.LoadData | attack_defence_test_scripts/fingerprinting.py:22-51 | fails exactly when both files are empty; otherwise the padded test and train matrices share a width that fits every row, with one label per distinct (cell_id, rep) pair, in file order |
| Fingerprinting.GroupsEmpty | attack_defence_test_scripts/fingerprinting.py:42 | there are no groups exactly when the file is empty |
| Fingerprinting.ProbaColumns | attack_defence_test_scripts/fingerprinting.py:64 | the 100 columns `proba_class_1` … `proba_class_100` |
| Fingerprinting.OutputColumns | attack_defence_test_scripts/fingerprinting.py:61-76 | `team_id`, `capture_id`, then the probability columns |
| Fingerprinting.Output | attack_defence_test_scripts/fingerprinting.py:54-78 | built exactly when there is one probability row of width 100 per distinct capture; the capture id of row i is then the i-th distinct capture id of the test file in file order, so the ids are distinct and exactly those of the test file |
| Fingerprinting.OutputRowsMatchFeatures | attack_defence_test_scripts/fingerprinting.py:66-71 | for a sorted test file, the i-th output row names the i-th capture group, whose sizes form the i-th feature row |
| Fingerprinting.OutputClassesReadBack | attack_defence_test_scripts/fingerprinting.py:64 | the platform reads back from the script's columns a class in 1…100 whose probability is highest |

## Left out

- The Celery task wrappers, e-mail feedback, file system, CSV and zip reading, templates and flash messages are left out. The model starts from rows already parsed.
- Passwords, login and sessions are left out. So are the registration form as a whole (only its validators are modelled) and the pagination object (only its slice of items).
- Concurrency between requests and Celery workers is left out. Each route and task is one atomic step.
- Floating point is modelled as mathematical reals. The `abs(sum - 1.0) <= 1e-10` check uses the same tolerance over reals.
- `Utility.aggregated_score` (a `log10` of a product, app/models.py:244-248), `roc_auc_score`, the attack script's classifier (fingerprinting.py:9-19) and the `"{:,.2f}"` number format are function parameters. The model proves nothing about their values.
- The random salts, `DataFrame.sample` and `random.shuffle` are parameters: a salt, a ranking of the pool and a permutation. The model states what holds for every choice, not the distributions.
- The clock is given as `now`/`finishedAt` parameters of `CachedLeaderboard.Serve`. The cache is an object, not a class-level global.
- Database ids of new matches are consecutive numbers starting from `nextMatchId`, as an autoincrement key hands them out.
- `MATCHES_PER_TEAM` is taken as an integer setting. From the environment it would be a string, and `min` would then fail.
- The `round` query argument of `generate_matches` is taken as already parsed. A missing or non-numeric value is 0, as `request.args.get(type=int)` gives.
- The probabilities' rejection message embeds the data frame's text rendering. The model keeps a fixed message for it.
- `FileAllowed`/`FileRequired` of the upload forms and `BadZipFile` are not modelled. Neither are the `defence`, `attack`, `team`, `user` and `index` routes beyond the parts above.
- The configuration entries missing from config.py are parameters of `Settings`/`AttackSettings`: `NB_CLASSES`, the repetition mean and deviation, `ROWS_PER_CAPTURE`, `NB_TRACES_TO_CLASSIFY`, `ATTACK_COLUMNS` and the probability-column regular expression. `DEFENCE_COLUMNS` is the one exception: it is the fixed constant `TasksDefence.DEFENCE_COLUMNS`, taken as the value of config.py's `DATASET_COLUMNS` (`cell_id`, `rep`, `direction_size`, `timestamp`), whose entries 0 and 1 are `CLASS_NAME` and `REP_NAME`.
- TasksDefence.SplitTrainTestSet: re-sorting by insertion sort stands in for pandas' sorts. Rows with equal keys may come out in another order than pandas would give.
- TasksDefence.SplitTrainTestSet: returns the corrected split. The sampling pool is `Pool` and the train set is `TrainSet`, not the positional `PoolAsWritten` and `TrainSetAsWritten` of the source (see "## Findings"). `SetsFor`, `Split` and `TestCaptures` are corrected in the same way.
- TasksAttack.EvaluateAttackPerf: scores each attack with the corrected `TrueLabels`, which joins the verification set on capture id. The source compares verification classes and attack rows position by position (`TrueLabelsAsWritten`, see "## Findings"). `AttackOn` is corrected in the same way.
- Text.ParseInt reads an optional minus sign and ASCII digits only. Python's `int()` also accepts a leading `+`, surrounding whitespace and underscores between digits. Likewise `TasksAttack.IsProbaColumn` takes `\d` as an ASCII digit, where Python's `re` also matches other Unicode decimal digits. The column names the platform writes hold neither.
- Routes.Ranking: ties are stated only as "non-increasing". Python's stable `sorted` also keeps tied teams in table order, and the model does not prove that.
- Models.AttackPerformance: the SQL `group_by` with `max(timestamp)` may return any attack of a match holding that timestamp. The model returns one such attack.

## Findings

| source | as written | input that shows it | evidently intended | confidence | as-written member | corrected member |
|---|---|---|---|---|---|---|
| app/tasks_defence.py:157-171 | `df.merge` renumbers the selected rows 0..m-1, so `df.drop(index=test_set_rows.index)` drops the first m rows of the frame, not the test rows | three rows whose second capture is not selected: a test row stays in the train set and a train row is lost | the train set is the rows of unselected captures | high, not executed | DefenceFindings.TrainSetAsWrittenLeaks | TasksDefence.TrainSet |
| app/tasks_defence.py:145-152 | `merge(...).index` is positional, so the pool drops the first k rows instead of the guaranteed captures | class 1 with repetitions 0 and 3, class 2 with repetition 5: the guaranteed (2, 5) stays in the pool and (1, 3) is dropped from it | the pool is every capture that is not guaranteed | high, not executed | DefenceFindings.PoolAsWrittenMisplaced | TasksDefence.Pool |
| app/tasks_attack.py:101-119 | true labels are read in verification-file order and compared position by position with the attack rows | verification ((10, 1), (20, 2)); attack rows for captures 20 then 10 predicting 2 then 1 | labels joined on `capture_id` | high, not executed | TasksAttack.PositionalAccuracyMisjudges | TasksAttack.TrueLabels |
| app/models.py:179-185 | `sum / len` runs when both counts are 0 | a team with no attack match in the round, such as any admin team, which the leaderboard still scores | a team with no match has "Some attacks remain to do" | high, not executed | Models.AttackPerformanceAsWrittenFailsWithoutMatches | Models.AttackPerformance |
| app/forms.py:77 | the field object, not its `.data`, is compared with "New team" | team choice "New team" with new team name "New team" | the name "New team" is refused | high, not executed | Forms.NewTeamGuardAsWrittenNeverFires | Forms.ValidateNewTeamName |
| app/forms.py:109-110 with config.py:25 | `file_ext[1:]` ("csv") is looked up in `[".csv"]` | an archive holding only `dataset.csv` | a single `.csv` file is accepted | high, not executed | Forms.UploadAsWrittenRejectsAll | Forms.ValidateUpload |
| app/routes.py:143 | `current_user.is_admin()` calls a boolean column | an admin user joining a team whose member is an admin | admins may join admin teams | high, not executed | Routes.AdminJoinAsWrittenFails | Routes.DecideJoin |

=== FILE: attack.dfy ===
/** The attack pipeline of app/tasks_attack.py: validating an uploaded attack
    file against the matches of the current round and the verification sets of
    the attacked teams, then scoring it against each of them. The verification
    file of a team is given as a function from team id to its rows, and
    `roc_auc_score` as a function from labels and probability rows to a real. */
module TasksAttack {
  import opened Collections
  import opened Text
  import opened Models
  import TasksDefence

  /** One submitted row: the attacked team, the capture it classifies and the
      probabilities, one per probability column in column order. */
  datatype AttackRow = AttackRow(teamId: int, captureId: int, probas: seq<real>)

  /** An uploaded attack file: its column names and its rows. */
  datatype AttackFrame = AttackFrame(columns: seq<string>, rows: seq<AttackRow>)

  /** The deployment values the pipeline reads from the application config. */
  datatype AttackSettings = AttackSettings(
    attackColumns: seq<string>,
    probaPrefix: string,
    nbTracesToClassify: int,
    round: int)

  type Verification = int -> seq<TasksDefence.VerificationRow>

  /** `re.search(prefix + "\d+", name)`: the prefix followed by a digit occurs
      somewhere in the name. */
  predicate IsProbaColumn(prefix: string, name: string) {
    exists i :: 0 <= i < |name| && PrefixAndDigitAt(prefix, name, i)
  }

  predicate PrefixAndDigitAt(prefix: string, name: string, i: int) {
    0 <= i && i + |prefix| < |name| && name[i..i + |prefix|] == prefix && IsDigit(name[i + |prefix|])
  }

  /** `DataFrame.filter(regex=...)`: the probability columns, in column order. */
  function ProbaColumns(columns: seq<string>, prefix: string): (r: seq<string>)
    ensures forall c :: c in r <==> c in columns && IsProbaColumn(prefix, c)
  {
    Filter(columns, (c: string) => IsProbaColumn(prefix, c))
  }

  /** A data frame is rectangular: each row has one probability per
      probability column. */
  predicate WellFormed(f: AttackFrame, prefix: string) {
    forall r :: r in f.rows ==> |r.probas| == |ProbaColumns(f.columns, prefix)|
  }

  // ----- verify_attack -----

  const PROBABILITY_TOLERANCE: real := 0.000_000_000_1

  function AbsReal(x: real): real {
    if x < 0.0 then -x else x
  }

  function SetOf<T>(s: seq<T>): set<T> {
    set x | x in s
  }

  predicate AttackColumnsMatch(f: AttackFrame, s: AttackSettings) {
    SetOf(f.columns) == SetOf(s.attackColumns)
  }

  /** The number of rows expected from an attacker: one per trace to classify
      in each match it attacks this round. */
  function ExpectedRows(s: AttackSettings, teamId: int, matches: seq<Match>): int {
    s.nbTracesToClassify * NbMatchesInRound(s.round, teamId, matches)
  }

  function Targets(teamId: int, s: AttackSettings, matches: seq<Match>, teams: seq<Team>): (r: seq<int>)
    ensures NoDuplicates(r)
  {
    TeamIdToAttackInRound(teamId, s.round, matches, teams)
  }

  function SubmittedTargets(f: AttackFrame): set<int> {
    set r | r in f.rows :: r.teamId
  }

  predicate TargetsMatch(f: AttackFrame, teamId: int, s: AttackSettings, matches: seq<Match>, teams: seq<Team>) {
    SubmittedTargets(f) == SetOf(Targets(teamId, s, matches, teams))
  }

  function SubmittedCaptureIds(f: AttackFrame, target: int): set<int> {
    set r | r in f.rows && r.teamId == target :: r.captureId
  }

  function ExpectedCaptureIds(verif: Verification, target: int): set<int> {
    set v | v in verif(target) :: v.captureId
  }

  predicate CaptureIdsMatch(f: AttackFrame, targets: seq<int>, verif: Verification) {
    forall t :: t in targets ==> SubmittedCaptureIds(f, t) == ExpectedCaptureIds(verif, t)
  }

  /** Every probability lies in [0, 1] and every row sums to 1 within the
      tolerance. */
  predicate ValidProbabilities(f: AttackFrame) {
    (forall r, k :: r in f.rows && 0 <= k < |r.probas| ==> AbsReal(r.probas[k] - 0.5) <= 0.5) &&
    (forall r :: r in f.rows ==> AbsReal(SumReal(r.probas) - 1.0) <= PROBABILITY_TOLERANCE)
  }

  /** The outcome of `verify_attack`: acceptance or the first check failed. */
  datatype AttackVerdict =
    | AttackAccepted
    | WrongAttackColumns
    | WrongRowCount(expected: int, have: int)
    | WrongTargets
    | InvalidCaptureIds
    | InvalidProbabilities

  /** `verify_attack`: the checks in their order, the first failing one deciding
      the verdict. */
  function CheckAttack(f: AttackFrame, teamId: int, s: AttackSettings, matches: seq<Match>, teams: seq<Team>,
                       verif: Verification): (v: AttackVerdict)
    ensures v == WrongAttackColumns <==> !AttackColumnsMatch(f, s)
    ensures v.WrongRowCount? <==> AttackColumnsMatch(f, s) && |f.rows| != ExpectedRows(s, teamId, matches)
    ensures v.WrongRowCount? ==> v.expected == ExpectedRows(s, teamId, matches) && v.have == |f.rows|
    ensures v == WrongTargets <==>
      AttackColumnsMatch(f, s) && |f.rows| == ExpectedRows(s, teamId, matches) &&
      !TargetsMatch(f, teamId, s, matches, teams)
    ensures v == InvalidCaptureIds <==>
      AttackColumnsMatch(f, s) && |f.rows| == ExpectedRows(s, teamId, matches) &&
      TargetsMatch(f, teamId, s, matches, teams) && !CaptureIdsMatch(f, Targets(teamId, s, matches, teams), verif)
    ensures v == InvalidProbabilities <==>
      AttackColumnsMatch(f, s) && |f.rows| == ExpectedRows(s, teamId, matches) &&
      TargetsMatch(f, teamId, s, matches, teams) && CaptureIdsMatch(f, Targets(teamId, s, matches, teams), verif) &&
      !ValidProbabilities(f)
    ensures v == AttackAccepted <==>
      AttackColumnsMatch(f, s) && |f.rows| == ExpectedRows(s, teamId, matches) &&
      TargetsMatch(f, teamId, s, matches, teams) && CaptureIdsMatch(f, Targets(teamId, s, matches, teams), verif) &&
      ValidProbabilities(f)
  {
    if !AttackColumnsMatch(f, s) then WrongAttackColumns
    else if |f.rows| != ExpectedRows(s, teamId, matches) then WrongRowCount(ExpectedRows(s, teamId, matches), |f.rows|)
    else if !TargetsMatch(f, teamId, s, matches, teams) then WrongTargets
    else if !CaptureIdsMatch(f, Targets(teamId, s, matches, teams), verif) then InvalidCaptureIds
    else if !ValidProbabilities(f) then InvalidProbabilities
    else AttackAccepted
  }

  /** The messages of `verify_attack`. */
  const WRONG_ATTACK_COLUMNS: string :=
    "Your file does not have the correct columns.\nPlease follow the upload instructions.\n"
  const WRONG_ROW_COUNT: string :=
    "Your file does not contain classification for every trace you should attack: expected: "
  const WRONG_TARGETS: string :=
    "Your file contains attacks against teams you should not attack or does not attack all teams you should attack"
  const INVALID_CAPTURE_IDS: string := "Your file contains invalid capture_id indexes."
  const INVALID_PROBABILITIES: string := "Your output probabilities are not a valid distribution: "

  /** The feedback sent for each verdict. The rejected probabilities, which the
      source prints after the message, are not part of this model. */
  function AttackVerdictMessage(v: AttackVerdict): string {
    match v
    case AttackAccepted => ""
    case WrongAttackColumns => WRONG_ATTACK_COLUMNS
    case WrongRowCount(expected, have) =>
      WRONG_ROW_COUNT + IntToString(expected) + ", have: " + IntToString(have)
    case WrongTargets => WRONG_TARGETS
    case InvalidCaptureIds => INVALID_CAPTURE_IDS
    case InvalidProbabilities => INVALID_PROBABILITIES
  }

  /** Only acceptance comes with an empty message. */
  lemma MessageEmptyOnlyIfAccepted(v: AttackVerdict)
    ensures AttackVerdictMessage(v) == "" <==> v == AttackAccepted
  {
    match v
    case AttackAccepted =>
    case WrongRowCount(expected, have) => assert |WRONG_ROW_COUNT| > 0;
    case WrongTargets => assert |WRONG_TARGETS| > 0;
    case WrongAttackColumns => assert |WRONG_ATTACK_COLUMNS| > 0;
    case InvalidCaptureIds => assert |INVALID_CAPTURE_IDS| > 0;
    case InvalidProbabilities => assert |INVALID_PROBABILITIES| > 0;
  }

  /** `verify_attack`: whether the file is accepted and, if not, why. */
  function VerifyAttack(f: AttackFrame, teamId: int, s: AttackSettings, matches: seq<Match>, teams: seq<Team>,
                        verif: Verification): (r: (bool, string))
    ensures r.0 <==> CheckAttack(f, teamId, s, matches, teams, verif) == AttackAccepted
    ensures r.0 <==> r.1 == ""
  {
    var v := CheckAttack(f, teamId, s, matches, teams, verif);
    MessageEmptyOnlyIfAccepted(v);
    (v == AttackAccepted, AttackVerdictMessage(v))
  }

  /** An accepted file attacks exactly the teams of this round's matches, with
      one row per trace and match, the captures of each team's verification
      set, and probability rows that are distributions. */
  lemma AcceptedAttackShape(f: AttackFrame, teamId: int, s: AttackSettings, matches: seq<Match>, teams: seq<Team>,
                            verif: Verification, r: AttackRow)
    requires CheckAttack(f, teamId, s, matches, teams, verif) == AttackAccepted
    requires r in f.rows
    ensures |f.rows| == s.nbTracesToClassify * NbMatchesInRound(s.round, teamId, matches)
    ensures r.teamId in Targets(teamId, s, matches, teams)
    ensures exists m :: m in matches && m.attackerTeamId == teamId && m.round == s.round && m.defenderTeamId == r.teamId
    ensures exists v :: v in verif(r.teamId) && v.captureId == r.captureId
    ensures forall k :: 0 <= k < |r.probas| ==> 0.0 <= r.probas[k] <= 1.0
  {
    var targets := Targets(teamId, s, matches, teams);
    assert r.teamId in SubmittedTargets(f);
    assert r.teamId in SetOf(targets);
    assert r.captureId in SubmittedCaptureIds(f, r.teamId);
    assert r.captureId in ExpectedCaptureIds(verif, r.teamId);
    forall k | 0 <= k < |r.probas| ensures 0.0 <= r.probas[k] <= 1.0 {
      assert AbsReal(r.probas[k] - 0.5) <= 0.5;
    }
  }

  /** An accepted file has at least one row for every attacked team. */
  lemma AcceptedCoversTargets(f: AttackFrame, teamId: int, s: AttackSettings, matches: seq<Match>, teams: seq<Team>,
                              verif: Verification, t: int)
    requires CheckAttack(f, teamId, s, matches, teams, verif) == AttackAccepted
    requires t in Targets(teamId, s, matches, teams)
    ensures exists r :: r in f.rows && r.teamId == t
  {
    assert t in SetOf(Targets(teamId, s, matches, teams));
    assert t in SubmittedTargets(f);
  }

  // ----- evaluate_attack_perf -----

  /** The class a row predicts: the number after the last underscore in the
      name of the first column holding the row's highest probability, or
      nothing if the row has no probability or that name does not end in an
      integer. */
  function HardClass(probaColumns: seq<string>, probas: seq<real>): (r: Option<int>)
    requires |probas| == |probaColumns|
    ensures probas == [] ==> r.None?
  {
    if probas == [] then None
    else ParseInt(LastField(probaColumns[ArgMax(probas, (p: real) => p)], '_'))
  }

  /** With columns named `prefix` + the class number, the prefix ending in an
      underscore, the predicted class is that of the first most probable column. */
  lemma HardClassOfNamedColumns(prefix: string, classes: seq<int>, probaColumns: seq<string>, probas: seq<real>)
    requires prefix != [] && prefix[|prefix| - 1] == '_'
    requires |probaColumns| == |classes| == |probas| && probas != []
    requires forall k :: 0 <= k < |classes| ==> probaColumns[k] == prefix + IntToString(classes[k])
    ensures exists k :: (0 <= k < |probas| && HardClass(probaColumns, probas) == Some(classes[k]) &&
                         (forall j :: 0 <= j < |probas| ==> probas[j] <= probas[k]) &&
                         (forall j :: 0 <= j < k ==> probas[j] < probas[k]))
  {
    var k := ArgMax(probas, (p: real) => p);
    IntToStringNoUnderscore(classes[k]);
    LastFieldAfter(prefix, IntToString(classes[k]), '_');
    ParseIntOfIntToString(classes[k]);
  }

  /** The hard class of every row, or nothing if one of them has none. */
  function HardClasses(probaColumns: seq<string>, rows: seq<AttackRow>): (r: Option<seq<int>>)
    requires forall row :: row in rows ==> |row.probas| == |probaColumns|
    ensures r.Some? <==> forall i :: 0 <= i < |rows| ==> HardClass(probaColumns, rows[i].probas).Some?
    ensures r.Some? ==> (|r.value| == |rows| &&
                         forall i :: 0 <= i < |rows| ==> HardClass(probaColumns, rows[i].probas) == Some(r.value[i]))
  {
    assert forall i :: 0 <= i < |rows| ==> rows[i] in rows;
    var xs := seq(|rows|, i requires 0 <= i < |rows| => HardClass(probaColumns, rows[i].probas));
    assert forall i :: 0 <= i < |rows| ==> xs[i] == HardClass(probaColumns, rows[i].probas);
    AllSome(xs)
  }

  /** The number of positions at which two sequences agree. */
  function Agreements(a: seq<int>, b: seq<int>): (n: nat)
    requires |a| == |b|
    ensures n <= |a|
    ensures n == |a| <==> a == b
  {
    if a == [] then 0
    else
      var n := Agreements(a[..|a| - 1], b[..|b| - 1]);
      assert a == a[..|a| - 1] + [a[|a| - 1]] && b == b[..|b| - 1] + [b[|b| - 1]];
      n + (if a[|a| - 1] == b[|b| - 1] then 1 else 0)
  }

  /** A fraction `n / d` with `n <= d` lies in [0, 1] and is 1 exactly when `n == d`. */
  lemma FractionBounds(n: nat, d: nat)
    requires 0 < d && n <= d
    ensures 0.0 <= n as real / d as real <= 1.0
    ensures n as real / d as real == 1.0 <==> n == d
  {
    DivAtMostOne(n as real, d as real);
    DivIsOne(n as real, d as real);
  }

  lemma DivAtMostOne(a: real, b: real)
    requires 0.0 <= a <= b && 0.0 < b
    ensures 0.0 <= a / b <= 1.0
  {
  }

  lemma DivIsOne(a: real, b: real)
    requires 0.0 < b
    ensures a / b == 1.0 <==> a == b
  {
  }

  /** `accuracy_score(labels, predicted)`: the fraction of positions where the
      prediction equals the label; undefined when the lengths differ (the
      library's ValueError) or when there is nothing to score. */
  function Accuracy(labels: seq<int>, predicted: seq<int>): (r: Option<real>)
    ensures r.Some? <==> |labels| == |predicted| && predicted != []
    ensures r.Some? ==> 0.0 <= r.value <= 1.0
    ensures r.Some? ==> (r.value == 1.0 <==> labels == predicted)
  {
    if |labels| != |predicted| || predicted == [] then None
    else
      var n := Agreements(labels, predicted);
      FractionBounds(n, |predicted|);
      Some(n as real / |predicted| as real)
  }

  /** The true labels as the source lines them up: the class column of the
      verification file in its own order, whatever the order of the
      submitted rows. */
  function TrueLabelsAsWritten(verif: seq<TasksDefence.VerificationRow>): (r: seq<int>)
    ensures |r| == |verif|
    ensures forall i :: 0 <= i < |verif| ==> r[i] == verif[i].cellId
  {
    seq(|verif|, i requires 0 <= i < |verif| => verif[i].cellId)
  }

  /** The class the verification file gives a capture id: that of its first row
      with this id. */
  function LabelOf(verif: seq<TasksDefence.VerificationRow>, captureId: int): (r: Option<int>)
    ensures r.Some? <==> exists v :: v in verif && v.captureId == captureId
    ensures r.Some? ==> TasksDefence.VerificationRow(captureId, r.value) in verif
  {
    if verif == [] then None
    else if verif[0].captureId == captureId then Some(verif[0].cellId)
    else
      assert forall v :: v in verif <==> v == verif[0] || v in verif[1..];
      LabelOf(verif[1..], captureId)
  }

  /** The true labels joined to the submitted rows by capture id: the label of
      each row's capture, or nothing if one capture is not in the file. */
  function TrueLabels(verif: seq<TasksDefence.VerificationRow>, captureIds: seq<int>): (r: Option<seq<int>>)
    ensures r.Some? <==> forall i :: 0 <= i < |captureIds| ==> LabelOf(verif, captureIds[i]).Some?
    ensures r.Some? ==> (|r.value| == |captureIds| &&
                         forall i :: 0 <= i < |captureIds| ==> LabelOf(verif, captureIds[i]) == Some(r.value[i]))
  {
    var xs := seq(|captureIds|, i requires 0 <= i < |captureIds| => LabelOf(verif, captureIds[i]));
    assert forall i :: 0 <= i < |captureIds| ==> xs[i] == LabelOf(verif, captureIds[i]);
    AllSome(xs)
  }

  /** Labels joined by capture id do not depend on the order of the rows: if
      the rows are permuted, the labels follow them. */
  lemma TrueLabelsFollowRows(verif: seq<TasksDefence.VerificationRow>, ids: seq<int>, perm: seq<nat>)
    requires TrueLabels(verif, ids).Some?
    requires |perm| == |ids| && forall i :: 0 <= i < |perm| ==> perm[i] < |ids|
    ensures TrueLabels(verif, seq(|perm|, i requires 0 <= i < |perm| => ids[perm[i]])).Some?
    ensures forall i :: 0 <= i < |perm| ==>
      TrueLabels(verif, seq(|perm|, i requires 0 <= i < |perm| => ids[perm[i]])).value[i] ==
      TrueLabels(verif, ids).value[perm[i]]
  {
    var permuted := seq(|perm|, i requires 0 <= i < |perm| => ids[perm[i]]);
    var ls := TrueLabels(verif, ids).value;
    forall i | 0 <= i < |permuted| ensures LabelOf(verif, permuted[i]).Some? {
      assert LabelOf(verif, ids[perm[i]]) == Some(ls[perm[i]]);
    }
  }

  datatype AttackError =
    | UnreadableClass    // a row without a maximum or a class column not ending in an integer
    | UnknownCapture     // a submitted capture id absent from the verification file
    | NothingToScore     // no row against the attacked team
    | NoMatch            // no match against the attacked team this round

  /** The rows of the file attacking one team, in file order. */
  function RowsAgainst(f: AttackFrame, target: int): (r: seq<AttackRow>)
    ensures forall row :: row in r <==> row in f.rows && row.teamId == target
  {
    Filter(f.rows, (row: AttackRow) => row.teamId == target)
  }

  function CaptureIdsOf(rows: seq<AttackRow>): (r: seq<int>)
    ensures |r| == |rows| && forall i :: 0 <= i < |rows| ==> r[i] == rows[i].captureId
  {
    seq(|rows|, i requires 0 <= i < |rows| => rows[i].captureId)
  }

  function ProbasOf(rows: seq<AttackRow>): (r: seq<seq<real>>)
    ensures |r| == |rows| && forall i :: 0 <= i < |rows| ==> r[i] == rows[i].probas
  {
    seq(|rows|, i requires 0 <= i < |rows| => rows[i].probas)
  }

  /** The attack recorded against one team: the hard classes of its rows scored
      against the true classes of their captures, attached to the match of this
      round between the two teams. */
  function AttackOn(f: AttackFrame, teamId: int, s: AttackSettings, matches: seq<Match>, verif: Verification,
                    rocAuc: (seq<int>, seq<seq<real>>) -> real, target: int): (r: Result<NewAttack, AttackError>)
    requires WellFormed(f, s.probaPrefix)
  {
    var rows := RowsAgainst(f, target);
    var probaColumns := ProbaColumns(f.columns, s.probaPrefix);
    match HardClasses(probaColumns, rows)
    case None => Err(UnreadableClass)
    case Some(predicted) =>
      match TrueLabels(verif(target), CaptureIdsOf(rows))
      case None => Err(UnknownCapture)
      case Some(labels) =>
        match Accuracy(labels, predicted)
        case None => Err(NothingToScore)
        case Some(accuracy) =>
          match GetMatchAgainst(teamId, s.round, target, matches)
          case None => Err(NoMatch)
          case Some(m) => Ok(NewAttack(m.id, AttackResult(accuracy, rocAuc(labels, ProbasOf(rows)))))
  }

  /** The labels of a team's rows equal their predictions exactly when each
      row's predicted class is the class of its capture. */
  lemma AllPredictionsRight(cols: seq<string>, rows: seq<AttackRow>, verif: seq<TasksDefence.VerificationRow>)
    requires forall row :: row in rows ==> |row.probas| == |cols|
    requires HardClasses(cols, rows).Some? && TrueLabels(verif, CaptureIdsOf(rows)).Some?
    ensures TrueLabels(verif, CaptureIdsOf(rows)).value == HardClasses(cols, rows).value <==>
      forall row :: row in rows ==> LabelOf(verif, row.captureId) == HardClass(cols, row.probas)
  {
    var predicted := HardClasses(cols, rows).value;
    var labels := TrueLabels(verif, CaptureIdsOf(rows)).value;
    if labels == predicted {
      forall row | row in rows ensures LabelOf(verif, row.captureId) == HardClass(cols, row.probas) {
        var i :| 0 <= i < |rows| && rows[i] == row;
      }
    }
    if forall row :: row in rows ==> LabelOf(verif, row.captureId) == HardClass(cols, row.probas) {
      forall i | 0 <= i < |rows| ensures labels[i] == predicted[i] {
        assert rows[i] in rows;
      }
    }
  }

  /** What an attack records: the match of this round in which `teamId` attacks
      `target`, and an accuracy that is 1 exactly when every row's predicted
      class is the true class of its capture. */
  lemma AttackOnProperties(f: AttackFrame, teamId: int, s: AttackSettings, matches: seq<Match>, verif: Verification,
                           rocAuc: (seq<int>, seq<seq<real>>) -> real, target: int)
    requires WellFormed(f, s.probaPrefix)
    requires AttackOn(f, teamId, s, matches, verif, rocAuc, target).Ok?
    ensures exists m :: (m in matches && m.id == AttackOn(f, teamId, s, matches, verif, rocAuc, target).value.matchId &&
                         m.attackerTeamId == teamId && m.defenderTeamId == target && m.round == s.round)
    ensures 0.0 <= AttackOn(f, teamId, s, matches, verif, rocAuc, target).value.results.accuracy <= 1.0
    ensures AttackOn(f, teamId, s, matches, verif, rocAuc, target).value.results.accuracy == 1.0 <==>
      forall row :: row in RowsAgainst(f, target) ==>
        LabelOf(verif(target), row.captureId) == HardClass(ProbaColumns(f.columns, s.probaPrefix), row.probas)
  {
    var rows := RowsAgainst(f, target);
    var cols := ProbaColumns(f.columns, s.probaPrefix);
    var predicted := HardClasses(cols, rows).value;
    var labels := TrueLabels(verif(target), CaptureIdsOf(rows)).value;
    var m := GetMatchAgainst(teamId, s.round, target, matches).value;
    AllPredictionsRight(cols, rows, verif(target));
  }

  /** Every team this round's matches make the attacker attack has its match,
      so an attack against it never fails for want of one. */
  lemma TargetsHaveMatches(teamId: int, s: AttackSettings, matches: seq<Match>, teams: seq<Team>, target: int)
    requires target in Targets(teamId, s, matches, teams)
    ensures GetMatchAgainst(teamId, s.round, target, matches).Some?
  {
  }

  /** The attacks against a list of targets, each evaluated on its own. */
  function AttackResults(f: AttackFrame, teamId: int, s: AttackSettings, matches: seq<Match>, verif: Verification,
                         rocAuc: (seq<int>, seq<seq<real>>) -> real, targets: seq<int>): (r: seq<Result<NewAttack, AttackError>>)
    requires WellFormed(f, s.probaPrefix)
    ensures |r| == |targets| && forall i :: 0 <= i < |targets| ==> r[i] == AttackOn(f, teamId, s, matches, verif, rocAuc, targets[i])
  {
    seq(|targets|, i requires 0 <= i < |targets| => AttackOn(f, teamId, s, matches, verif, rocAuc, targets[i]))
  }

  /** `evaluate_attack_perf`: one attack per team to attack this round, in the
      order the query lists them, appended as each is evaluated; the first
      failure ends the evaluation. */
  method EvaluateAttackPerf(f: AttackFrame, teamId: int, s: AttackSettings, matches: seq<Match>, teams: seq<Team>,
                            verif: Verification, rocAuc: (seq<int>, seq<seq<real>>) -> real)
    returns (r: Result<seq<NewAttack>, AttackError>)
    requires WellFormed(f, s.probaPrefix)
    ensures r == AllOk(AttackResults(f, teamId, s, matches, verif, rocAuc, Targets(teamId, s, matches, teams)))
  {
    var targets := Targets(teamId, s, matches, teams);
    ghost var results := AttackResults(f, teamId, s, matches, verif, rocAuc, targets);
    var performed: seq<NewAttack> := [];
    for i := 0 to |targets|
      invariant AllOk(results[..i]) == Ok(performed)
    {
      var a := AttackOn(f, teamId, s, matches, verif, rocAuc, targets[i]);
      if a.Err? {
        AllOkFirstError(results, i);
        return Err(a.error);
      }
      AllOkExtend(results, i);
      performed := performed + [a.value];
    }
    assert results[..|targets|] == results;
    r := Ok(performed);
  }

  /** A submission that classifies both captures of a verification file
      correctly, but lists them in the other order, scores 0 when the labels are
      taken in file order and 1 when they are joined by capture id. */
  lemma PositionalAccuracyMisjudges()
    ensures LabelOf([TasksDefence.VerificationRow(10, 1), TasksDefence.VerificationRow(20, 2)], 20) == Some(2)
    ensures LabelOf([TasksDefence.VerificationRow(10, 1), TasksDefence.VerificationRow(20, 2)], 10) == Some(1)
    ensures Accuracy(TrueLabelsAsWritten([TasksDefence.VerificationRow(10, 1), TasksDefence.VerificationRow(20, 2)]), [2, 1])
            == Some(0.0)
    ensures TrueLabels([TasksDefence.VerificationRow(10, 1), TasksDefence.VerificationRow(20, 2)], [20, 10]) == Some([2, 1])
    ensures Accuracy([2, 1], [2, 1]) == Some(1.0)
  {
    var verif := [TasksDefence.VerificationRow(10, 1), TasksDefence.VerificationRow(20, 2)];
    assert TrueLabelsAsWritten(verif) == [1, 2];
    assert Agreements([1, 2], [2, 1]) == 0 by {
      assert [1, 2][..1] == [1] && [2, 1][..1] == [2];
    }
    var joined := TrueLabels(verif, [20, 10]);
    assert joined.value == [2, 1];
  }
}

=== FILE: collections.dfy ===
/** Value-level helpers shared by the whole model: optional values and failures,
    order-preserving de-duplication (pandas `drop_duplicates`), sums, maxima,
    means and medians of a column, and the stable sort on lexicographic keys that
    stands for pandas `sort_values(by=[...])` and Python's `sorted`. */
module Collections {

  datatype Option<+T> = None | Some(value: T)

  datatype Result<+T, +E> = Ok(value: T) | Err(error: E)

  predicate NoDuplicates<T(==)>(s: seq<T>) {
    forall i, j :: 0 <= i < j < |s| ==> s[i] != s[j]
  }

  /** The first occurrence of every element, in the order of first occurrence. */
  function Distinct<T(==,!new)>(s: seq<T>): (r: seq<T>)
    ensures forall x :: x in r <==> x in s
    ensures NoDuplicates(r)
    ensures |r| <= |s|
  {
    if s == [] then []
    else
      var init := s[..|s| - 1];
      var r := Distinct(init);
      assert forall x :: x in s <==> x in init || x == s[|s| - 1] by {
        assert s == init + [s[|s| - 1]];
      }
      if s[|s| - 1] in r then r else r + [s[|s| - 1]]
  }

  /** The position of the first occurrence of `x` in `s`. */
  function FirstIndex<T(==)>(s: seq<T>, x: T): (k: nat)
    requires x in s
    ensures k < |s| && s[k] == x && x !in s[..k]
  {
    if s[0] == x then 0
    else
      assert s == [s[0]] + s[1..];
      var k := FirstIndex(s[1..], x);
      assert s[..k + 1] == [s[0]] + s[1..][..k];
      k + 1
  }

  /** A first occurrence is found wherever it is. */
  lemma FirstIndexAt<T>(s: seq<T>, x: T, k: nat)
    requires k < |s| && s[k] == x && x !in s[..k]
    ensures FirstIndex(s, x) == k
  {
    var f := FirstIndex(s, x);
  }

  /** `Distinct` lists the elements in the order of their first occurrence. */
  lemma {:induction false} DistinctFirstOccurrenceOrder<T(!new)>(s: seq<T>)
    ensures forall i :: 0 <= i < |Distinct(s)| ==> Distinct(s)[i] in s
    ensures forall i, j :: 0 <= i < j < |Distinct(s)| ==>
      FirstIndex(s, Distinct(s)[i]) < FirstIndex(s, Distinct(s)[j])
  {
    if s != [] {
      var init, last := s[..|s| - 1], s[|s| - 1];
      var r := Distinct(init);
      DistinctFirstOccurrenceOrder(init);
      assert s == init + [last];
      forall x | x in init
        ensures FirstIndex(s, x) == FirstIndex(init, x)
      {
        var k := FirstIndex(init, x);
        assert s[..k] == init[..k];
        FirstIndexAt(s, x, k);
      }
      if last !in r {
        assert last !in init;
        assert s[..|s| - 1] == init;
        FirstIndexAt(s, last, |s| - 1);
        assert Distinct(s) == r + [last];
      }
    }
  }

  /** De-duplicating a sequence that has no duplicates leaves it as it is. */
  lemma {:induction false} DistinctOfDistinct<T(!new)>(s: seq<T>)
    requires NoDuplicates(s)
    ensures Distinct(s) == s
  {
    if s != [] {
      var init := s[..|s| - 1];
      DistinctOfDistinct(init);
      assert s[|s| - 1] !in init;
      assert init + [s[|s| - 1]] == s;
    }
  }

  /** Without duplicates, the length of a sequence is the size of its set. */
  lemma {:induction false} NoDuplicatesCard<T>(s: seq<T>)
    requires NoDuplicates(s)
    ensures |set x | x in s| == |s|
  {
    if s != [] {
      var init := s[..|s| - 1];
      NoDuplicatesCard(init);
      assert s == init + [s[|s| - 1]];
      assert (set x | x in s) == (set x | x in init) + {s[|s| - 1]};
    }
  }

  function SumInt(s: seq<int>): int {
    if s == [] then 0 else SumInt(s[..|s| - 1]) + s[|s| - 1]
  }

  function SumReal(s: seq<real>): real {
    if s == [] then 0.0 else SumReal(s[..|s| - 1]) + s[|s| - 1]
  }

  function MaxReal(s: seq<real>): (m: real)
    requires s != []
    ensures m in s
    ensures forall x :: x in s ==> x <= m
  {
    if |s| == 1 then s[0]
    else
      var init := s[..|s| - 1];
      assert s == init + [s[|s| - 1]];
      var m := MaxReal(init);
      if s[|s| - 1] > m then s[|s| - 1] else m
  }

  function MinReal(s: seq<real>): (m: real)
    requires s != []
    ensures m in s
    ensures forall x :: x in s ==> m <= x
  {
    if |s| == 1 then s[0]
    else
      var init := s[..|s| - 1];
      assert s == init + [s[|s| - 1]];
      var m := MinReal(init);
      if s[|s| - 1] < m then s[|s| - 1] else m
  }

  /** `n` copies of `x` added up, which keeps the bounds below linear. */
  function Scaled(n: nat, x: real): real {
    if n == 0 then 0.0 else Scaled(n - 1, x) + x
  }

  lemma {:induction false} ScaledIsProduct(n: nat, x: real)
    ensures Scaled(n, x) == n as real * x
  {
    if n > 0 {
      ScaledIsProduct(n - 1, x);
      assert n as real * x == (n - 1) as real * x + x;
    }
  }

  /** The sum of a column lies between its length times its least and its
      greatest value. */
  lemma {:induction false} SumRealBounds(s: seq<real>, lo: real, hi: real)
    requires forall x :: x in s ==> lo <= x <= hi
    ensures Scaled(|s|, lo) <= SumReal(s) <= Scaled(|s|, hi)
  {
    if s != [] {
      var init := s[..|s| - 1];
      assert s == init + [s[|s| - 1]];
      assert forall x :: x in init ==> x in s;
      SumRealBounds(init, lo, hi);
      assert s[|s| - 1] in s;
    }
  }

  /** Arithmetic mean (pandas `Series.mean`) of a non-empty column. */
  function Mean(s: seq<real>): (m: real)
    requires s != []
    ensures MinReal(s) <= m <= MaxReal(s)
  {
    var n := |s| as real;
    SumRealBounds(s, MinReal(s), MaxReal(s));
    ScaledIsProduct(|s|, MinReal(s));
    ScaledIsProduct(|s|, MaxReal(s));
    DivBounds(SumReal(s), n, MinReal(s), MaxReal(s));
    SumReal(s) / n
  }

  lemma DivBounds(total: real, n: real, lo: real, hi: real)
    requires n > 0.0 && n * lo <= total <= n * hi
    ensures lo <= total / n <= hi
  {
    assert total / n * n == total;
  }

  /** Median (pandas `Series.median`): the middle element of the sorted column,
      or the average of the two middle elements when the length is even. */
  function Median(s: seq<real>): (m: real)
    requires s != []
    ensures MinReal(s) <= m <= MaxReal(s)
  {
    var t := SortBy(s, x => [x]);
    SameMultisetSameLength(t, s);
    var n := |t|;
    assert t[n / 2] in multiset(t) && t[(n - 1) / 2] in multiset(t);
    var a, b := t[(n - 1) / 2], t[n / 2];
    assert a in s && b in s;
    if n % 2 == 1 then b else (a + b) / 2.0
  }

  /** Lexicographic order on sort keys, a proper prefix first: the order of
      Python tuples used by `sorted` and pandas `sort_values(by=[...])`. */
  predicate LexLe(a: seq<real>, b: seq<real>)
    decreases |a|
  {
    a == [] || (b != [] && (a[0] < b[0] || (a[0] == b[0] && LexLe(a[1..], b[1..]))))
  }

  lemma {:induction false} LexLeTotal(a: seq<real>, b: seq<real>)
    ensures LexLe(a, b) || LexLe(b, a)
    decreases |a|
  {
    if a != [] && b != [] && a[0] == b[0] {
      LexLeTotal(a[1..], b[1..]);
    }
  }

  lemma {:induction false} LexLeTrans(a: seq<real>, b: seq<real>, c: seq<real>)
    requires LexLe(a, b) && LexLe(b, c)
    ensures LexLe(a, c)
    decreases |a|
  {
    if a != [] && a[0] == b[0] && b[0] == c[0] {
      LexLeTrans(a[1..], b[1..], c[1..]);
    }
  }

  lemma {:induction false} LexLeAntisym(a: seq<real>, b: seq<real>)
    requires LexLe(a, b) && LexLe(b, a)
    ensures a == b
    decreases |a|
  {
    if a != [] {
      LexLeAntisym(a[1..], b[1..]);
      assert a == [a[0]] + a[1..] && b == [b[0]] + b[1..];
    }
  }

  predicate SortedBy<T>(s: seq<T>, key: T -> seq<real>) {
    forall i, j :: 0 <= i < j < |s| ==> LexLe(key(s[i]), key(s[j]))
  }

  /** The tail of a sorted sequence is sorted, with keys not below the head's. */
  lemma SortedTail<T>(s: seq<T>, key: T -> seq<real>)
    requires SortedBy(s, key) && s != []
    ensures s == [s[0]] + s[1..]
    ensures SortedBy(s[1..], key)
    ensures forall j :: 0 <= j < |s[1..]| ==> LexLe(key(s[0]), key(s[1..][j]))
  {
    var tail := s[1..];
    forall j | 0 <= j < |tail| ensures LexLe(key(s[0]), key(tail[j])) {
      assert tail[j] == s[j + 1];
    }
    forall i, j | 0 <= i < j < |tail| ensures LexLe(key(tail[i]), key(tail[j])) {
      assert tail[i] == s[i + 1] && tail[j] == s[j + 1];
    }
  }

  /** Putting an element in front of a sorted sequence keeps it sorted when
      its key is below every key of the sequence. */
  lemma SortedCons<T>(y: T, s: seq<T>, key: T -> seq<real>)
    requires SortedBy(s, key)
    requires forall j :: 0 <= j < |s| ==> LexLe(key(y), key(s[j]))
    ensures SortedBy([y] + s, key)
  {
    var r := [y] + s;
    forall i, j | 0 <= i < j < |r| ensures LexLe(key(r[i]), key(r[j])) {
      assert r[j] == s[j - 1];
      if i > 0 {
        assert r[i] == s[i - 1];
      }
    }
  }

  /** A lower bound of `x` and of every element of `tail` bounds every
      element of a permutation of `tail + [x]`. */
  lemma {:induction false} InsertLowerBound<T>(lo: seq<real>, x: T, tail: seq<T>, rest: seq<T>, key: T -> seq<real>)
    requires multiset(rest) == multiset(tail) + multiset{x}
    requires LexLe(lo, key(x))
    requires forall j :: 0 <= j < |tail| ==> LexLe(lo, key(tail[j]))
    ensures forall j :: 0 <= j < |rest| ==> LexLe(lo, key(rest[j]))
  {
    forall j | 0 <= j < |rest| ensures LexLe(lo, key(rest[j])) {
      assert rest[j] in multiset(rest);
      if rest[j] != x {
        assert rest[j] in multiset(tail);
        var k :| 0 <= k < |tail| && tail[k] == rest[j];
      }
    }
  }

  /** An element whose key is below the first key of a sorted sequence is
      below all of them. */
  lemma {:induction false} BelowSorted<T>(x: T, s: seq<T>, key: T -> seq<real>)
    requires s != [] && SortedBy(s, key) && LexLe(key(x), key(s[0]))
    ensures forall j :: 0 <= j < |s| ==> LexLe(key(x), key(s[j]))
  {
    forall j | 0 < j < |s| ensures LexLe(key(x), key(s[j])) {
      LexLeTrans(key(x), key(s[0]), key(s[j]));
    }
  }

  /** Inserts `x` into the sorted `s` after every element whose key is not
      greater than its own, which keeps the sort stable. */
  function InsertBy<T>(x: T, s: seq<T>, key: T -> seq<real>): (r: seq<T>)
    requires SortedBy(s, key)
    ensures multiset(r) == multiset(s) + multiset{x}
    ensures SortedBy(r, key)
    ensures |r| == |s| + 1
  {
    if s == [] then [x]
    else if LexLe(key(s[0]), key(x)) then
      var tail := s[1..];
      SortedTail(s, key);
      var rest := InsertBy(x, tail, key);
      InsertLowerBound(key(s[0]), x, tail, rest, key);
      SortedCons(s[0], rest, key);
      [s[0]] + rest
    else
      LexLeTotal(key(s[0]), key(x));
      BelowSorted(x, s, key);
      SortedCons(x, s, key);
      [x] + s
  }

  /** Stable insertion sort by a lexicographic key. */
  function SortBy<T>(s: seq<T>, key: T -> seq<real>): (r: seq<T>)
    ensures multiset(r) == multiset(s)
    ensures SortedBy(r, key)
  {
    if s == [] then []
    else
      assert s == s[..|s| - 1] + [s[|s| - 1]];
      InsertBy(s[|s| - 1], SortBy(s[..|s| - 1], key), key)
  }

  /** Concatenation regroups freely. */
  lemma ConcatAssoc<T>(a: seq<T>, b: seq<T>, c: seq<T>)
    ensures a + (b + c) == a + b + c
  {
  }

  /** Two sequences with the same elements have the same length. */
  lemma SameMultisetSameLength<T>(a: seq<T>, b: seq<T>)
    requires multiset(a) == multiset(b)
    ensures |a| == |b|
  {
    assert |multiset(a)| == |a| && |multiset(b)| == |b|;
  }

  /** The elements satisfying `p`, in order (a boolean mask in pandas, a WHERE
      clause in SQL). */
  function Filter<T(!new)>(s: seq<T>, p: T -> bool): (r: seq<T>)
    ensures |r| <= |s|
    ensures forall x :: x in r <==> x in s && p(x)
    ensures forall x :: multiset(r)[x] == if p(x) then multiset(s)[x] else 0
  {
    if s == [] then []
    else
      var init := s[..|s| - 1];
      assert s == init + [s[|s| - 1]];
      var r := Filter(init, p);
      if p(s[|s| - 1]) then r + [s[|s| - 1]] else r
  }

  /** Selecting from a sequence without duplicates gives one without duplicates. */
  lemma {:induction false} FilterNoDuplicates<T(!new)>(s: seq<T>, p: T -> bool)
    requires NoDuplicates(s)
    ensures NoDuplicates(Filter(s, p))
  {
    if s != [] {
      var init := s[..|s| - 1];
      assert s == init + [s[|s| - 1]];
      FilterNoDuplicates(init, p);
      assert s[|s| - 1] !in init;
    }
  }

  /** A mask and its negation split a sequence into two parts holding every
      element exactly once. */
  lemma FilterPartition<T(!new)>(s: seq<T>, p: T -> bool, q: T -> bool)
    requires forall x :: q(x) == !p(x)
    ensures multiset(Filter(s, p)) + multiset(Filter(s, q)) == multiset(s)
    ensures |Filter(s, p)| + |Filter(s, q)| == |s|
  {
    var a, b := Filter(s, p), Filter(s, q);
    assert forall x :: (multiset(a) + multiset(b))[x] == multiset(s)[x];
    assert multiset(a) + multiset(b) == multiset(s);
    assert |multiset(a) + multiset(b)| == |a| + |b|;
  }

  /** A sequence has no duplicates exactly when no element occurs twice in its
      multiset. */
  lemma {:induction false} NoDuplicatesMultiset<T>(s: seq<T>)
    ensures NoDuplicates(s) <==> forall x :: multiset(s)[x] <= 1
  {
    if s != [] {
      var init := s[..|s| - 1];
      var last := s[|s| - 1];
      assert s == init + [last];
      NoDuplicatesMultiset(init);
      if NoDuplicates(s) {
        assert last !in init;
      }
      if forall x :: multiset(s)[x] <= 1 {
        assert forall x :: multiset(init)[x] <= multiset(s)[x];
        assert last !in multiset(init) by {
          assert multiset(s)[last] == multiset(init)[last] + 1;
        }
      }
    }
  }

  /** Keeping, from a list without repeats, the members of a second such list
      all of whose elements it holds leaves as many elements as that second list. */
  lemma FilterMembersLength<T(!new)>(s: seq<T>, t: seq<T>, p: T -> bool)
    requires NoDuplicates(s) && NoDuplicates(t)
    requires forall x :: x in t ==> x in s
    requires forall x :: p(x) <==> x in t
    ensures |Filter(s, p)| == |t|
  {
    var f := Filter(s, p);
    NoDuplicatesMultiset(s);
    NoDuplicatesMultiset(t);
    forall x ensures multiset(f)[x] == multiset(t)[x] {
      if x in t {
        assert x in s;
      }
    }
    assert multiset(f) == multiset(t);
    SameMultisetSameLength(f, t);
  }

  /** Rearranging a sequence without duplicates keeps it without duplicates. */
  lemma PermutationNoDuplicates<T>(s: seq<T>, t: seq<T>)
    requires NoDuplicates(s) && multiset(s) == multiset(t)
    ensures NoDuplicates(t)
  {
    NoDuplicatesMultiset(s);
    NoDuplicatesMultiset(t);
  }

  /** The index of the first element with the greatest `score` (SQL `ORDER BY
      ... DESC LIMIT 1` resolving ties by position; numpy/pandas `idxmax`). */
  function ArgMax<T>(s: seq<T>, score: T -> real): (k: nat)
    requires s != []
    ensures k < |s|
    ensures forall j :: 0 <= j < |s| ==> score(s[j]) <= score(s[k])
    ensures forall j :: 0 <= j < k ==> score(s[j]) < score(s[k])
  {
    if |s| == 1 then 0
    else
      var k := ArgMax(s[..|s| - 1], score);
      if score(s[|s| - 1]) > score(s[k]) then |s| - 1 else k
  }

  /** The values of a sequence of options, or nothing if one is missing. */
  function AllSome<T>(xs: seq<Option<T>>): (r: Option<seq<T>>)
    ensures r.Some? <==> forall i :: 0 <= i < |xs| ==> xs[i].Some?
    ensures r.Some? ==> (|r.value| == |xs| && forall i :: 0 <= i < |xs| ==> xs[i] == Some(r.value[i]))
  {
    if xs == [] then Some([])
    else
      var prefix := xs[..|xs| - 1];
      var init := AllSome(prefix);
      if init.None? then
        assert exists i :: 0 <= i < |prefix| && prefix[i].None?;
        None
      else if xs[|xs| - 1].None? then None
      else Some(init.value + [xs[|xs| - 1].value])
  }

  /** The values of a sequence of results, or the first error among them. */
  function AllOk<T(==), E(==)>(xs: seq<Result<T, E>>): (r: Result<seq<T>, E>)
    ensures r.Ok? <==> forall i :: 0 <= i < |xs| ==> xs[i].Ok?
    ensures r.Ok? ==> (|r.value| == |xs| && forall i :: 0 <= i < |xs| ==> xs[i] == Ok(r.value[i]))
    ensures r.Err? ==> exists i :: (0 <= i < |xs| && xs[i] == Err(r.error) &&
                                    forall j :: 0 <= j < i ==> xs[j].Ok?)
  {
    if xs == [] then Ok([])
    else if xs[0].Err? then Err(xs[0].error)
    else
      var rest := AllOk(xs[1..]);
      if rest.Err? then
        var i :| 0 <= i < |xs| - 1 && xs[1..][i] == Err(rest.error) && forall j :: 0 <= j < i ==> xs[1..][j].Ok?;
        assert xs[i + 1] == Err(rest.error);
        assert forall j :: 0 <= j < i + 1 ==> xs[j].Ok? by {
          forall j | 0 <= j < i + 1 ensures xs[j].Ok? {
            if j > 0 { assert xs[j] == xs[1..][j - 1]; }
          }
        }
        Err(rest.error)
      else
        assert forall i :: 1 <= i < |xs| ==> xs[i] == xs[1..][i - 1];
        Ok([xs[0].value] + rest.value)
  }

  /** Gathering one more success extends the gathered values. */
  lemma AllOkExtend<T, E>(xs: seq<Result<T, E>>, i: int)
    requires 0 <= i < |xs| && AllOk(xs[..i]).Ok? && xs[i].Ok?
    ensures AllOk(xs[..i + 1]) == Ok(AllOk(xs[..i]).value + [xs[i].value])
  {
    var longer := xs[..i + 1];
    assert forall j :: 0 <= j < i ==> longer[j] == xs[..i][j];
    var r := AllOk(longer);
    assert r.Ok?;
    assert r.value == AllOk(xs[..i]).value + [xs[i].value];
  }

  /** The first error after a run of successes is the error of the whole. */
  lemma AllOkFirstError<T, E>(xs: seq<Result<T, E>>, i: int)
    requires 0 <= i < |xs| && AllOk(xs[..i]).Ok? && xs[i].Err?
    ensures AllOk(xs) == Err(xs[i].error)
  {
    var r := AllOk(xs);
    assert forall j :: 0 <= j < i ==> xs[j] == xs[..i][j];
    var k :| 0 <= k < |xs| && xs[k] == Err(r.error) && forall j :: 0 <= j < k ==> xs[j].Ok?;
    assert k == i;
  }

  /** An injective function maps 1..k to exactly k values. */
  lemma {:induction false} InjectiveImageCard<T>(k: nat, f: int -> T)
    requires forall a, b :: 1 <= a <= k && 1 <= b <= k && f(a) == f(b) ==> a == b
    ensures |set j | 1 <= j <= k :: f(j)| == k
  {
    if k > 0 {
      var smaller := set j | 1 <= j <= k - 1 :: f(j);
      InjectiveImageCard(k - 1, f);
      assert (set j | 1 <= j <= k :: f(j)) == smaller + {f(k)};
      assert f(k) !in smaller;
    } else {
      assert (set j | 1 <= j <= k :: f(j)) == {};
    }
  }

  /** Keeping some elements of a sequence keeps their keys distinct. */
  lemma {:induction false} FilterKeepsDistinctKeys<T(!new)>(s: seq<T>, p: T -> bool, key: T -> int)
    requires forall i, j :: 0 <= i < j < |s| ==> key(s[i]) != key(s[j])
    ensures forall i, j :: 0 <= i < j < |Filter(s, p)| ==> key(Filter(s, p)[i]) != key(Filter(s, p)[j])
  {
    if s != [] {
      var init := s[..|s| - 1];
      var last := s[|s| - 1];
      FilterKeepsDistinctKeys(init, p, key);
      var r := Filter(init, p);
      forall x | x in r ensures key(x) != key(last) {
        var i :| 0 <= i < |init| && init[i] == x;
        assert s[i] == x;
      }
      if p(last) {
        var full := r + [last];
        assert Filter(s, p) == full;
        forall i, j | 0 <= i < j < |full| ensures key(full[i]) != key(full[j]) {
          if j == |r| {
            assert full[i] in r;
          }
        }
      }
    }
  }

  /** De-duplicating a sorted sequence keeps it sorted. */
  lemma {:induction false} DistinctSortedBy<T(!new)>(s: seq<T>, key: T -> seq<real>)
    requires SortedBy(s, key)
    ensures SortedBy(Distinct(s), key)
  {
    if s != [] {
      var init := s[..|s| - 1];
      var last := s[|s| - 1];
      DistinctSortedBy(init, key);
      var r := Distinct(init);
      forall x | x in r ensures LexLe(key(x), key(last)) {
        var i :| 0 <= i < |init| && init[i] == x;
        assert s[i] == x;
      }
      if last !in r {
        var d := r + [last];
        forall i, j | 0 <= i < j < |d| ensures LexLe(key(d[i]), key(d[j])) {
          if j == |r| {
            assert d[i] in r;
          } else {
            assert d[i] == r[i] && d[j] == r[j];
          }
        }
      }
    }
  }

  /** Two sorted sequences without duplicates that hold the same elements are
      equal, when the key tells elements apart. */
  lemma {:induction false} SortedByUnique<T>(a: seq<T>, b: seq<T>, key: T -> seq<real>)
    requires forall x, y :: key(x) == key(y) ==> x == y
    requires SortedBy(a, key) && SortedBy(b, key) && NoDuplicates(a) && NoDuplicates(b)
    requires forall x :: x in a <==> x in b
    ensures a == b
    decreases |a|
  {
    if a == [] {
      NoDuplicatesCard(b);
      assert (set x | x in b) == {};
    } else {
      assert a[0] in a;
      var j :| 0 <= j < |b| && b[j] == a[0];
      assert b[0] in b;
      var i :| 0 <= i < |a| && a[i] == b[0];
      if i != 0 && j != 0 {
        LexLeAntisym(key(a[0]), key(b[0]));
      }
      assert a[0] == b[0];
      forall x ensures x in a[1..] <==> x in b[1..] {
        assert x in a[1..] <==> x in a && x != a[0] by {
          assert a == [a[0]] + a[1..];
          if x in a[1..] {
            var k :| 0 <= k < |a[1..]| && a[1..][k] == x;
            assert a[k + 1] == x;
          }
        }
        assert x in b[1..] <==> x in b && x != b[0] by {
          assert b == [b[0]] + b[1..];
          if x in b[1..] {
            var k :| 0 <= k < |b[1..]| && b[1..][k] == x;
            assert b[k + 1] == x;
          }
        }
      }
      SortedByUnique(a[1..], b[1..], key);
      assert a == [a[0]] + a[1..] && b == [b[0]] + b[1..];
    }
  }

  /** Sorting a sorted sequence without duplicates leaves it as it is. */
  lemma SortByOfSorted<T>(s: seq<T>, key: T -> seq<real>)
    requires forall x, y :: key(x) == key(y) ==> x == y
    requires SortedBy(s, key) && NoDuplicates(s)
    ensures SortBy(s, key) == s
  {
    var r := SortBy(s, key);
    PermutationNoDuplicates(s, r);
    forall x ensures x in r <==> x in s {
      assert x in multiset(r) <==> x in multiset(s);
    }
    SortedByUnique(r, s, key);
  }
}

=== FILE: defence.dfy ===
/** The defence pipeline of app/tasks_defence.py: validating an uploaded trace
    dataset, measuring the utility cost of the defence, relabelling repetitions
    and splitting the captures into a test set, its verification labels and a
    training set. A dataset is the sequence of its rows in file order; pandas
    index labels are the positions 0..n-1 that `read_csv` gives them. */
module TasksDefence {
  import opened Collections
  import opened Text
  import Models

  /** One packet of a capture: the class (web page) and repetition the capture
      belongs to, the signed packet size (negative: incoming) and its time. */
  datatype Row = Row(cellId: int, rep: int, directionSize: int, timestamp: real)

  /** A capture is identified by its (class, repetition) pair. */
  datatype Capture = Capture(cellId: int, rep: int)

  datatype Frame = Frame(columns: seq<string>, rows: seq<Row>)

  /** The deployment constants the pipeline reads from the application config. */
  datatype Settings = Settings(
    nbClasses: int,
    meanRepsPerClass: int,
    deviationRepsPerClass: int,
    rowsPerCapture: int,
    nbTracesToClassify: int)

  /** The columns an uploaded dataset must have, in any order. The pipeline reads
      them from a `DEFENCE_COLUMNS` setting that config.py does not define; the
      model takes the value of config.py's `DATASET_COLUMNS`, whose entries 0
      and 1 are the class and repetition column names. */
  const DEFENCE_COLUMNS: seq<string> := ["cell_id", "rep", "direction_size", "timestamp"]

  function CaptureOf(r: Row): Capture {
    Capture(r.cellId, r.rep)
  }

  function CaptureSeq(rows: seq<Row>): (r: seq<Capture>)
    ensures |r| == |rows|
    ensures forall i :: 0 <= i < |rows| ==> r[i] == CaptureOf(rows[i])
  {
    seq(|rows|, i requires 0 <= i < |rows| => CaptureOf(rows[i]))
  }

  /** The distinct captures of the rows, in order of first row. */
  function CapturesOf(rows: seq<Row>): (r: seq<Capture>)
    ensures NoDuplicates(r)
    ensures forall c :: c in r <==> exists row :: row in rows && CaptureOf(row) == c
  {
    var s := CaptureSeq(rows);
    assert forall c :: c in s <==> exists row :: row in rows && CaptureOf(row) == c by {
      forall c | c in s ensures exists row :: row in rows && CaptureOf(row) == c {
        var i :| 0 <= i < |s| && s[i] == c;
        assert rows[i] in rows;
      }
      forall row | row in rows ensures CaptureOf(row) in s {
        var i :| 0 <= i < |rows| && rows[i] == row;
        assert s[i] == CaptureOf(row);
      }
    }
    Distinct(s)
  }

  /** The distinct classes of the rows, in order of first row. */
  function CellsOf(rows: seq<Row>): (r: seq<int>)
    ensures NoDuplicates(r)
    ensures forall c :: c in r <==> exists row :: row in rows && row.cellId == c
  {
    var s := seq(|rows|, i requires 0 <= i < |rows| => rows[i].cellId);
    assert forall c :: c in s <==> exists row :: row in rows && row.cellId == c by {
      forall c | c in s ensures exists row :: row in rows && row.cellId == c {
        var i :| 0 <= i < |s| && s[i] == c;
        assert rows[i] in rows;
      }
      forall row | row in rows ensures row.cellId in s {
        var i :| 0 <= i < |rows| && rows[i] == row;
        assert s[i] == row.cellId;
      }
    }
    Distinct(s)
  }

  /** The rows of one capture, in file order. */
  function RowsOf(rows: seq<Row>, c: Capture): (r: seq<Row>)
    ensures forall row :: row in r <==> row in rows && CaptureOf(row) == c
  {
    Filter(rows, (row: Row) => CaptureOf(row) == c)
  }

  /** The number of distinct repetitions recorded for a class. */
  function RepCount(rows: seq<Row>, cell: int): nat {
    |Filter(CapturesOf(rows), (c: Capture) => c.cellId == cell)|
  }

  function Abs(x: int): nat {
    if x < 0 then -x else x
  }

  predicate ColumnsMatch(columns: seq<string>) {
    (set c | c in columns) == (set c | c in DEFENCE_COLUMNS)
  }

  predicate RepetitionsInRange(rows: seq<Row>, s: Settings) {
    forall cell :: cell in CellsOf(rows) ==>
      Abs(RepCount(rows, cell) - s.meanRepsPerClass) < s.deviationRepsPerClass
  }

  predicate CapturesLongEnough(rows: seq<Row>, s: Settings) {
    forall c :: c in CapturesOf(rows) ==> |RowsOf(rows, c)| > s.rowsPerCapture
  }

  /** The outcome of `verify_dataframe`: acceptance or the first check failed. */
  datatype Verdict = Accepted | WrongColumns | MissingClasses | RepetitionsOutOfRange | CaptureTooShort

  /** `verify_dataframe`: the checks in their order, the first failing one
      deciding the verdict. */
  function CheckDataframe(f: Frame, s: Settings): (v: Verdict)
    ensures v == WrongColumns <==> !ColumnsMatch(f.columns)
    ensures v == MissingClasses <==> ColumnsMatch(f.columns) && |CellsOf(f.rows)| != s.nbClasses
    ensures v == RepetitionsOutOfRange <==>
      ColumnsMatch(f.columns) && |CellsOf(f.rows)| == s.nbClasses && !RepetitionsInRange(f.rows, s)
    ensures v == CaptureTooShort <==>
      ColumnsMatch(f.columns) && |CellsOf(f.rows)| == s.nbClasses && RepetitionsInRange(f.rows, s) &&
      !CapturesLongEnough(f.rows, s)
    ensures v == Accepted <==>
      ColumnsMatch(f.columns) && |CellsOf(f.rows)| == s.nbClasses && RepetitionsInRange(f.rows, s) &&
      CapturesLongEnough(f.rows, s)
  {
    if !ColumnsMatch(f.columns) then WrongColumns
    else if |CellsOf(f.rows)| != s.nbClasses then MissingClasses
    else if !RepetitionsInRange(f.rows, s) then RepetitionsOutOfRange
    else if !CapturesLongEnough(f.rows, s) then CaptureTooShort
    else Accepted
  }

  /** The messages of `verify_dataframe`. */
  const WRONG_COLUMNS: string :=
    "Your dataset does not have the correct columns.\nPlease follow the upload instructions.\n"
  const MISSING_CLASSES: string := "Your dataset does not contain captures for every cell_id"
  const REPETITIONS_OUT_OF_RANGE: string := "Your dataset does not contain between "
  const CAPTURE_TOO_SHORT: string := "Some of your traces contain less that "

  /** The feedback message mailed for each verdict. */
  function VerdictMessage(v: Verdict, s: Settings): string {
    match v
    case Accepted => ""
    case WrongColumns => WRONG_COLUMNS
    case MissingClasses => MISSING_CLASSES
    case RepetitionsOutOfRange =>
      REPETITIONS_OUT_OF_RANGE + IntToString(s.meanRepsPerClass - s.deviationRepsPerClass) +
      " and " + IntToString(s.meanRepsPerClass + s.deviationRepsPerClass) + " repetition per class"
    case CaptureTooShort =>
      CAPTURE_TOO_SHORT + IntToString(s.rowsPerCapture) + " packets for a query"
  }

  /** Only acceptance comes with an empty message. */
  lemma VerdictMessageEmptyOnlyIfAccepted(v: Verdict, s: Settings)
    ensures VerdictMessage(v, s) == [] <==> v == Accepted
  {
    match v
    case Accepted =>
    case WrongColumns => assert |WRONG_COLUMNS| > 0;
    case MissingClasses => assert |MISSING_CLASSES| > 0;
    case RepetitionsOutOfRange => assert |REPETITIONS_OUT_OF_RANGE| > 0;
    case CaptureTooShort => assert |CAPTURE_TOO_SHORT| > 0;
  }

  /** `verify_dataframe`: success and an empty message, or failure and the
      message of the first failed check. */
  function VerifyDataframe(f: Frame, s: Settings): (r: (bool, string))
    ensures r.0 <==> CheckDataframe(f, s) == Accepted
    ensures r.0 <==> r.1 == []
  {
    var v := CheckDataframe(f, s);
    VerdictMessageEmptyOnlyIfAccepted(v, s);
    (v == Accepted, VerdictMessage(v, s))
  }

  /** An accepted dataset holds, for every class, more than
      `meanRepsPerClass - deviationRepsPerClass` captures, each of more than
      `rowsPerCapture` rows. */
  lemma AcceptedCaptureBounds(f: Frame, s: Settings, c: Capture)
    requires CheckDataframe(f, s) == Accepted
    requires c in CapturesOf(f.rows)
    ensures |RowsOf(f.rows, c)| > s.rowsPerCapture
    ensures RepCount(f.rows, c.cellId) > s.meanRepsPerClass - s.deviationRepsPerClass
  {
    var row :| row in f.rows && CaptureOf(row) == c;
    assert c.cellId in CellsOf(f.rows);
  }

  // ----- evaluate_utility -----

  function Sizes(rows: seq<Row>): (r: seq<int>)
    ensures |r| == |rows|
    ensures forall i :: 0 <= i < |rows| ==> r[i] == rows[i].directionSize
  {
    seq(|rows|, i requires 0 <= i < |rows| => rows[i].directionSize)
  }

  function Timestamps(rows: seq<Row>): (r: seq<real>)
    ensures |r| == |rows|
    ensures forall i :: 0 <= i < |rows| ==> r[i] == rows[i].timestamp
  {
    seq(|rows|, i requires 0 <= i < |rows| => rows[i].timestamp)
  }

  /** The incoming packets (negative sizes). */
  function Incoming(rows: seq<Row>): (r: seq<Row>)
    ensures forall row :: row in r <==> row in rows && row.directionSize < 0
  {
    Filter(rows, (row: Row) => row.directionSize < 0)
  }

  /** The outgoing packets (positive sizes). */
  function Outgoing(rows: seq<Row>): (r: seq<Row>)
    ensures forall row :: row in r <==> row in rows && row.directionSize > 0
  {
    Filter(rows, (row: Row) => row.directionSize > 0)
  }

  /** The summed packet sizes of each capture present in `rows` (a pandas
      `groupby([cell_id, rep])["direction_size"].sum()`). */
  function VolumePerCapture(rows: seq<Row>): (r: seq<real>)
    ensures |r| == |CapturesOf(rows)|
    ensures forall i :: 0 <= i < |r| ==>
      r[i] == SumInt(Sizes(RowsOf(rows, CapturesOf(rows)[i]))) as real
  {
    var caps := CapturesOf(rows);
    seq(|caps|, i requires 0 <= i < |caps| => SumInt(Sizes(RowsOf(rows, caps[i]))) as real)
  }

  /** The greatest timestamp among some rows. */
  function LastTimestamp(own: seq<Row>): (m: real)
    requires own != []
    ensures exists row :: row in own && row.timestamp == m
    ensures forall row :: row in own ==> row.timestamp <= m
  {
    var t := Timestamps(own);
    var m := MaxReal(t);
    assert forall r :: r in own ==> r.timestamp in t by {
      forall r | r in own ensures r.timestamp in t {
        var j :| 0 <= j < |own| && own[j] == r;
        assert t[j] == r.timestamp;
      }
    }
    var j :| 0 <= j < |t| && t[j] == m;
    assert own[j] in own;
    m
  }

  /** The last timestamp of each capture (`groupby(...)["timestamp"].max()`). */
  function DurationPerCapture(rows: seq<Row>): (r: seq<real>)
    ensures |r| == |CapturesOf(rows)|
    ensures forall i :: 0 <= i < |r| ==> RowsOf(rows, CapturesOf(rows)[i]) != [] &&
                                         r[i] == LastTimestamp(RowsOf(rows, CapturesOf(rows)[i]))
  {
    var caps := CapturesOf(rows);
    assert forall i :: 0 <= i < |caps| ==> RowsOf(rows, caps[i]) != [] by {
      forall i | 0 <= i < |caps| ensures RowsOf(rows, caps[i]) != [] {
        CaptureHasRows(rows, caps[i]);
      }
    }
    seq(|caps|, i requires 0 <= i < |caps| => LastTimestamp(RowsOf(rows, caps[i])))
  }

  /** Every capture listed has at least one row. */
  lemma CaptureHasRows(rows: seq<Row>, c: Capture)
    requires c in CapturesOf(rows)
    ensures RowsOf(rows, c) != []
  {
    var row :| row in rows && CaptureOf(row) == c;
    assert row in RowsOf(rows, c);
  }

  /** Maximum, mean and median of a column; NaN (`None`) for an empty one. */
  function Summarize(s: seq<real>): (r: Option<Models.Summary>)
    ensures r.None? <==> s == []
    ensures r.Some? ==> r.value.max in s && (forall x :: x in s ==> x <= r.value.max) &&
                        MinReal(s) <= r.value.mean <= r.value.max &&
                        MinReal(s) <= r.value.median <= r.value.max
  {
    if s == [] then None else Some(Models.Summary(MaxReal(s), Mean(s), Median(s)))
  }

  /** `evaluate_utility`: summaries of the incoming volume, the outgoing volume
      and the duration of the captures. */
  function EvaluateUtility(rows: seq<Row>): (u: Models.Utility)
  {
    Models.Utility(
      Summarize(VolumePerCapture(Incoming(rows))),
      Summarize(VolumePerCapture(Outgoing(rows))),
      Summarize(DurationPerCapture(rows)))
  }

  /** The sum of a non-empty column of negative numbers is negative. */
  lemma {:induction false} SumNegative(s: seq<int>)
    requires s != [] && forall i :: 0 <= i < |s| ==> s[i] < 0
    ensures SumInt(s) < 0
  {
    if |s| > 1 {
      SumNegative(s[..|s| - 1]);
    }
  }

  /** The sum of a non-empty column of positive numbers is positive. */
  lemma {:induction false} SumPositive(s: seq<int>)
    requires s != [] && forall i :: 0 <= i < |s| ==> s[i] > 0
    ensures SumInt(s) > 0
  {
    if |s| > 1 {
      SumPositive(s[..|s| - 1]);
    }
  }

  /** A capture of packets of one direction sums to a volume of that sign. */
  lemma CaptureVolumeSign(own: seq<Row>, c: Capture, negative: bool)
    requires forall r :: r in own ==> if negative then r.directionSize < 0 else r.directionSize > 0
    requires c in CapturesOf(own)
    ensures negative ==> SumInt(Sizes(RowsOf(own, c))) < 0
    ensures !negative ==> SumInt(Sizes(RowsOf(own, c))) > 0
  {
    CaptureHasRows(own, c);
    var mine := RowsOf(own, c);
    assert forall j :: 0 <= j < |mine| ==> mine[j] in own;
    if negative {
      SumNegative(Sizes(mine));
    } else {
      SumPositive(Sizes(mine));
    }
  }

  /** Every capture's incoming volume is negative and every outgoing volume
      positive: each is the sum of at least one packet of that direction. */
  lemma VolumeSigns(rows: seq<Row>)
    ensures forall x :: x in VolumePerCapture(Incoming(rows)) ==> x < 0.0
    ensures forall x :: x in VolumePerCapture(Outgoing(rows)) ==> x > 0.0
  {
    var inc, out := Incoming(rows), Outgoing(rows);
    var ci, co := CapturesOf(inc), CapturesOf(out);
    forall x | x in VolumePerCapture(inc) ensures x < 0.0 {
      var i :| 0 <= i < |ci| && VolumePerCapture(inc)[i] == x;
      CaptureVolumeSign(inc, ci[i], true);
    }
    forall x | x in VolumePerCapture(out) ensures x > 0.0 {
      var i :| 0 <= i < |co| && VolumePerCapture(out)[i] == x;
      CaptureVolumeSign(out, co[i], false);
    }
  }

  /** The utility's volumes are present exactly when packets of that direction
      exist, the incoming maximum is negative and the outgoing maximum positive,
      and the longest duration is the last timestamp of the whole dataset. */
  lemma EvaluateUtilityProperties(rows: seq<Row>)
    ensures EvaluateUtility(rows).inVolume.Some? <==> exists r :: r in rows && r.directionSize < 0
    ensures EvaluateUtility(rows).outVolume.Some? <==> exists r :: r in rows && r.directionSize > 0
    ensures EvaluateUtility(rows).time.Some? <==> rows != []
    ensures EvaluateUtility(rows).inVolume.Some? ==> EvaluateUtility(rows).inVolume.value.max < 0.0
    ensures EvaluateUtility(rows).outVolume.Some? ==> EvaluateUtility(rows).outVolume.value.max > 0.0
    ensures rows != [] ==> EvaluateUtility(rows).time.value.max == MaxReal(Timestamps(rows))
  {
    VolumeSigns(rows);
    IncomingPresent(rows);
    OutgoingPresent(rows);
    if rows != [] {
      LongestDuration(rows);
    }
  }

  lemma IncomingPresent(rows: seq<Row>)
    ensures VolumePerCapture(Incoming(rows)) != [] <==> exists r :: r in rows && r.directionSize < 0
  {
    var inc := Incoming(rows);
    if exists r :: r in rows && r.directionSize < 0 {
      var r :| r in rows && r.directionSize < 0;
      assert r in inc;
      assert CaptureOf(r) in CapturesOf(inc);
    }
    if VolumePerCapture(inc) != [] {
      var c := CapturesOf(inc)[0];
      assert c in CapturesOf(inc);
      var row :| row in inc && CaptureOf(row) == c;
    }
  }

  lemma OutgoingPresent(rows: seq<Row>)
    ensures VolumePerCapture(Outgoing(rows)) != [] <==> exists r :: r in rows && r.directionSize > 0
  {
    var out := Outgoing(rows);
    if exists r :: r in rows && r.directionSize > 0 {
      var r :| r in rows && r.directionSize > 0;
      assert r in out;
      assert CaptureOf(r) in CapturesOf(out);
    }
    if VolumePerCapture(out) != [] {
      var c := CapturesOf(out)[0];
      assert c in CapturesOf(out);
      var row :| row in out && CaptureOf(row) == c;
    }
  }

  /** The longest per-capture duration is the greatest timestamp overall. */
  lemma LongestDuration(rows: seq<Row>)
    requires rows != []
    ensures DurationPerCapture(rows) != []
    ensures MaxReal(DurationPerCapture(rows)) == MaxReal(Timestamps(rows))
  {
    assert CaptureOf(rows[0]) in CapturesOf(rows);
    DurationAtMostLast(rows);
    LastAtMostDuration(rows);
  }

  lemma DurationAtMostLast(rows: seq<Row>)
    requires rows != [] && DurationPerCapture(rows) != []
    ensures MaxReal(DurationPerCapture(rows)) <= MaxReal(Timestamps(rows))
  {
    var d, t := DurationPerCapture(rows), Timestamps(rows);
    var caps := CapturesOf(rows);
    var i :| 0 <= i < |d| && d[i] == MaxReal(d);
    var own := RowsOf(rows, caps[i]);
    var row :| row in own && row.timestamp == d[i];
    var k :| 0 <= k < |rows| && rows[k] == row;
    assert t[k] == d[i] && t[k] in t;
  }

  lemma LastAtMostDuration(rows: seq<Row>)
    requires rows != [] && DurationPerCapture(rows) != []
    ensures MaxReal(Timestamps(rows)) <= MaxReal(DurationPerCapture(rows))
  {
    var d, t := DurationPerCapture(rows), Timestamps(rows);
    var caps := CapturesOf(rows);
    var j :| 0 <= j < |t| && t[j] == MaxReal(t);
    assert rows[j] in rows;
    var c := CaptureOf(rows[j]);
    assert c in caps;
    var ci :| 0 <= ci < |caps| && caps[ci] == c;
    assert rows[j] in RowsOf(rows, c);
    assert d[ci] in d;
  }

  /** Packets of size zero are counted in neither volume. */
  lemma ZeroSizedRowsIgnored(rows: seq<Row>, z: Row)
    requires z.directionSize == 0
    ensures Incoming(rows + [z]) == Incoming(rows)
    ensures Outgoing(rows + [z]) == Outgoing(rows)
  {
    assert (rows + [z])[..|rows + [z]| - 1] == rows;
  }

  // ----- randomize_rep_index -----

  type Byte = b: int | 0 <= b < 256

  /** A SHA-256 digest. */
  type Digest = d: seq<Byte> | |d| == 32 witness seq(32, (i: int) => 0 as Byte)

  /** `sys.byteorder`, the byte order of the machine running the pipeline. */
  datatype ByteOrder = LittleEndian | BigEndian

  const LABEL_BOUND: nat := 0x100_0000

  /** `int.from_bytes(b, byteorder)` for a three-byte string. */
  function FromBytes3(b0: Byte, b1: Byte, b2: Byte, order: ByteOrder): (v: nat)
    ensures v < LABEL_BOUND
  {
    match order
    case LittleEndian => b0 + 0x100 * b1 + 0x1_0000 * b2
    case BigEndian => 0x1_0000 * b0 + 0x100 * b1 + b2
  }

  /** Reading the bytes in the other order is reading them reversed. */
  lemma FromBytes3Reversed(b0: Byte, b1: Byte, b2: Byte)
    ensures FromBytes3(b0, b1, b2, BigEndian) == FromBytes3(b2, b1, b0, LittleEndian)
  {
  }

  /** Distinct byte strings give distinct numbers. */
  lemma FromBytes3Injective(a0: Byte, a1: Byte, a2: Byte, b0: Byte, b1: Byte, b2: Byte, order: ByteOrder)
    requires FromBytes3(a0, a1, a2, order) == FromBytes3(b0, b1, b2, order)
    ensures a0 == b0 && a1 == b1 && a2 == b2
  {
    if order == LittleEndian {
      LowDigitUnique(a0, a1 + 0x100 * a2, b0, b1 + 0x100 * b2);
      LowDigitUnique(a1, a2, b1, b2);
    } else {
      LowDigitUnique(a2, a1 + 0x100 * a0, b2, b1 + 0x100 * b0);
      LowDigitUnique(a1, a0, b1, b0);
    }
  }

  /** A number has one lowest base-256 digit and one rest. */
  lemma LowDigitUnique(lo1: int, hi1: int, lo2: int, hi2: int)
    requires 0 <= lo1 < 0x100 && 0 <= lo2 < 0x100
    requires lo1 + 0x100 * hi1 == lo2 + 0x100 * hi2
    ensures lo1 == lo2 && hi1 == hi2
  {
  }

  /** The text hashed for a capture: `"{}{}{}".format(salt, class_id, rep)`,
      the three decimals run together. */
  function HashKey(salt: nat, cellId: int, rep: int): string {
    NatToString(salt) + IntToString(cellId) + IntToString(rep)
  }

  /** With no separator, captures of two different classes can share their
      hashed text: (1, 23) and (12, 3) do under every salt. */
  lemma HashKeyCollidesAcrossClasses(salt: nat)
    ensures HashKey(salt, 1, 23) == HashKey(salt, 12, 3)
  {
    assert IntToString(1) == "1" && IntToString(3) == "3";
    assert NatToString(23) == NatToString(2) + [DigitChar(3)];
    assert NatToString(12) == NatToString(1) + [DigitChar(2)];
    assert IntToString(23) == "23" && IntToString(12) == "12";
  }

  /** Two captures that share their class, or share their repetition, hash the
      same text only when they are the same capture. */
  lemma HashKeySeparatesSharedField(salt: nat, c1: int, r1: int, c2: int, r2: int)
    requires HashKey(salt, c1, r1) == HashKey(salt, c2, r2)
    requires c1 == c2 || r1 == r2
    ensures c1 == c2 && r1 == r2
  {
    var s := NatToString(salt);
    var k := HashKey(salt, c1, r1);
    if c1 == c2 {
      var p := s + IntToString(c1);
      assert IntToString(r1) == k[|p|..] == IntToString(r2);
      IntToStringInjective(r1, r2);
    } else {
      var x := IntToString(r1);
      assert s + IntToString(c1) == k[..|k| - |x|] == s + IntToString(c2);
      assert IntToString(c1) == (s + IntToString(c1))[|s|..] == IntToString(c2);
      IntToStringInjective(c1, c2);
    }
  }

  /** The new label of a capture: the first three digest bytes of its hashed
      text, read in the machine's byte order. */
  function RepLabel(salt: nat, sha256: string -> Digest, order: ByteOrder, c: Capture): (v: nat)
    ensures v < LABEL_BOUND
  {
    var d := sha256(HashKey(salt, c.cellId, c.rep));
    FromBytes3(d[0], d[1], d[2], order)
  }

  /** Two distinct captures share a label either because they hash the same
      text, which needs both their classes and their repetitions to differ, or
      because the digests of two different texts agree on their first three
      bytes. */
  lemma RepLabelCollision(salt: nat, sha256: string -> Digest, order: ByteOrder, c1: Capture, c2: Capture)
    requires c1 != c2 && RepLabel(salt, sha256, order, c1) == RepLabel(salt, sha256, order, c2)
    ensures HashKey(salt, c1.cellId, c1.rep) == HashKey(salt, c2.cellId, c2.rep) ==>
              c1.cellId != c2.cellId && c1.rep != c2.rep
    ensures HashKey(salt, c1.cellId, c1.rep) != HashKey(salt, c2.cellId, c2.rep) ==>
              sha256(HashKey(salt, c1.cellId, c1.rep))[..3] == sha256(HashKey(salt, c2.cellId, c2.rep))[..3]
  {
    if HashKey(salt, c1.cellId, c1.rep) == HashKey(salt, c2.cellId, c2.rep) {
      if c1.cellId == c2.cellId || c1.rep == c2.rep {
        HashKeySeparatesSharedField(salt, c1.cellId, c1.rep, c2.cellId, c2.rep);
      }
    }
    var d1, d2 := sha256(HashKey(salt, c1.cellId, c1.rep)), sha256(HashKey(salt, c2.cellId, c2.rep));
    FromBytes3Injective(d1[0], d1[1], d1[2], d2[0], d2[1], d2[2], order);
    assert d1[..3] == [d1[0], d1[1], d1[2]];
    assert d2[..3] == [d2[0], d2[1], d2[2]];
  }

  /** Whatever the salt and the hash function, the captures (1, 23) and (12, 3)
      receive the same label. They stay apart in the split, which keeps the
      class column beside the label. */
  lemma RepLabelCollidesAcrossClasses(salt: nat, sha256: string -> Digest, order: ByteOrder)
    ensures RepLabel(salt, sha256, order, Capture(1, 23)) == RepLabel(salt, sha256, order, Capture(12, 3))
  {
    HashKeyCollidesAcrossClasses(salt);
  }

  /** `randomize_rep_index`: the new label of every row, computed from its
      capture, so rows of one capture keep sharing a label. */
  function RandomizeRepIndex(rows: seq<Row>, salt: nat, sha256: string -> Digest, order: ByteOrder): (r: seq<int>)
    ensures |r| == |rows|
    ensures forall i :: 0 <= i < |rows| ==> 0 <= r[i] < LABEL_BOUND
    ensures forall i :: 0 <= i < |rows| ==> r[i] == RepLabel(salt, sha256, order, CaptureOf(rows[i]))
  {
    seq(|rows|, i requires 0 <= i < |rows| => RepLabel(salt, sha256, order, CaptureOf(rows[i])))
  }

  /** Rows of the same capture get the same label. Rows of two different
      captures of one class get different labels unless the digests of two
      different texts share their first three bytes. */
  lemma RandomizeRepIndexSeparates(rows: seq<Row>, salt: nat, sha256: string -> Digest, order: ByteOrder, i: int, j: int)
    requires 0 <= i < |rows| && 0 <= j < |rows|
    ensures CaptureOf(rows[i]) == CaptureOf(rows[j]) ==>
      RandomizeRepIndex(rows, salt, sha256, order)[i] == RandomizeRepIndex(rows, salt, sha256, order)[j]
    ensures (rows[i].cellId == rows[j].cellId && rows[i].rep != rows[j].rep &&
      RandomizeRepIndex(rows, salt, sha256, order)[i] == RandomizeRepIndex(rows, salt, sha256, order)[j]) ==>
        HashKey(salt, rows[i].cellId, rows[i].rep) != HashKey(salt, rows[j].cellId, rows[j].rep) &&
        sha256(HashKey(salt, rows[i].cellId, rows[i].rep))[..3] == sha256(HashKey(salt, rows[j].cellId, rows[j].rep))[..3]
  {
    var c1, c2 := CaptureOf(rows[i]), CaptureOf(rows[j]);
    if c1 != c2 && RepLabel(salt, sha256, order, c1) == RepLabel(salt, sha256, order, c2) {
      RepLabelCollision(salt, sha256, order, c1, c2);
    }
  }

  /** The rows with their repetition column replaced by `labels`. */
  function Relabelled(rows: seq<Row>, labels: seq<int>): (r: seq<Row>)
    requires |labels| == |rows|
    ensures |r| == |rows|
    ensures forall i :: 0 <= i < |rows| ==> r[i] == rows[i].(rep := labels[i])
  {
    seq(|rows|, i requires 0 <= i < |rows| => rows[i].(rep := labels[i]))
  }

  /** `df[REP_NAME] = randomize_rep_index(df)`: the repetition column is
      overwritten in place, row by row. */
  method RelabelReps(df: array<Row>, salt: nat, sha256: string -> Digest, order: ByteOrder)
    modifies df
    ensures df[..] == Relabelled(old(df[..]), RandomizeRepIndex(old(df[..]), salt, sha256, order))
  {
    var labels := RandomizeRepIndex(df[..], salt, sha256, order);
    ghost var before := df[..];
    for i := 0 to df.Length
      invariant forall k :: 0 <= k < i ==> df[k] == before[k].(rep := labels[k])
      invariant forall k :: i <= k < df.Length ==> df[k] == before[k]
    {
      df[i] := df[i].(rep := labels[i]);
    }
    assert df[..] == Relabelled(before, labels);
  }

  // ----- split_train_test_set -----

  /** The repetition of the first row of a class (`groupby(cell_id).first()`). */
  function FirstRep(rows: seq<Row>, cell: int): (rep: int)
    requires exists row :: row in rows && row.cellId == cell
    ensures exists i :: 0 <= i < |rows| && rows[i].cellId == cell && rows[i].rep == rep &&
                        forall j :: 0 <= j < i ==> rows[j].cellId != cell
  {
    if rows[0].cellId == cell then rows[0].rep
    else
      var row :| row in rows && row.cellId == cell;
      assert row in rows[1..];
      var rep := FirstRep(rows[1..], cell);
      var i :| 0 <= i < |rows[1..]| && rows[1..][i].cellId == cell && rows[1..][i].rep == rep &&
               forall j :: 0 <= j < i ==> rows[1..][j].cellId != cell;
      assert rows[i + 1] == rows[1..][i];
      assert forall j :: 1 <= j < i + 1 ==> rows[j] == rows[1..][j - 1];
      rep
  }

  /** The classes in increasing order, as `groupby` lists them. */
  function SortedCells(rows: seq<Row>): (r: seq<int>)
    ensures NoDuplicates(r)
    ensures |r| == |CellsOf(rows)|
    ensures forall c :: c in r <==> c in CellsOf(rows)
  {
    var cells := CellsOf(rows);
    var r := SortBy(cells, (c: int) => [c as real]);
    PermutationNoDuplicates(cells, r);
    SameMultisetSameLength(cells, r);
    assert forall c :: c in r <==> c in multiset(r);
    assert forall c :: c in cells <==> c in multiset(cells);
    r
  }

  /** A class paired with its first repetition is a capture of the frame. */
  lemma FirstRepCapture(rows: seq<Row>, cell: int)
    requires cell in CellsOf(rows)
    ensures exists row :: row in rows && row.cellId == cell
    ensures Capture(cell, FirstRep(rows, cell)) in CapturesOf(rows)
  {
    var k :| 0 <= k < |rows| && rows[k].cellId == cell && rows[k].rep == FirstRep(rows, cell) &&
             forall j :: 0 <= j < k ==> rows[j].cellId != cell;
    assert rows[k] in rows && CaptureOf(rows[k]) == Capture(cell, FirstRep(rows, cell));
  }

  /** One capture per class, the class's first repetition: the captures the
      test set always contains so that every class is represented. */
  function Guaranteed(rows: seq<Row>): (r: seq<Capture>)
    ensures |r| == |CellsOf(rows)|
    ensures forall i :: 0 <= i < |r| ==> r[i] in CapturesOf(rows)
    ensures forall i, j :: 0 <= i < j < |r| ==> r[i].cellId != r[j].cellId
    ensures forall cell :: cell in CellsOf(rows) ==> exists i :: 0 <= i < |r| && r[i].cellId == cell
  {
    var cells := SortedCells(rows);
    var r := seq(|cells|, i requires 0 <= i < |cells| =>
      assert cells[i] in cells;
      Capture(cells[i], FirstRep(rows, cells[i])));
    forall i | 0 <= i < |r| ensures r[i] in CapturesOf(rows) {
      assert cells[i] in cells;
      FirstRepCapture(rows, cells[i]);
    }
    forall cell | cell in CellsOf(rows) ensures exists i :: 0 <= i < |r| && r[i].cellId == cell {
      var i :| 0 <= i < |cells| && cells[i] == cell;
      assert r[i].cellId == cell;
    }
    r
  }

  /** Each guaranteed capture is its class's first repetition in file order. */
  lemma GuaranteedFirstReps(rows: seq<Row>, i: int)
    requires 0 <= i < |Guaranteed(rows)|
    ensures exists row :: row in rows && row.cellId == Guaranteed(rows)[i].cellId
    ensures Guaranteed(rows)[i].rep == FirstRep(rows, Guaranteed(rows)[i].cellId)
  {
    var cells := SortedCells(rows);
    assert cells[i] in cells;
    assert cells[i] in CellsOf(rows);
  }

  lemma GuaranteedNoDuplicates(rows: seq<Row>)
    ensures NoDuplicates(Guaranteed(rows))
  {
  }

  /** The rows whose capture is among `caps`: an inner merge of the dataset with
      a table of distinct captures. */
  function RowsIn(rows: seq<Row>, caps: seq<Capture>): (r: seq<Row>)
    ensures forall row :: row in r <==> row in rows && CaptureOf(row) in caps
  {
    Filter(rows, (row: Row) => CaptureOf(row) in caps)
  }

  /** The rows whose capture is not among `caps`. */
  function RowsNotIn(rows: seq<Row>, caps: seq<Capture>): (r: seq<Row>)
    ensures forall row :: row in r <==> row in rows && CaptureOf(row) !in caps
  {
    Filter(rows, (row: Row) => CaptureOf(row) !in caps)
  }

  /** Every row is either in the captures or not, exactly once. */
  lemma RowsInPartition(rows: seq<Row>, caps: seq<Capture>)
    ensures multiset(RowsIn(rows, caps)) + multiset(RowsNotIn(rows, caps)) == multiset(rows)
    ensures |RowsIn(rows, caps)| + |RowsNotIn(rows, caps)| == |rows|
  {
    FilterPartition(rows, (row: Row) => CaptureOf(row) in caps, (row: Row) => CaptureOf(row) !in caps);
  }

  /** The captures the sample is drawn from, as the source selects them: the
      distinct captures of the rows left after dropping the first m rows, where
      m is the number of rows of guaranteed captures (the merge renumbers its
      result 0..m-1, and those numbers are used as row labels). */
  function PoolAsWritten(rows: seq<Row>): (r: seq<Capture>)
    ensures NoDuplicates(r)
  {
    var m := |RowsIn(rows, Guaranteed(rows))|;
    CapturesOf(rows[m..])
  }

  /** The captures the sample is drawn from: every capture that is not a
      guaranteed one. */
  function Pool(rows: seq<Row>): (r: seq<Capture>)
    ensures NoDuplicates(r)
    ensures forall c :: c in r <==> c in CapturesOf(rows) && c !in Guaranteed(rows)
  {
    FilterNoDuplicates(CapturesOf(rows), (c: Capture) => c !in Guaranteed(rows));
    Filter(CapturesOf(rows), (c: Capture) => c !in Guaranteed(rows))
  }

  /** The pool holds all captures but the guaranteed ones. */
  lemma PoolSize(rows: seq<Row>)
    ensures |Pool(rows)| == |CapturesOf(rows)| - |CellsOf(rows)|
  {
    var caps, g := CapturesOf(rows), Guaranteed(rows);
    GuaranteedNoDuplicates(rows);
    var inG := Filter(caps, (c: Capture) => c in g);
    FilterPartition(caps, (c: Capture) => c in g, (c: Capture) => c !in g);
    GuaranteedAmongCaptures(rows);
  }

  /** Selecting the guaranteed captures from all captures finds each once. */
  lemma GuaranteedAmongCaptures(rows: seq<Row>)
    ensures |Filter(CapturesOf(rows), (c: Capture) => c in Guaranteed(rows))| == |CellsOf(rows)|
  {
    var caps, g := CapturesOf(rows), Guaranteed(rows);
    GuaranteedNoDuplicates(rows);
    forall c | c in g ensures c in caps {
      var i :| 0 <= i < |g| && g[i] == c;
    }
    FilterMembersLength(caps, g, (c: Capture) => c in g);
  }

  datatype SplitError =
    | SampleSizeOutOfRange   // `DataFrame.sample` raising ValueError
    | MissingRowLabels       // `DataFrame.drop` raising KeyError

  /** `DataFrame.sample(n)` without replacement: the n captures of smallest
      `rank`, the rank being the random draw. A negative n, or one larger than
      the pool, is refused. */
  function Sample(pool: seq<Capture>, n: int, rank: Capture -> real): (r: Result<seq<Capture>, SplitError>)
    ensures r.Err? <==> n < 0 || n > |pool|
    ensures r.Ok? ==> |r.value| == n && forall c :: c in r.value ==> c in pool
    ensures r.Ok? && NoDuplicates(pool) ==> NoDuplicates(r.value)
  {
    if n < 0 || n > |pool| then Err(SampleSizeOutOfRange)
    else
      var shuffled := SortBy(pool, (c: Capture) => [rank(c)]);
      SameMultisetSameLength(shuffled, pool);
      assert NoDuplicates(pool) ==> NoDuplicates(shuffled) by {
        if NoDuplicates(pool) {
          PermutationNoDuplicates(pool, shuffled);
        }
      }
      assert forall c :: c in shuffled[..n] ==> c in multiset(pool) by {
        forall c | c in shuffled[..n] ensures c in multiset(pool) {
          assert c in shuffled;
          assert c in multiset(shuffled);
        }
      }
      Ok(shuffled[..n])
  }

  /** The captures of the test set: a sample of the pool large enough to bring
      the total to `nbTraces`, then the guaranteed captures. */
  function TestCaptures(rows: seq<Row>, nbTraces: int, rank: Capture -> real): (r: Result<seq<Capture>, SplitError>)
  {
    match Sample(Pool(rows), nbTraces - |CellsOf(rows)|, rank)
    case Err(e) => Err(e)
    case Ok(s) => Ok(s + Guaranteed(rows))
  }

  /** The test captures can be chosen exactly when the dataset holds at least
      `nbTraces` captures and at most `nbTraces` classes. */
  lemma TestCapturesFailure(rows: seq<Row>, nbTraces: int, rank: Capture -> real)
    ensures TestCaptures(rows, nbTraces, rank).Err? <==>
      nbTraces < |CellsOf(rows)| || nbTraces > |CapturesOf(rows)|
  {
    PoolSize(rows);
  }

  /** The test captures are distinct captures of the dataset, exactly
      `nbTraces` of them, and they cover every class. */
  lemma TestCapturesValid(rows: seq<Row>, nbTraces: int, rank: Capture -> real)
    requires TestCaptures(rows, nbTraces, rank).Ok?
    ensures |TestCaptures(rows, nbTraces, rank).value| == nbTraces
    ensures NoDuplicates(TestCaptures(rows, nbTraces, rank).value)
    ensures forall c :: c in TestCaptures(rows, nbTraces, rank).value ==> c in CapturesOf(rows)
    ensures forall cell :: cell in CellsOf(rows) ==>
              exists c :: c in TestCaptures(rows, nbTraces, rank).value && c.cellId == cell
  {
    var g := Guaranteed(rows);
    var sample := Sample(Pool(rows), nbTraces - |CellsOf(rows)|, rank).value;
    assert TestCaptures(rows, nbTraces, rank).value == sample + g;
    SampleThenGuaranteed(rows, sample);
    SampleThenGuaranteedWithin(rows, sample);
    SampleThenGuaranteedCovers(rows, sample);
  }

  /** Pool captures followed by the guaranteed captures are captures of the frame. */
  lemma SampleThenGuaranteedWithin(rows: seq<Row>, sample: seq<Capture>)
    requires forall c :: c in sample ==> c in Pool(rows)
    ensures forall c :: c in sample + Guaranteed(rows) ==> c in CapturesOf(rows)
  {
    var g := Guaranteed(rows);
    forall c | c in sample + g ensures c in CapturesOf(rows) {
      if c in g {
        var i :| 0 <= i < |g| && g[i] == c;
      }
    }
  }

  /** Appending the guaranteed captures covers every class. */
  lemma SampleThenGuaranteedCovers(rows: seq<Row>, sample: seq<Capture>)
    ensures forall cell :: cell in CellsOf(rows) ==>
              exists c :: c in sample + Guaranteed(rows) && c.cellId == cell
  {
    var g := Guaranteed(rows);
    forall cell | cell in CellsOf(rows) ensures exists c :: c in sample + g && c.cellId == cell {
      var i :| 0 <= i < |g| && g[i].cellId == cell;
      assert (sample + g)[|sample| + i] == g[i];
    }
  }

  /** Pool captures followed by the guaranteed captures repeat none. */
  lemma SampleThenGuaranteed(rows: seq<Row>, sample: seq<Capture>)
    requires NoDuplicates(sample) && forall c :: c in sample ==> c in Pool(rows)
    ensures NoDuplicates(sample + Guaranteed(rows))
  {
    var g := Guaranteed(rows);
    GuaranteedNoDuplicates(rows);
    var caps := sample + g;
    forall i, j | 0 <= i < j < |caps| ensures caps[i] != caps[j] {
      if j >= |sample| && i < |sample| {
        assert caps[i] in sample;
        assert caps[j] == g[j - |sample|];
      } else if i >= |sample| {
        assert caps[i] == g[i - |sample|] && caps[j] == g[j - |sample|];
      }
    }
  }

  /** A row of the published test set: features under an opaque capture id. */
  datatype TestRow = TestRow(captureId: int, directionSize: int, timestamp: real)

  /** A row of the private verification set: the true class of a capture id. */
  datatype VerificationRow = VerificationRow(captureId: int, cellId: int)

  datatype SplitSets = SplitSets(test: seq<TestRow>, verification: seq<VerificationRow>, train: seq<Row>)

  function TestRowKey(t: TestRow): seq<real> {
    [t.captureId as real, t.timestamp]
  }

  function VerificationKey(v: VerificationRow): seq<real> {
    [v.captureId as real]
  }

  function TrainKey(r: Row): seq<real> {
    [r.cellId as real, r.rep as real]
  }

  /** The test rows of the chosen captures under their ids, before sorting. */
  function TestRows(selected: seq<Row>, ids: seq<int>): (r: seq<TestRow>)
    requires |ids| == |selected|
    ensures |r| == |selected|
    ensures forall i :: 0 <= i < |selected| ==> r[i] == TestRow(ids[i], selected[i].directionSize, selected[i].timestamp)
  {
    seq(|selected|, i requires 0 <= i < |selected| => TestRow(ids[i], selected[i].directionSize, selected[i].timestamp))
  }

  /** The test set: the selected rows under their capture ids, sorted by capture
      id and then timestamp. */
  function TestSet(selected: seq<Row>, ids: seq<int>): (r: seq<TestRow>)
    requires |ids| == |selected|
    ensures SortedBy(r, TestRowKey)
    ensures multiset(r) == multiset(TestRows(selected, ids))
  {
    SortBy(TestRows(selected, ids), TestRowKey)
  }

  /** The (capture id, class) pair of every selected row. */
  function VerificationPairs(selected: seq<Row>, ids: seq<int>): (r: seq<VerificationRow>)
    requires |ids| == |selected|
    ensures |r| == |selected|
    ensures forall i :: 0 <= i < |selected| ==> r[i] == VerificationRow(ids[i], selected[i].cellId)
  {
    seq(|selected|, i requires 0 <= i < |selected| => VerificationRow(ids[i], selected[i].cellId))
  }

  /** The verification set: the distinct (capture id, class) pairs of the
      selected rows, sorted by capture id. */
  function VerificationSet(selected: seq<Row>, ids: seq<int>): (r: seq<VerificationRow>)
    requires |ids| == |selected|
    ensures SortedBy(r, VerificationKey)
    ensures NoDuplicates(r)
    ensures forall v :: v in r <==> v in VerificationPairs(selected, ids)
  {
    var pairs := VerificationPairs(selected, ids);
    var d := Distinct(pairs);
    var r := SortBy(d, VerificationKey);
    PermutationNoDuplicates(d, r);
    assert forall v :: v in r <==> v in multiset(r);
    assert forall v :: v in d <==> v in multiset(d);
    r
  }

  /** The training set: every row outside the test captures, sorted by class and
      repetition. */
  function TrainSet(rows: seq<Row>, caps: seq<Capture>): (r: seq<Row>)
    ensures SortedBy(r, TrainKey)
    ensures multiset(r) == multiset(RowsNotIn(rows, caps))
  {
    SortBy(RowsNotIn(rows, caps), TrainKey)
  }

  /** The training set as the source builds it: dropping the row labels
      0..t-1 of the dataset, t being the number of selected test rows (the merge
      renumbered them), which fails when t exceeds the number of rows. */
  function TrainSetAsWritten(rows: seq<Row>, t: nat): (r: Result<seq<Row>, SplitError>)
    ensures r.Err? <==> t > |rows|
    ensures r.Ok? ==> multiset(r.value) == multiset(rows[t..])
  {
    if t > |rows| then Err(MissingRowLabels) else Ok(SortBy(rows[t..], TrainKey))
  }

  /** The three sets built from the chosen test captures. */
  function SetsFor(rows: seq<Row>, caps: seq<Capture>, salt: nat, sha256: string -> Digest, order: ByteOrder): SplitSets {
    var selected := RowsIn(rows, caps);
    var ids := RandomizeRepIndex(selected, salt, sha256, order);
    SplitSets(TestSet(selected, ids), VerificationSet(selected, ids), TrainSet(rows, caps))
  }

  /** `split_train_test_set` after the relabelling of repetitions: the test set,
      its verification set and the training set. */
  function Split(rows: seq<Row>, nbTraces: int, rank: Capture -> real, salt: nat,
                 sha256: string -> Digest, order: ByteOrder): (r: Result<SplitSets, SplitError>)
  {
    match TestCaptures(rows, nbTraces, rank)
    case Err(e) => Err(e)
    case Ok(caps) => Ok(SetsFor(rows, caps, salt, sha256, order))
  }

  /** `split_train_test_set`: relabels the repetitions of the dataset in place,
      then splits it. */
  method SplitTrainTestSet(df: array<Row>, settings: Settings, rank: Capture -> real, repSalt: nat,
                           captureSalt: nat, sha256: string -> Digest, order: ByteOrder)
    returns (r: Result<SplitSets, SplitError>)
    modifies df
    ensures df[..] == Relabelled(old(df[..]), RandomizeRepIndex(old(df[..]), repSalt, sha256, order))
    ensures r == Split(df[..], settings.nbTracesToClassify, rank, captureSalt, sha256, order)
  {
    RelabelReps(df, repSalt, sha256, order);
    r := Split(df[..], settings.nbTracesToClassify, rank, captureSalt, sha256, order);
  }

  function TestIds(test: seq<TestRow>): set<int> {
    set t | t in test :: t.captureId
  }

  function VerificationIds(verification: seq<VerificationRow>): set<int> {
    set v | v in verification :: v.captureId
  }

  /** The test and training sets share no capture and together hold every row
      exactly once. */
  lemma SplitPartition(rows: seq<Row>, caps: seq<Capture>, salt: nat, sha256: string -> Digest, order: ByteOrder)
    ensures |SetsFor(rows, caps, salt, sha256, order).test| + |SetsFor(rows, caps, salt, sha256, order).train| == |rows|
    ensures forall row :: row in SetsFor(rows, caps, salt, sha256, order).train <==> row in rows && CaptureOf(row) !in caps
  {
    var selected := RowsIn(rows, caps);
    var ids := RandomizeRepIndex(selected, salt, sha256, order);
    var test, train := TestSet(selected, ids), TrainSet(rows, caps);
    assert test == SetsFor(rows, caps, salt, sha256, order).test;
    assert train == SetsFor(rows, caps, salt, sha256, order).train;
    RowsInPartition(rows, caps);
    SameMultisetSameLength(test, TestRows(selected, ids));
    SameMultisetSameLength(train, RowsNotIn(rows, caps));
    assert forall row :: row in train <==> row in multiset(RowsNotIn(rows, caps));
  }

  lemma VerificationIdInTest(selected: seq<Row>, ids: seq<int>, v: VerificationRow)
    requires |ids| == |selected| && v in VerificationSet(selected, ids)
    ensures v.captureId in TestIds(TestSet(selected, ids))
  {
    var pairs := VerificationPairs(selected, ids);
    var unsorted := TestRows(selected, ids);
    var i :| 0 <= i < |pairs| && pairs[i] == v;
    assert unsorted[i] in multiset(unsorted);
    assert unsorted[i] in TestSet(selected, ids);
  }

  lemma TestIdInVerification(selected: seq<Row>, ids: seq<int>, t: TestRow)
    requires |ids| == |selected| && t in TestSet(selected, ids)
    ensures t.captureId in VerificationIds(VerificationSet(selected, ids))
  {
    var pairs := VerificationPairs(selected, ids);
    var unsorted := TestRows(selected, ids);
    assert t in multiset(TestSet(selected, ids));
    assert t in multiset(unsorted);
    var i :| 0 <= i < |unsorted| && unsorted[i] == t;
    assert pairs[i] in pairs;
    assert pairs[i] in VerificationSet(selected, ids);
  }

  lemma VerificationIdsOfSets(selected: seq<Row>, ids: seq<int>)
    requires |ids| == |selected|
    ensures VerificationIds(VerificationSet(selected, ids)) == TestIds(TestSet(selected, ids))
  {
    forall v | v in VerificationSet(selected, ids) ensures v.captureId in TestIds(TestSet(selected, ids)) {
      VerificationIdInTest(selected, ids, v);
    }
    forall t | t in TestSet(selected, ids) ensures t.captureId in VerificationIds(VerificationSet(selected, ids)) {
      TestIdInVerification(selected, ids, t);
    }
  }

  /** The verification set names exactly the capture ids of the test set. */
  lemma VerificationMatchesTest(rows: seq<Row>, caps: seq<Capture>, salt: nat, sha256: string -> Digest, order: ByteOrder)
    ensures VerificationIds(SetsFor(rows, caps, salt, sha256, order).verification) ==
            TestIds(SetsFor(rows, caps, salt, sha256, order).test)
  {
    var selected := RowsIn(rows, caps);
    VerificationIdsOfSets(selected, RandomizeRepIndex(selected, salt, sha256, order));
  }

  /** Every verification row gives the true class of one test capture under
      that capture's id. */
  lemma VerificationLabels(rows: seq<Row>, caps: seq<Capture>, salt: nat, sha256: string -> Digest, order: ByteOrder)
    ensures forall v :: v in SetsFor(rows, caps, salt, sha256, order).verification ==>
        exists c :: c in caps && v == VerificationRow(RepLabel(salt, sha256, order, c), c.cellId)
  {
    var selected := RowsIn(rows, caps);
    var ids := RandomizeRepIndex(selected, salt, sha256, order);
    var pairs := VerificationPairs(selected, ids);
    assert SetsFor(rows, caps, salt, sha256, order).verification == VerificationSet(selected, ids);
    forall v | v in VerificationSet(selected, ids)
      ensures exists c :: c in caps && v == VerificationRow(RepLabel(salt, sha256, order, c), c.cellId)
    {
      var i :| 0 <= i < |pairs| && pairs[i] == v;
      assert selected[i] in selected;
      assert CaptureOf(selected[i]) in caps;
    }
  }

  /** Every class whose capture is in the test set appears in the verification
      set; with the guaranteed captures, that is every class of the dataset. */
  lemma VerificationCoversClasses(rows: seq<Row>, nbTraces: int, rank: Capture -> real, salt: nat,
                                  sha256: string -> Digest, order: ByteOrder)
    requires Split(rows, nbTraces, rank, salt, sha256, order).Ok?
    ensures forall cell :: cell in CellsOf(rows) ==>
      exists v :: v in Split(rows, nbTraces, rank, salt, sha256, order).value.verification && v.cellId == cell
  {
    var caps := TestCaptures(rows, nbTraces, rank).value;
    TestCapturesValid(rows, nbTraces, rank);
    forall cell | cell in CellsOf(rows)
      ensures exists v :: v in SetsFor(rows, caps, salt, sha256, order).verification && v.cellId == cell
    {
      var c :| c in caps && c.cellId == cell;
      ClassInVerification(rows, caps, salt, sha256, order, c);
    }
  }

  lemma VerificationHasCell(selected: seq<Row>, ids: seq<int>, i: int)
    requires |ids| == |selected| && 0 <= i < |selected|
    ensures exists v :: v in VerificationSet(selected, ids) && v.cellId == selected[i].cellId
  {
    var pairs := VerificationPairs(selected, ids);
    assert pairs[i] in pairs;
  }

  lemma ClassInVerification(rows: seq<Row>, caps: seq<Capture>, salt: nat, sha256: string -> Digest,
                            order: ByteOrder, c: Capture)
    requires c in caps && c in CapturesOf(rows)
    ensures exists v :: v in SetsFor(rows, caps, salt, sha256, order).verification && v.cellId == c.cellId
  {
    var selected := RowsIn(rows, caps);
    var row :| row in rows && CaptureOf(row) == c;
    assert row in selected;
    var i :| 0 <= i < |selected| && selected[i] == row;
    VerificationHasCell(selected, RandomizeRepIndex(selected, salt, sha256, order), i);
  }
}

module DefenceFindings {
  import opened Collections
  import opened TasksDefence

  /** Two classes, the first with repetitions 0 and 3, the second with 5. */
  const R0: Row := Row(1, 0, -1, 0.0)
  const R1: Row := Row(1, 3, 1, 0.0)
  const R2: Row := Row(2, 5, -1, 0.0)
  const R: seq<Row> := [R0, R1, R2]

  lemma CapturesOfR(c: Capture)
    requires c in CapturesOf(R)
    ensures c == CaptureOf(R0) || c == CaptureOf(R1) || c == CaptureOf(R2)
  {
    var row :| row in R && CaptureOf(row) == c;
  }

  lemma FirstRepOfR()
    ensures FirstRep(R, 1) == 0
  {
    assert R0 in R;
    assert R[0] == R0;
  }

  lemma GuaranteedElemOfR(i: int)
    requires 0 <= i < |Guaranteed(R)|
    ensures Guaranteed(R)[i] == Capture(1, 0) || Guaranteed(R)[i] == Capture(2, 5)
  {
    var c := Guaranteed(R)[i];
    GuaranteedFirstReps(R, i);
    CapturesOfR(c);
    FirstRepOfR();
  }

  lemma GuaranteedHasCell(rows: seq<Row>, cell: int)
    requires cell in CellsOf(rows)
    ensures exists i :: 0 <= i < |Guaranteed(rows)| && Guaranteed(rows)[i].cellId == cell
  {
    var g := Guaranteed(rows);
    var i :| 0 <= i < |g| && g[i].cellId == cell;
  }

  /** The guaranteed captures of `R` are (1, 0) and (2, 5), and nothing else. */
  lemma GuaranteedOfR()
    ensures Capture(1, 0) in Guaranteed(R) && Capture(2, 5) in Guaranteed(R)
    ensures forall c :: c in Guaranteed(R) ==> c == Capture(1, 0) || c == Capture(2, 5)
  {
    var g := Guaranteed(R);
    forall c | c in g ensures c == Capture(1, 0) || c == Capture(2, 5) {
      var i :| 0 <= i < |g| && g[i] == c;
      GuaranteedElemOfR(i);
    }
    assert R0 in R && R2 in R;
    assert 1 in CellsOf(R) && 2 in CellsOf(R);
    GuaranteedHasCell(R, 1);
    GuaranteedHasCell(R, 2);
    var i :| 0 <= i < |g| && g[i].cellId == 1;
    var j :| 0 <= j < |g| && g[j].cellId == 2;
    GuaranteedElemOfR(i);
    GuaranteedElemOfR(j);
    assert g[i] in g && g[j] in g;
  }

  /** Of three rows whose first and last captures are among `caps` and whose
      middle one is not, the first and last are in and the middle one out. */
  lemma RowsOfThree(a: Row, b: Row, c: Row, caps: seq<Capture>)
    requires CaptureOf(a) in caps && CaptureOf(b) !in caps && CaptureOf(c) in caps
    ensures RowsIn([a, b, c], caps) == [a, c]
    ensures RowsNotIn([a, b, c], caps) == [b]
  {
    assert [a, b, c][..2] == [a, b];
    assert [a, b][..1] == [a];
    assert [a][..0] == [];
    assert RowsIn([a], caps) == [a];
    assert RowsIn([a, b], caps) == [a];
    assert RowsNotIn([a], caps) == [];
    assert RowsNotIn([a, b], caps) == [b];
  }

  /** The rows of the guaranteed captures are the first and the last. */
  lemma SelectedOfR()
    ensures RowsIn(R, Guaranteed(R)) == [R0, R2]
    ensures RowsNotIn(R, Guaranteed(R)) == [R1]
  {
    GuaranteedOfR();
    assert CaptureOf(R1) !in Guaranteed(R);
    RowsOfThree(R0, R1, R2, Guaranteed(R));
  }

  /** The source's pool of captures to sample from holds a guaranteed capture,
      (2, 5), and misses the capture (1, 3) that belongs there; the corrected
      pool holds (1, 3) and no guaranteed capture. */
  lemma PoolAsWrittenMisplaced()
    ensures Capture(2, 5) in PoolAsWritten(R) && Capture(2, 5) in Guaranteed(R)
    ensures Capture(1, 3) !in PoolAsWritten(R)
    ensures Capture(1, 3) in Pool(R)
    ensures forall c :: c in Pool(R) ==> c !in Guaranteed(R)
  {
    GuaranteedOfR();
    SelectedOfR();
    assert R[2..] == [R2];
    assert R1 in R;
  }

  /** With the guaranteed captures as the whole test set, the source's training
      set keeps the row of test capture (2, 5) and loses the row of (1, 3),
      which is in no test capture; the corrected training set is exactly that
      row. */
  lemma TrainSetAsWrittenLeaks()
    ensures TrainSetAsWritten(R, |RowsIn(R, Guaranteed(R))|).Ok?
    ensures R2 in TrainSetAsWritten(R, |RowsIn(R, Guaranteed(R))|).value && CaptureOf(R2) in Guaranteed(R)
    ensures R1 !in TrainSetAsWritten(R, |RowsIn(R, Guaranteed(R))|).value && CaptureOf(R1) !in Guaranteed(R)
    ensures multiset(TrainSet(R, Guaranteed(R))) == multiset{R1}
  {
    GuaranteedOfR();
    SelectedOfR();
    assert R[2..] == [R2];
    var t := TrainSetAsWritten(R, 2).value;
    assert R2 in multiset(t);
    assert R1 !in multiset(t);
  }
}

=== FILE: fingerprinting.dfy ===
/** The example attack of attack_defence_test_scripts/fingerprinting.py: it
    groups the rows of a team's test and train files into captures, pads every
    capture with zeros to the longest length, and lays the classifier's class
    probabilities out in the columns an attack upload must have. The random
    forest classifier is not part of this model: its probabilities are an
    input. */
module Fingerprinting {
  import opened Collections
  import opened Text
  import TasksAttack

  /** A row of a team's test file (`capture_id`, `direction_size`, `timestamp`). */
  datatype TestRow = TestRow(captureId: int, directionSize: int, timestamp: real)

  /** A row of a team's train file (`cell_id`, `rep`, `direction_size`, `timestamp`). */
  datatype TrainRow = TrainRow(cellId: int, rep: int, directionSize: int, timestamp: real)

  // ----- grouping -----

  function CaptureKey(c: int): seq<real> {
    [c as real]
  }

  function CellRepKey(p: (int, int)): seq<real> {
    [p.0 as real, p.1 as real]
  }

  /** The groups of pandas `groupby`: every key once, in ascending order. */
  function GroupOrder<K(==,!new)>(keys: seq<K>, key: K -> seq<real>): (r: seq<K>)
    ensures forall k :: k in r <==> k in keys
    ensures NoDuplicates(r) && SortedBy(r, key)
  {
    var d := Distinct(keys);
    var r := SortBy(d, key);
    PermutationNoDuplicates(d, r);
    assert forall k :: k in r <==> k in multiset(d);
    r
  }

  /** The `capture_id` column of the test file. */
  function CaptureIds(test: seq<TestRow>): (r: seq<int>)
    ensures |r| == |test| && forall i :: 0 <= i < |test| ==> r[i] == test[i].captureId
  {
    seq(|test|, i requires 0 <= i < |test| => test[i].captureId)
  }

  /** The `(cell_id, rep)` columns of the train file. */
  function CellReps(train: seq<TrainRow>): (r: seq<(int, int)>)
    ensures |r| == |train| && forall i :: 0 <= i < |train| ==> r[i] == (train[i].cellId, train[i].rep)
  {
    seq(|train|, i requires 0 <= i < |train| => (train[i].cellId, train[i].rep))
  }

  /** The direction sizes of one test capture, in file order. */
  function CaptureSizes(test: seq<TestRow>, c: int): (r: seq<int>)
    ensures r != [] <==> c in CaptureIds(test)
    ensures |r| <= |test|
  {
    if test == [] then []
    else
      var init := test[..|test| - 1];
      var last := test[|test| - 1];
      assert CaptureIds(test) == CaptureIds(init) + [last.captureId];
      CaptureSizes(init, c) + (if last.captureId == c then [last.directionSize] else [])
  }

  /** The direction sizes of one train capture `(cell_id, rep)`, in file order. */
  function CellRepSizes(train: seq<TrainRow>, p: (int, int)): (r: seq<int>)
    ensures r != [] <==> p in CellReps(train)
    ensures |r| <= |train|
  {
    if train == [] then []
    else
      var init := train[..|train| - 1];
      var last := train[|train| - 1];
      assert CellReps(train) == CellReps(init) + [(last.cellId, last.rep)];
      CellRepSizes(init, p) + (if (last.cellId, last.rep) == p then [last.directionSize] else [])
  }

  /** `features_test`: one sequence of direction sizes per capture id, by
      ascending capture id. */
  function TestFeatures(test: seq<TestRow>): (r: seq<seq<int>>)
    ensures |r| == |GroupOrder(CaptureIds(test), CaptureKey)|
    ensures forall i :: 0 <= i < |r| ==> r[i] != []
  {
    var groups := GroupOrder(CaptureIds(test), CaptureKey);
    assert forall i :: 0 <= i < |groups| ==> groups[i] in CaptureIds(test);
    seq(|groups|, i requires 0 <= i < |groups| => CaptureSizes(test, groups[i]))
  }

  /** `features_train`: one sequence of direction sizes per `(cell_id, rep)`,
      by ascending key. */
  function TrainFeatures(train: seq<TrainRow>): (r: seq<seq<int>>)
    ensures |r| == |GroupOrder(CellReps(train), CellRepKey)|
    ensures forall i :: 0 <= i < |r| ==> r[i] != []
  {
    var groups := GroupOrder(CellReps(train), CellRepKey);
    assert forall i :: 0 <= i < |groups| ==> groups[i] in CellReps(train);
    seq(|groups|, i requires 0 <= i < |groups| => CellRepSizes(train, groups[i]))
  }

  /** `labels_train`: the cell id of every distinct `(cell_id, rep)`, in the
      order of first appearance in the file. */
  function TrainLabels(train: seq<TrainRow>): (r: seq<int>)
    ensures |r| == |Distinct(CellReps(train))|
    ensures forall i :: 0 <= i < |r| ==> r[i] == Distinct(CellReps(train))[i].0
    ensures forall i :: 0 <= i < |r| ==> (r[i], Distinct(CellReps(train))[i].1) in CellReps(train)
  {
    var d := Distinct(CellReps(train));
    assert forall i :: 0 <= i < |d| ==> d[i] in d;
    seq(|d|, i requires 0 <= i < |d| => d[i].0)
  }

  /** When the test file is sorted by capture id, as the defence pipeline
      writes it, its groups come in the order of first appearance, which is
      the order of the `capture_id` column written next to the predictions. */
  lemma TestGroupsInFileOrder(test: seq<TestRow>)
    requires SortedBy(CaptureIds(test), CaptureKey)
    ensures GroupOrder(CaptureIds(test), CaptureKey) == Distinct(CaptureIds(test))
  {
    var ids := CaptureIds(test);
    DistinctSortedBy(ids, CaptureKey);
    forall x: int, y: int | CaptureKey(x) == CaptureKey(y) ensures x == y {
      assert CaptureKey(x)[0] == CaptureKey(y)[0];
    }
    SortByOfSorted(Distinct(ids), CaptureKey);
  }

  /** When the train file is sorted by `(cell_id, rep)`, as the defence
      pipeline writes it, the i-th label is the class of the i-th train
      feature row. */
  lemma TrainLabelsAlign(train: seq<TrainRow>)
    requires SortedBy(CellReps(train), CellRepKey)
    ensures |TrainLabels(train)| == |TrainFeatures(train)|
    ensures forall i :: 0 <= i < |TrainLabels(train)| ==>
      TrainLabels(train)[i] == GroupOrder(CellReps(train), CellRepKey)[i].0
  {
    var pairs := CellReps(train);
    DistinctSortedBy(pairs, CellRepKey);
    forall x: (int, int), y: (int, int) | CellRepKey(x) == CellRepKey(y) ensures x == y {
      assert CellRepKey(x)[0] == CellRepKey(y)[0] && CellRepKey(x)[1] == CellRepKey(y)[1];
    }
    SortByOfSorted(Distinct(pairs), CellRepKey);
  }

  // ----- padding -----

  /** `max_len`: the greatest capture length, none when there is no capture
      at all (Python's `max` of an empty list fails). */
  function MaxLen(lengths: seq<nat>): (r: Option<nat>)
    ensures r.None? <==> lengths == []
    ensures r.Some? ==> forall i :: 0 <= i < |lengths| ==> lengths[i] <= r.value
    ensures r.Some? ==> exists i :: 0 <= i < |lengths| && lengths[i] == r.value
  {
    if lengths == [] then None
    else
      var init := lengths[..|lengths| - 1];
      var last := lengths[|lengths| - 1];
      match MaxLen(init)
      case None => Some(last)
      case Some(m) =>
        if m < last then Some(last)
        else
          var i :| 0 <= i < |init| && init[i] == m;
          assert lengths[i] == m;
          Some(m)
  }

  function Lengths(rows: seq<seq<int>>): (r: seq<nat>)
    ensures |r| == |rows| && forall i :: 0 <= i < |rows| ==> r[i] == |rows[i]|
  {
    seq(|rows|, i requires 0 <= i < |rows| => |rows[i]|)
  }

  /** Row `r` of the matrix holds capture `r`'s values followed by zeros. */
  ghost predicate PaddedFrom(z: array2<real>, rows: seq<seq<int>>, width: nat)
    reads z
  {
    z.Length0 == |rows| && z.Length1 == width &&
    forall r, c :: 0 <= r < |rows| && 0 <= c < width ==>
      z[r, c] == if c < |rows[r]| then rows[r][c] as real else 0.0
  }

  /** `np.zeros((len(rows), width))` filled row by row with `Z[r, :len(row)] = row`. */
  method ZeroPad(rows: seq<seq<int>>, width: nat) returns (z: array2<real>)
    requires forall r :: 0 <= r < |rows| ==> |rows[r]| <= width
    ensures PaddedFrom(z, rows, width)
  {
    z := new real[|rows|, width]((r, c) => 0.0);
    for r := 0 to |rows|
      invariant forall r', c :: 0 <= r' < r && 0 <= c < width ==>
        z[r', c] == if c < |rows[r']| then rows[r'][c] as real else 0.0
      invariant forall r', c :: r <= r' < |rows| && 0 <= c < width ==> z[r', c] == 0.0
    {
      for c := 0 to |rows[r]|
        invariant forall r', c' :: 0 <= r' < r && 0 <= c' < width ==>
          z[r', c'] == if c' < |rows[r']| then rows[r'][c'] as real else 0.0
        invariant forall c' :: 0 <= c' < c ==> z[r, c'] == rows[r][c'] as real
        invariant forall c' :: c <= c' < width ==> z[r, c'] == 0.0
        invariant forall r', c' :: r < r' < |rows| && 0 <= c' < width ==> z[r', c'] == 0.0
      {
        z[r, c] := rows[r][c] as real;
      }
    }
  }

  /** The matrices and labels `load_data` returns. */
  datatype Loaded = Loaded(zTest: array2<real>, zTrain: array2<real>, labels: seq<int>)

  /** `load_data`: group both files into captures, pad all of them to the
      longest capture of either file, and read the train labels. */
  method LoadData(test: seq<TestRow>, train: seq<TrainRow>) returns (r: Option<Loaded>)
    ensures r.None? <==> test == [] && train == []
    ensures r.Some? ==>
      var width := MaxLen(Lengths(TrainFeatures(train)) + Lengths(TestFeatures(test))).value;
      PaddedFrom(r.value.zTest, TestFeatures(test), width) &&
      PaddedFrom(r.value.zTrain, TrainFeatures(train), width) &&
      r.value.labels == TrainLabels(train)
  {
    var featuresTest := TestFeatures(test);
    var featuresTrain := TrainFeatures(train);
    var lengths := Lengths(featuresTrain) + Lengths(featuresTest);
    GroupsEmpty(test, train);
    var maxLen := MaxLen(lengths);
    if maxLen.None? {
      return None;
    }
    var width := maxLen.value;
    WidthCoversBoth(featuresTrain, featuresTest);
    var zTrain := ZeroPad(featuresTrain, width);
    var zTest := ZeroPad(featuresTest, width);
    r := Some(Loaded(zTest, zTrain, TrainLabels(train)));
  }

  /** The longest capture of two files is at least as long as each capture of either. */
  lemma WidthCoversBoth(a: seq<seq<int>>, b: seq<seq<int>>)
    requires MaxLen(Lengths(a) + Lengths(b)).Some?
    ensures forall i :: 0 <= i < |a| ==> |a[i]| <= MaxLen(Lengths(a) + Lengths(b)).value
    ensures forall i :: 0 <= i < |b| ==> |b[i]| <= MaxLen(Lengths(a) + Lengths(b)).value
  {
    var lengths := Lengths(a) + Lengths(b);
    forall i | 0 <= i < |a| ensures |a[i]| <= MaxLen(lengths).value {
      assert lengths[i] == |a[i]|;
    }
    forall i | 0 <= i < |b| ensures |b[i]| <= MaxLen(lengths).value {
      assert lengths[|a| + i] == |b[i]|;
    }
  }

  /** There are no captures exactly when both files are empty. */
  lemma GroupsEmpty(test: seq<TestRow>, train: seq<TrainRow>)
    ensures TestFeatures(test) == [] <==> test == []
    ensures TrainFeatures(train) == [] <==> train == []
  {
    if test != [] {
      assert test[0].captureId in CaptureIds(test);
      assert |GroupOrder(CaptureIds(test), CaptureKey)| > 0 by {
        assert test[0].captureId in GroupOrder(CaptureIds(test), CaptureKey);
      }
    }
    if train != [] {
      assert (train[0].cellId, train[0].rep) in CellReps(train);
      assert |GroupOrder(CellReps(train), CellRepKey)| > 0 by {
        assert (train[0].cellId, train[0].rep) in GroupOrder(CellReps(train), CellRepKey);
      }
    }
  }

  // ----- the output frame -----

  /** The number of classes the classifier scores. */
  const NB_OUTPUT_CLASSES: nat := 100

  function ProbaColumn(i: int): string {
    "proba_class_" + IntToString(i)
  }

  /** `proba_class_1` to `proba_class_100`. */
  function ProbaColumns(): (r: seq<string>)
    ensures |r| == NB_OUTPUT_CLASSES
    ensures forall i :: 0 <= i < NB_OUTPUT_CLASSES ==> r[i] == ProbaColumn(i + 1)
  {
    seq(NB_OUTPUT_CLASSES, i requires 0 <= i < NB_OUTPUT_CLASSES => ProbaColumn(i + 1))
  }

  /** The columns of the returned frame: `team_id`, `capture_id`, then the
      probability columns. */
  function OutputColumns(): (r: seq<string>)
    ensures |r| == NB_OUTPUT_CLASSES + 2
    ensures r[0] == "team_id" && r[1] == "capture_id" && r[2..] == ProbaColumns()
  {
    ["team_id", "capture_id"] + ProbaColumns()
  }

  /** A row of the returned frame. */
  datatype OutputRow = OutputRow(teamId: string, captureId: int, probas: seq<real>)

  /** `main`: the classifier's probability rows with the attacked team's id and
      the test file's distinct capture ids in file order put in front; pandas
      refuses the frame when the numbers of rows or columns do not fit. */
  function Output(teamId: string, test: seq<TestRow>, probas: seq<seq<real>>): (r: Option<seq<OutputRow>>)
    ensures r.Some? <==> |probas| == |Distinct(CaptureIds(test))| &&
                         forall i :: 0 <= i < |probas| ==> |probas[i]| == NB_OUTPUT_CLASSES
    ensures r.Some? ==> (|r.value| == |probas| &&
                         forall i :: 0 <= i < |probas| ==> r.value[i].teamId == teamId && r.value[i].probas == probas[i])
    ensures r.Some? ==> forall c :: c in CaptureIds(test) <==> exists i :: 0 <= i < |r.value| && r.value[i].captureId == c
    ensures r.Some? ==> forall i, j :: 0 <= i < j < |r.value| ==> r.value[i].captureId != r.value[j].captureId
    ensures r.Some? ==> forall i :: 0 <= i < |r.value| ==> r.value[i].captureId == Distinct(CaptureIds(test))[i]
  {
    var ids := Distinct(CaptureIds(test));
    if |probas| != |ids| || exists i :: 0 <= i < |probas| && |probas[i]| != NB_OUTPUT_CLASSES then None
    else
      var rows := seq(|probas|, i requires 0 <= i < |probas| => OutputRow(teamId, ids[i], probas[i]));
      assert forall c :: c in ids ==> exists i :: 0 <= i < |rows| && rows[i].captureId == c by {
        forall c | c in ids ensures exists i :: 0 <= i < |rows| && rows[i].captureId == c {
          var i :| 0 <= i < |ids| && ids[i] == c;
          assert rows[i].captureId == c;
        }
      }
      Some(rows)
  }

  /** With the test file sorted by capture id, output row `i` scores the
      capture padded into row `i` of the test matrix. */
  lemma OutputRowsMatchFeatures(teamId: string, test: seq<TestRow>, probas: seq<seq<real>>)
    requires SortedBy(CaptureIds(test), CaptureKey)
    requires Output(teamId, test, probas).Some?
    ensures |Output(teamId, test, probas).value| == |TestFeatures(test)|
    ensures forall i :: 0 <= i < |TestFeatures(test)| ==>
      Output(teamId, test, probas).value[i].captureId == GroupOrder(CaptureIds(test), CaptureKey)[i]
    ensures forall i :: 0 <= i < |TestFeatures(test)| ==>
      TestFeatures(test)[i] == CaptureSizes(test, Output(teamId, test, probas).value[i].captureId)
  {
    TestGroupsInFileOrder(test);
  }

  /** Reading the frame back as an attack upload gives, for every row, the
      class of its first most probable column. */
  lemma OutputClassesReadBack(probas: seq<real>)
    requires |probas| == NB_OUTPUT_CLASSES
    ensures exists k :: (0 <= k < NB_OUTPUT_CLASSES && TasksAttack.HardClass(ProbaColumns(), probas) == Some(k + 1) &&
                         (forall j :: 0 <= j < NB_OUTPUT_CLASSES ==> probas[j] <= probas[k]) &&
                         (forall j :: 0 <= j < k ==> probas[j] < probas[k]))
  {
    var classes := seq(NB_OUTPUT_CLASSES, i requires 0 <= i < NB_OUTPUT_CLASSES => i + 1);
    var prefix := "proba_class_";
    assert prefix[|prefix| - 1] == '_';
    TasksAttack.HardClassOfNamedColumns(prefix, classes, ProbaColumns(), probas);
  }
}

=== FILE: forms.dfy ===
/** The validators of app/forms.py: the registration form's field checks and
    the check of an uploaded dataset archive. A validator either accepts its
    field or raises a `ValidationError` carrying a message. */
module Forms {
  import opened Collections
  import opened Text
  import opened Models

  /** The verdict of one validator. */
  datatype Verdict = Accept | Reject(message: string)

  /** The select field's default choice, meaning "create a team". */
  const NEW_TEAM: string := "New team"

  /** `DATASET_EXTENSIONS` of config.py. */
  const DATASET_EXTENSIONS: seq<string> := [".csv"]

  // ----- RegistrationForm -----

  /** The messages of `validate_new_team_name`. */
  const RESERVED_TEAM_NAME: string := "You cannot give this name to your team"
  const JOIN_WITH_NAME: string := "Fill only if you want to create a new team"
  const BAD_TEAM_NAME: string := "You need to provide a non-empty, ascii characters only team name"
  const TEAM_NAME_TAKEN: string := "The team you try to join is already exists, select it it the field"

  /** `validate_username`: a name nobody uses, made of ASCII characters only. */
  function ValidateUsername(users: seq<User>, username: string): (r: Verdict)
    ensures r.Accept? <==> (forall u :: u in users ==> u.username != username) && IsAscii(username)
    ensures (exists u :: u in users && u.username == username) ==> r == Reject("Please use a different username.")
  {
    if exists u :: u in users && u.username == username then Reject("Please use a different username.")
    else if !IsAscii(username) then Reject("Please use a username containing only ASCII characters.")
    else Accept
  }

  /** `validate_email`: an address nobody uses. */
  function ValidateEmail(users: seq<User>, email: string): (r: Verdict)
    ensures r.Accept? <==> forall u :: u in users ==> u.email != email
  {
    if exists u :: u in users && u.email == email then Reject("Please use a different email address.")
    else Accept
  }

  /** The sciper field: `DataRequired` (a missing or zero value) and then
      `NumberRange(100000, 999999)`. */
  function ValidateSciper(sciper: Option<int>): (r: Verdict)
    ensures r.Accept? <==> sciper.Some? && 100000 <= sciper.value <= 999999
  {
    if sciper.None? || sciper.value == 0 then Reject("This field is required.")
    else if sciper.value < 100000 || sciper.value > 999999 then Reject("Please enter a valid Sciper")
    else Accept
  }

  /** `validate_team_select`: an existing team may be chosen only if it is not
      full; the "New team" choice is always accepted. */
  function ValidateTeamSelect(teams: seq<Team>, selection: string): (r: Verdict)
    ensures r.Accept? <==> selection == NEW_TEAM || FindTeamByName(teams, Some(selection)).None? ||
                           !IsFull(teams[FindTeamByName(teams, Some(selection)).value])
  {
    var team := FindTeamByName(teams, Some(selection));
    if selection != NEW_TEAM && team.Some? && IsFull(teams[team.value]) then
      Reject("The team you try to join is already full")
    else Accept
  }

  /** The checks of `validate_new_team_name` after its guard on "New team". */
  function NewTeamNameRules(teams: seq<Team>, selection: string, name: string): (r: Verdict)
    ensures r.Accept? <==> (selection != NEW_TEAM ==> name == "") &&
                           (selection == NEW_TEAM ==> name != "" && !IsSpace(name)) && IsAscii(name) &&
                           (forall t :: t in teams ==> t.teamName != name)
  {
    if selection != NEW_TEAM && name != "" then Reject(JOIN_WITH_NAME)
    else if (selection == NEW_TEAM && name == "") || !IsAscii(name) || IsSpace(name) then
      Reject(BAD_TEAM_NAME)
    else if FindTeamByName(teams, Some(name)).Some? then
      Reject(TEAM_NAME_TAKEN)
    else Accept
  }

  /** `validate_new_team_name` as the source is written: its first guard
      compares the field object itself with the string "New team", which never
      holds, so only the later rules apply. */
  function ValidateNewTeamNameAsWritten(teams: seq<Team>, selection: string, name: string): (r: Verdict)
  {
    NewTeamNameRules(teams, selection, name)
  }

  /** `validate_new_team_name` as intended: the name "New team" is refused,
      then the name must be empty when joining an existing team, non-empty,
      ASCII and not blank when creating one, and must not name an existing
      team. */
  function ValidateNewTeamName(teams: seq<Team>, selection: string, name: string): (r: Verdict)
    ensures r.Accept? <==> name != NEW_TEAM && (selection != NEW_TEAM ==> name == "") &&
                           (selection == NEW_TEAM ==> name != "" && !IsSpace(name)) && IsAscii(name) &&
                           (forall t :: t in teams ==> t.teamName != name)
    ensures name == NEW_TEAM ==> r == Reject(RESERVED_TEAM_NAME)
  {
    if name == NEW_TEAM then Reject(RESERVED_TEAM_NAME)
    else NewTeamNameRules(teams, selection, name)
  }

  /** The guard of the source never refuses a name: with no team yet, a user
      creating a team may call it "New team", which the intended rule refuses. */
  lemma NewTeamGuardAsWrittenNeverFires(teams: seq<Team>, selection: string, name: string)
    ensures ValidateNewTeamNameAsWritten(teams, selection, name) != Reject(RESERVED_TEAM_NAME)
    ensures ValidateNewTeamNameAsWritten([], NEW_TEAM, NEW_TEAM) == Accept
    ensures ValidateNewTeamName([], NEW_TEAM, NEW_TEAM) == Reject(RESERVED_TEAM_NAME)
  {
    assert |RESERVED_TEAM_NAME| < |JOIN_WITH_NAME| < |BAD_TEAM_NAME| < |TEAM_NAME_TAKEN|;
    assert IsAscii(NEW_TEAM) && !IsSpace(NEW_TEAM) by {
      assert NEW_TEAM[3] == ' ' && NEW_TEAM[0] == 'N';
    }
  }

  // ----- validate_uploaded_dataset -----

  /** `file_ext[1:]`: the extension without its first character. */
  function DropFirst(s: string): string {
    if s == [] then [] else s[1..]
  }

  /** `validate_uploaded_dataset` as the source is written: a file must be
      uploaded, the archive must hold exactly one entry, and the entry's
      extension with its dot removed must be listed in `DATASET_EXTENSIONS`. */
  function ValidateUploadAsWritten(filename: string, entries: seq<string>): (r: Verdict)
    ensures r.Accept? ==> filename != "" && |entries| == 1
  {
    if filename == "" then Reject("No file uploaded")
    else if |entries| != 1 then Reject("Your upload does not contain the correct files. Check your hidden files")
    else if DropFirst(SplitExt(entries[0]).1) !in DATASET_EXTENSIONS then
      Reject("Your upload should contain a dataset in the right file format")
    else Accept
  }

  /** The listed extensions carry their dot while the checked one has lost it,
      so the source refuses every upload, a lone `data.csv` included. */
  lemma UploadAsWrittenRejectsAll(filename: string, entries: seq<string>)
    ensures ValidateUploadAsWritten(filename, entries) != Accept
  {
    if filename != "" && |entries| == 1 {
      var ext := SplitExt(entries[0]).1;
      if ext != [] {
        assert '.' !in ext[1..];
        assert '.' in ".csv" && '.' !in DropFirst(ext);
      }
    }
  }

  /** `validate_uploaded_dataset` as intended: the entry's extension, dot
      included, must be listed in `DATASET_EXTENSIONS`. */
  function ValidateUpload(filename: string, entries: seq<string>): (r: Verdict)
    ensures r.Accept? <==> filename != "" && |entries| == 1 && SplitExt(entries[0]).1 == ".csv"
    ensures filename == "" ==> r == Reject("No file uploaded")
  {
    if filename == "" then Reject("No file uploaded")
    else if |entries| != 1 then Reject("Your upload does not contain the correct files. Check your hidden files")
    else if SplitExt(entries[0]).1 !in DATASET_EXTENSIONS then
      Reject("Your upload should contain a dataset in the right file format")
    else Accept
  }

  /** A zipped `dataset.csv` is accepted; the same name without extension, or
      a second entry such as a hidden file, is refused. */
  lemma UploadAcceptsCsv()
    ensures ValidateUpload("defence.zip", ["dataset.csv"]) == Accept
    ensures ValidateUpload("defence.zip", ["dataset"]).Reject?
    ensures ValidateUpload("defence.zip", ["dataset.csv", ".DS_Store"]).Reject?
  {
    var p := "dataset.csv";
    assert forall i :: 0 <= i < |p| ==> p[i] != '/';
    assert p[7] == '.' && p[8] != '.' && p[9] != '.' && p[10] != '.';
    assert RFind(p, '.') == 7;
    assert RFind(p, '/') == -1;
    assert p[0] != '.' && -1 + 1 <= 0 < 7;
    assert p[..7] == "dataset" && p[7..] == ".csv";
    assert SplitExt(p) == ("dataset", ".csv");
    assert forall i :: 0 <= i < |"dataset"| ==> "dataset"[i] != '.';
  }
}

=== FILE: models.dfy ===
/** The records of the competition database and the scoring rules computed from
    them (app/models.py). Every query becomes a function over the sequences of
    rows it reads; the row order of a sequence stands for the order in which the
    database returns rows when a query leaves it unspecified. */
module Models {
  import opened Collections

  datatype User = User(id: int, username: string, email: string, sciper: int, isAdmin: bool)

  datatype Team = Team(id: int, teamName: string, member1Id: Option<int>, member2Id: Option<int>)

  /** Maximum, mean and median of one utility quantity across captures. */
  datatype Summary = Summary(max: real, mean: real, median: real)

  /** The nine utility figures of a defence. A quantity is `None` when no capture
      has it, where pandas would store NaN in all three figures. */
  datatype Utility = Utility(inVolume: Option<Summary>, outVolume: Option<Summary>, time: Option<Summary>)

  datatype Defence = Defence(id: int, defenderTeamId: int, utility: Utility, timestamp: int, round: int)

  datatype Match = Match(id: int, defenderTeamId: int, attackerTeamId: int, round: int)

  datatype AttackResult = AttackResult(accuracy: real, rocAucScore: real)

  datatype Attack = Attack(id: int, matchId: int, results: AttackResult, timestamp: int)

  /** An Attack row as the evaluator builds it, before the database gives it an
      id and a timestamp. */
  datatype NewAttack = NewAttack(matchId: int, results: AttackResult)

  /** A score shown to the teams: a number, or the message explaining why there
      is none yet. */
  datatype Score = Num(value: real) | Message(text: string)

  const NO_DEFENCE_YET := "No defence uploaded yet"
  const ATTACKS_REMAIN := "Some attacks remain to do"
  const CANNOT_COMPUTE := "Cannot compute full score yet"

  /** The fallback attack performance used in the total score while attacks
      remain to do. */
  const INCOMPLETE_ATTACK_PERFORMANCE: real := 1.0

  /** Scale of the aggregated attack result. */
  const ATTACK_RESULT_SCALE: real := 1000.0

  predicate UniqueUserIds(users: seq<User>) {
    forall i, j :: 0 <= i < j < |users| ==> users[i].id != users[j].id
  }

  predicate UniqueMatchIds(matches: seq<Match>) {
    forall i, j :: 0 <= i < j < |matches| ==> matches[i].id != matches[j].id
  }

  /** The database constraint `_match_pair_once_per_round`: at most one match per
      (defender, attacker, round) triple. */
  predicate UniqueMatches(matches: seq<Match>) {
    forall i, j :: 0 <= i < j < |matches| ==>
      (matches[i].defenderTeamId, matches[i].attackerTeamId, matches[i].round) !=
      (matches[j].defenderTeamId, matches[j].attackerTeamId, matches[j].round)
  }

  /** `User.query.filter(User.id == id).first()`; a missing id (SQL NULL) finds
      nobody. */
  function FindUser(users: seq<User>, id: Option<int>): (r: Option<User>)
    ensures r.Some? <==> id.Some? && exists u :: u in users && u.id == id.value
    ensures r.Some? ==> r.value in users && r.value.id == id.value
  {
    if id.None? || users == [] then None
    else if users[0].id == id.value then Some(users[0])
    else FindUser(users[1..], id)
  }

  /** `Team.has_admin`: some member of the team exists and is an admin. */
  function HasAdmin(team: Team, users: seq<User>): (r: bool)
    requires UniqueUserIds(users)
    ensures r <==> exists u :: u in users && u.isAdmin &&
                          (team.member1Id == Some(u.id) || team.member2Id == Some(u.id))
  {
    var m1, m2 := FindUser(users, team.member1Id), FindUser(users, team.member2Id);
    (m1.Some? && m1.value.isAdmin) || (m2.Some? && m2.value.isAdmin)
  }

  /** A member slot counts as filled when its id is present and truthy (Python
      treats an id of 0 as false). */
  predicate IsSet(id: Option<int>) {
    id.Some? && id.value != 0
  }

  /** `Team.is_full`. */
  predicate IsFull(team: Team) {
    IsSet(team.member1Id) && IsSet(team.member2Id)
  }

  function TeamIds(teams: seq<Team>): set<int> {
    set t | t in teams :: t.id
  }

  /** The matches in which `attackerId` attacks during `round`. */
  function AttackMatchesInRound(attackerId: int, round: int, matches: seq<Match>): (r: seq<Match>)
    ensures forall m :: m in r <==> m in matches && m.attackerTeamId == attackerId && m.round == round
  {
    Filter(matches, (m: Match) => m.attackerTeamId == attackerId && m.round == round)
  }

  /** `Match.nb_matches_in_round`. */
  function NbMatchesInRound(round: int, attackerId: int, matches: seq<Match>): nat {
    |AttackMatchesInRound(attackerId, round, matches)|
  }

  /** `Team.team_id_to_attack_in_round`: the distinct existing teams this team
      attacks in this round. */
  function TeamIdToAttackInRound(teamId: int, round: int, matches: seq<Match>, teams: seq<Team>): (r: seq<int>)
    ensures NoDuplicates(r)
    ensures forall d :: d in r <==>
      d in TeamIds(teams) &&
      exists m :: m in matches && m.attackerTeamId == teamId && m.round == round && m.defenderTeamId == d
  {
    var own := AttackMatchesInRound(teamId, round, matches);
    var known := Filter(own, (m: Match) => m.defenderTeamId in TeamIds(teams));
    Distinct(DefenderIds(known))
  }

  /** The defending team of each match, in match order. */
  function DefenderIds(matches: seq<Match>): (ids: seq<int>)
    ensures forall d :: d in ids <==> exists m :: m in matches && m.defenderTeamId == d
  {
    var ids := seq(|matches|, i requires 0 <= i < |matches| => matches[i].defenderTeamId);
    forall d | d in ids ensures exists m :: m in matches && m.defenderTeamId == d {
      var i :| 0 <= i < |ids| && ids[i] == d;
      assert matches[i] in matches;
    }
    forall m | m in matches ensures m.defenderTeamId in ids {
      var i :| 0 <= i < |matches| && matches[i] == m;
      assert ids[i] == m.defenderTeamId;
    }
    ids
  }

  /** `Team.get_match_against(round, other).first()`. */
  function GetMatchAgainst(teamId: int, round: int, otherId: int, matches: seq<Match>): (r: Option<Match>)
    ensures r.Some? <==> exists m :: m in matches && m.attackerTeamId == teamId && m.round == round && m.defenderTeamId == otherId
    ensures r.Some? ==> r.value in matches && r.value.attackerTeamId == teamId &&
                        r.value.round == round && r.value.defenderTeamId == otherId
  {
    if matches == [] then None
    else
      var m := matches[0];
      if m.attackerTeamId == teamId && m.round == round && m.defenderTeamId == otherId then Some(m)
      else GetMatchAgainst(teamId, round, otherId, matches[1..])
  }

  /** `AttackResult.aggregated_result`. */
  function AggregatedResult(r: AttackResult): real {
    ATTACK_RESULT_SCALE * r.rocAucScore * r.accuracy
  }

  /** With accuracy and discrimination score both in [0, 1] the aggregated
      result lies in [0, 1000], and a perfect attack scores exactly 1000. */
  lemma AggregatedResultRange(r: AttackResult)
    requires 0.0 <= r.accuracy <= 1.0 && 0.0 <= r.rocAucScore <= 1.0
    ensures 0.0 <= AggregatedResult(r) <= ATTACK_RESULT_SCALE
    ensures r.accuracy == 1.0 && r.rocAucScore == 1.0 ==> AggregatedResult(r) == ATTACK_RESULT_SCALE
  {
    UnitProduct(r.rocAucScore, r.accuracy);
  }

  lemma UnitProduct(a: real, b: real)
    requires 0.0 <= a <= 1.0 && 0.0 <= b <= 1.0
    ensures 0.0 <= a * b <= 1.0
  {
    assert a * b <= a * 1.0 by {
      assert a * (1.0 - b) >= 0.0;
    }
  }

  /** `Match.match_done`: at least one Attack refers to the match. */
  predicate MatchDone(m: Match, attacks: seq<Attack>) {
    exists a :: a in attacks && a.matchId == m.id
  }

  /** `Team.utility_score`: the aggregated score of the team's most recent defence
      of the round. `aggregate` is `Utility.aggregated_score`, whose base-10
      logarithm is not modelled. */
  function UtilityScore(teamId: int, round: int, defences: seq<Defence>, aggregate: Utility -> real): (r: Score)
    ensures r.Message? <==> !exists d :: d in defences && d.defenderTeamId == teamId && d.round == round
    ensures r.Message? ==> r.text == NO_DEFENCE_YET
    ensures r.Num? ==> exists d :: d in defences && d.defenderTeamId == teamId && d.round == round &&
                          r.value == aggregate(d.utility) &&
                          forall e :: e in defences && e.defenderTeamId == teamId && e.round == round ==>
                            e.timestamp <= d.timestamp
  {
    var own := Filter(defences, (d: Defence) => d.defenderTeamId == teamId && d.round == round);
    if own == [] then Message(NO_DEFENCE_YET)
    else
      var k := ArgMax(own, (d: Defence) => d.timestamp as real);
      assert own[k] in own;
      assert forall e :: e in own ==> e.timestamp <= own[k].timestamp by {
        forall e | e in own ensures e.timestamp <= own[k].timestamp {
          var j :| 0 <= j < |own| && own[j] == e;
        }
      }
      Num(aggregate(own[k].utility))
  }

  /** The attacks made by `teamId` for its matches of `round`. */
  function RoundAttacks(teamId: int, round: int, matches: seq<Match>, attacks: seq<Attack>): (r: seq<Attack>)
    ensures forall a :: a in r <==> (a in attacks &&
      exists m :: m in matches && m.attackerTeamId == teamId && m.round == round && m.id == a.matchId)
  {
    var own := AttackMatchesInRound(teamId, round, matches);
    var ids := set m | m in own :: m.id;
    Filter(attacks, (a: Attack) => a.matchId in ids)
  }

  /** The match ids that have at least one attack, in order of first attack. */
  function AttackedMatchIds(atks: seq<Attack>): (r: seq<int>)
    ensures NoDuplicates(r)
    ensures forall id :: id in r <==> exists a :: a in atks && a.matchId == id
  {
    var ids := seq(|atks|, i requires 0 <= i < |atks| => atks[i].matchId);
    assert forall id :: id in ids <==> exists a :: a in atks && a.matchId == id by {
      forall id | id in ids ensures exists a :: a in atks && a.matchId == id {
        var i :| 0 <= i < |ids| && ids[i] == id;
        assert atks[i] in atks;
      }
      forall a | a in atks ensures a.matchId in ids {
        var i :| 0 <= i < |atks| && atks[i] == a;
        assert ids[i] == a.matchId;
      }
    }
    Distinct(ids)
  }

  /** The most recent attack (greatest timestamp) for a match that was attacked. */
  function LatestAttack(atks: seq<Attack>, matchId: int): (a: Attack)
    requires exists b :: b in atks && b.matchId == matchId
    ensures a in atks && a.matchId == matchId
    ensures forall b :: b in atks && b.matchId == matchId ==> b.timestamp <= a.timestamp
  {
    var own := Filter(atks, (b: Attack) => b.matchId == matchId);
    var b :| b in atks && b.matchId == matchId;
    assert b in own;
    var k := ArgMax(own, (b: Attack) => b.timestamp as real);
    assert own[k] in own;
    assert forall c :: c in own ==> c.timestamp <= own[k].timestamp by {
      forall c | c in own ensures c.timestamp <= own[k].timestamp {
        var j :| 0 <= j < |own| && own[j] == c;
      }
    }
    own[k]
  }

  /** The latest attack of each attacked match of the team in the round: the rows
      selected by the `func.max(timestamp)` ... `group_by(match_id)` query. */
  function LatestAttacksPerMatch(teamId: int, round: int, matches: seq<Match>, attacks: seq<Attack>): (r: seq<Attack>)
    ensures |r| == |AttackedMatchIds(RoundAttacks(teamId, round, matches, attacks))|
    ensures forall i :: 0 <= i < |r| ==>
      var atks := RoundAttacks(teamId, round, matches, attacks);
      r[i] in atks && r[i].matchId == AttackedMatchIds(atks)[i] &&
      forall b :: b in atks && b.matchId == r[i].matchId ==> b.timestamp <= r[i].timestamp
  {
    var atks := RoundAttacks(teamId, round, matches, attacks);
    var ids := AttackedMatchIds(atks);
    seq(|ids|, i requires 0 <= i < |ids| => assert ids[i] in ids; LatestAttack(atks, ids[i]))
  }

  function AggregatedResults(atks: seq<Attack>): (r: seq<real>)
    ensures |r| == |atks|
  {
    seq(|atks|, i requires 0 <= i < |atks| => AggregatedResult(atks[i].results))
  }

  /** `Team.attack_performance` as the source computes it: when the count of
      attacked matches equals the count of assigned matches, the mean of the
      latest results, which divides by zero for a team with no match. `Err`
      stands for the `ZeroDivisionError`. */
  function AttackPerformanceAsWritten(teamId: int, round: int, matches: seq<Match>, attacks: seq<Attack>): (r: Result<Score, string>)
  {
    var latest := LatestAttacksPerMatch(teamId, round, matches, attacks);
    if |latest| == NbMatchesInRound(round, teamId, matches) then
      if latest == [] then Err("ZeroDivisionError") else Ok(Num(Mean(AggregatedResults(latest))))
    else Ok(Message(ATTACKS_REMAIN))
  }

  /** Any team without an attack match in the round (every admin team, since
      admins take no part in match generation, and any team left out of a later
      round) makes the score computation fail. */
  lemma AttackPerformanceAsWrittenFailsWithoutMatches(teamId: int, round: int, matches: seq<Match>, attacks: seq<Attack>)
    requires forall m :: m in matches && m.round == round ==> m.attackerTeamId != teamId
    ensures AttackPerformanceAsWritten(teamId, round, matches, attacks).Err?
  {
    var latest := LatestAttacksPerMatch(teamId, round, matches, attacks);
    assert AttackMatchesInRound(teamId, round, matches) == [];
    assert RoundAttacks(teamId, round, matches, attacks) == [];
    assert latest == [];
  }

  /** `Team.attack_performance` with the division guarded: the mean of the latest
      result of every assigned match once all of them are attacked, and the
      "attacks remain" message otherwise, including when no match is assigned. */
  function AttackPerformance(teamId: int, round: int, matches: seq<Match>, attacks: seq<Attack>): (r: Score)
    ensures r.Message? ==> r.text == ATTACKS_REMAIN
    ensures r.Num? ==> NbMatchesInRound(round, teamId, matches) > 0
  {
    PerformanceOf(LatestAttacksPerMatch(teamId, round, matches, attacks), NbMatchesInRound(round, teamId, matches))
  }

  /** The mean aggregated result of `latest` when it holds one attack for each of
      the `nb` matches, the "attacks remain" message otherwise. */
  function PerformanceOf(latest: seq<Attack>, nb: nat): (r: Score)
    ensures r.Num? <==> latest != [] && |latest| == nb
    ensures r.Message? ==> r.text == ATTACKS_REMAIN
  {
    if latest != [] && |latest| == nb then Num(Mean(AggregatedResults(latest)))
    else Message(ATTACKS_REMAIN)
  }

  /** A mean of results in [0, 1] x [0, 1] lies in [0, 1000]. */
  lemma PerformanceOfRange(latest: seq<Attack>, nb: nat)
    requires forall a :: a in latest ==> 0.0 <= a.results.accuracy <= 1.0 && 0.0 <= a.results.rocAucScore <= 1.0
    ensures PerformanceOf(latest, nb).Num? ==> 0.0 <= PerformanceOf(latest, nb).value <= ATTACK_RESULT_SCALE
  {
    if latest != [] {
      var rs := AggregatedResults(latest);
      forall x | x in rs ensures 0.0 <= x <= ATTACK_RESULT_SCALE {
        var i :| 0 <= i < |rs| && rs[i] == x;
        assert latest[i] in latest;
        AggregatedResultRange(latest[i].results);
      }
      assert MinReal(rs) in rs && MaxReal(rs) in rs;
    }
  }

  /** Where the source does not fail, the guarded version computes the same
      score. */
  lemma AttackPerformanceAgrees(teamId: int, round: int, matches: seq<Match>, attacks: seq<Attack>)
    requires AttackPerformanceAsWritten(teamId, round, matches, attacks).Ok?
    ensures AttackPerformanceAsWritten(teamId, round, matches, attacks).value ==
            AttackPerformance(teamId, round, matches, attacks)
  {
  }

  /** The performance is a number exactly when the team has matches in the round
      and every one of them has been attacked. */
  lemma AttackPerformanceComplete(teamId: int, round: int, matches: seq<Match>, attacks: seq<Attack>)
    requires UniqueMatchIds(matches)
    ensures AttackPerformance(teamId, round, matches, attacks).Num? <==>
      AttackMatchesInRound(teamId, round, matches) != [] &&
      forall m :: m in AttackMatchesInRound(teamId, round, matches) ==> MatchDone(m, attacks)
  {
    var own := AttackMatchesInRound(teamId, round, matches);
    if forall m :: m in own ==> MatchDone(m, attacks) {
      AllAttackedCounts(teamId, round, matches, attacks);
    } else {
      var m :| m in own && !MatchDone(m, attacks);
      PendingCounts(teamId, round, matches, attacks, m);
    }
  }

  /** Every match of the team attacked: one latest attack per match. */
  lemma AllAttackedCounts(teamId: int, round: int, matches: seq<Match>, attacks: seq<Attack>)
    requires UniqueMatchIds(matches)
    requires forall m :: m in AttackMatchesInRound(teamId, round, matches) ==> MatchDone(m, attacks)
    ensures |LatestAttacksPerMatch(teamId, round, matches, attacks)| == NbMatchesInRound(round, teamId, matches)
  {
    IdCounts(teamId, round, matches, attacks);
    AttackedWithinOwn(teamId, round, matches, attacks);
    OwnAllAttacked(teamId, round, matches, attacks);
    assert AttackedIds(teamId, round, matches, attacks) == OwnMatchIds(teamId, round, matches);
  }

  /** A match of the team still unattacked: fewer latest attacks than matches. */
  lemma PendingCounts(teamId: int, round: int, matches: seq<Match>, attacks: seq<Attack>, m: Match)
    requires UniqueMatchIds(matches)
    requires m in AttackMatchesInRound(teamId, round, matches) && !MatchDone(m, attacks)
    ensures |LatestAttacksPerMatch(teamId, round, matches, attacks)| < NbMatchesInRound(round, teamId, matches)
  {
    IdCounts(teamId, round, matches, attacks);
    AttackedWithinOwn(teamId, round, matches, attacks);
    OwnNotAttacked(teamId, round, matches, attacks, m);
    StrictSubsetCard(AttackedIds(teamId, round, matches, attacks), OwnMatchIds(teamId, round, matches), m.id);
  }

  /** The ids of the team's matches in the round. */
  function OwnMatchIds(teamId: int, round: int, matches: seq<Match>): set<int> {
    set m | m in AttackMatchesInRound(teamId, round, matches) :: m.id
  }

  /** The ids of the team's matches in the round that have been attacked. */
  function AttackedIds(teamId: int, round: int, matches: seq<Match>, attacks: seq<Attack>): set<int> {
    set x | x in AttackedMatchIds(RoundAttacks(teamId, round, matches, attacks))
  }

  lemma AttackedWithinOwn(teamId: int, round: int, matches: seq<Match>, attacks: seq<Attack>)
    ensures AttackedIds(teamId, round, matches, attacks) <= OwnMatchIds(teamId, round, matches)
  {
    var atks := RoundAttacks(teamId, round, matches, attacks);
    forall id | id in AttackedIds(teamId, round, matches, attacks)
      ensures id in OwnMatchIds(teamId, round, matches)
    {
      assert id in AttackedMatchIds(atks);
      var a :| a in atks && a.matchId == id;
      var m :| m in matches && m.attackerTeamId == teamId && m.round == round && m.id == a.matchId;
      assert m in AttackMatchesInRound(teamId, round, matches);
    }
  }

  lemma OwnAllAttacked(teamId: int, round: int, matches: seq<Match>, attacks: seq<Attack>)
    requires forall m :: m in AttackMatchesInRound(teamId, round, matches) ==> MatchDone(m, attacks)
    ensures OwnMatchIds(teamId, round, matches) <= AttackedIds(teamId, round, matches, attacks)
  {
    var own := AttackMatchesInRound(teamId, round, matches);
    var atks := RoundAttacks(teamId, round, matches, attacks);
    forall id | id in OwnMatchIds(teamId, round, matches)
      ensures id in AttackedIds(teamId, round, matches, attacks)
    {
      var m :| m in own && m.id == id;
      assert MatchDone(m, attacks);
      var a :| a in attacks && a.matchId == m.id;
      assert a in atks;
      assert id in AttackedMatchIds(atks);
    }
  }

  lemma OwnNotAttacked(teamId: int, round: int, matches: seq<Match>, attacks: seq<Attack>, m: Match)
    requires m in AttackMatchesInRound(teamId, round, matches) && !MatchDone(m, attacks)
    ensures m.id in OwnMatchIds(teamId, round, matches)
    ensures m.id !in AttackedIds(teamId, round, matches, attacks)
  {
    var atks := RoundAttacks(teamId, round, matches, attacks);
    forall a | a in atks ensures a.matchId != m.id {
      assert a in attacks;
    }
  }

  /** As many own ids as matches to attack, as many attacked ids as latest
      attacks. */
  lemma IdCounts(teamId: int, round: int, matches: seq<Match>, attacks: seq<Attack>)
    requires UniqueMatchIds(matches)
    ensures |OwnMatchIds(teamId, round, matches)| == NbMatchesInRound(round, teamId, matches)
    ensures |AttackedIds(teamId, round, matches, attacks)| == |LatestAttacksPerMatch(teamId, round, matches, attacks)|
  {
    assert NoDuplicates(matches);
    FilterNoDuplicates(matches, (m: Match) => m.attackerTeamId == teamId && m.round == round);
    UniqueIdsCard(AttackMatchesInRound(teamId, round, matches), matches);
    NoDuplicatesCard(AttackedMatchIds(RoundAttacks(teamId, round, matches, attacks)));
  }

  lemma StrictSubsetCard(a: set<int>, b: set<int>, x: int)
    requires a <= b && x in b && x !in a
    ensures |a| < |b|
  {
    assert b == a + (b - a);
    assert x in b - a;
  }

  /** The match ids of a selection of uniquely-identified matches are as many as
      the matches selected. */
  lemma UniqueIdsCard(own: seq<Match>, matches: seq<Match>)
    requires UniqueMatchIds(matches)
    requires forall m :: m in own ==> m in matches
    requires NoDuplicates(own)
    ensures |set m | m in own :: m.id| == |own|
  {
    var ids := seq(|own|, i requires 0 <= i < |own| => own[i].id);
    assert NoDuplicates(ids) by {
      forall i, j | 0 <= i < j < |ids| ensures ids[i] != ids[j] {
        assert own[i] in own && own[j] in own;
        var a :| 0 <= a < |matches| && matches[a] == own[i];
        var b :| 0 <= b < |matches| && matches[b] == own[j];
        assert a != b;
      }
    }
    NoDuplicatesCard(ids);
    assert (set x | x in ids) == (set m | m in own :: m.id) by {
      forall x | x in ids ensures x in (set m | m in own :: m.id) {
        var i :| 0 <= i < |ids| && ids[i] == x;
        assert own[i] in own;
      }
      forall m | m in own ensures m.id in ids {
        var i :| 0 <= i < |own| && own[i] == m;
        assert ids[i] == m.id;
      }
    }
  }

  /** When every attack's accuracy and discrimination score lie in [0, 1], the
      attack performance lies in [0, 1000]. */
  lemma AttackPerformanceRange(teamId: int, round: int, matches: seq<Match>, attacks: seq<Attack>)
    requires forall a :: a in attacks ==> 0.0 <= a.results.accuracy <= 1.0 && 0.0 <= a.results.rocAucScore <= 1.0
    ensures AttackPerformance(teamId, round, matches, attacks).Num? ==>
      0.0 <= AttackPerformance(teamId, round, matches, attacks).value <= ATTACK_RESULT_SCALE
  {
    var latest := LatestAttacksPerMatch(teamId, round, matches, attacks);
    assert forall a :: a in latest ==> a in attacks by {
      forall a | a in latest ensures a in attacks {
        var i :| 0 <= i < |latest| && latest[i] == a;
      }
    }
    PerformanceOfRange(latest, NbMatchesInRound(round, teamId, matches));
  }

  /** `Team.total_score`: the product of attack performance and utility, with the
      fixed fallback 1.0 for an unfinished attack; a message while there is no
      utility score. */
  function TotalScore(attackPerformance: Score, utilityScore: Score): (r: Score)
    ensures r.Num? <==> utilityScore.Num?
    ensures r.Message? ==> r.text == CANNOT_COMPUTE
    ensures utilityScore.Num? && attackPerformance.Message? ==> r.value == utilityScore.value
    ensures utilityScore.Num? && attackPerformance.Num? ==>
              r.value == attackPerformance.value * utilityScore.value
  {
    if utilityScore.Num? then
      Num((if attackPerformance.Num? then attackPerformance.value else INCOMPLETE_ATTACK_PERFORMANCE) * utilityScore.value)
    else Message(CANNOT_COMPUTE)
  }

  /** Completing the attacks with an average above the fallback can only raise a
      positive total score. */
  lemma TotalScoreRewardsCompletion(perf: real, utility: real)
    requires perf >= INCOMPLETE_ATTACK_PERFORMANCE && utility > 0.0
    ensures TotalScore(Num(perf), Num(utility)).value >= TotalScore(Message(ATTACKS_REMAIN), Num(utility)).value
  {
    assert perf * utility >= 1.0 * utility;
  }

  /** An item of a paginated list of matches, with the flag the page shows. */
  datatype MatchItem = MatchItem(item: Match, matchDone: bool)

  /** The ids of the listed matches that have at least one attack (the join of
      the listed matches with the Attack table). */
  function AttacksDone(listed: seq<Match>, attacks: seq<Attack>): (r: seq<int>)
    ensures forall m :: m in listed ==> (m.id in r <==> MatchDone(m, attacks))
  {
    var done := Filter(listed, (m: Match) => MatchDone(m, attacks));
    var ids := seq(|done|, i requires 0 <= i < |done| => done[i].id);
    assert forall m :: m in listed ==> (m.id in ids <==> MatchDone(m, attacks)) by {
      forall m | m in listed ensures m.id in ids <==> MatchDone(m, attacks) {
        if MatchDone(m, attacks) {
          assert m in done;
          var i :| 0 <= i < |done| && done[i] == m;
          assert ids[i] == m.id;
        }
        if m.id in ids {
          var i :| 0 <= i < |ids| && ids[i] == m.id;
          assert done[i] in done;
          var a :| a in attacks && a.matchId == done[i].id;
        }
      }
    }
    ids
  }

  /** The position of the first item of a page, counting pages from 1. */
  function PageStart(page: int, perPage: nat): (start: nat)
    requires page >= 1
  {
    (page - 1) * perPage
  }

  /** Flask-SQLAlchemy `paginate(page, per_page)` with its default `error_out`:
      a page below 1, or an empty page other than the first, is a 404. With
      `per_page` 0 every page is empty, so only page 1 is served. */
  function Page(listed: seq<Match>, page: int, perPage: nat): (r: Result<seq<Match>, int>)
    ensures r.Err? ==> r.error == 404
    ensures r.Err? <==> page < 1 || (page > 1 && (perPage == 0 || PageStart(page, perPage) >= |listed|))
    ensures r.Ok? ==> (page >= 1 && PageStart(page, perPage) + |r.value| <= |listed| &&
      |r.value| == (if PageStart(page, perPage) + perPage <= |listed| then perPage
                    else |listed| - PageStart(page, perPage)) &&
      forall i :: 0 <= i < |r.value| ==> r.value[i] == listed[PageStart(page, perPage) + i])
  {
    if page < 1 then Err(404)
    else
      var start := PageStart(page, perPage);
      var stop := if start + perPage <= |listed| then start + perPage else |listed|;
      if start >= |listed| || perPage == 0 then (if page != 1 then Err(404) else Ok([]))
      else Ok(listed[start..stop])
  }

  /** `Match.paginate_and_itemize_match_query`, its loop over the page items:
      each item's `match_done` flag is set in place. */
  method ItemizeMatches(items: array<MatchItem>, done: seq<int>)
    modifies items
    ensures forall i :: 0 <= i < items.Length ==>
      items[i] == MatchItem(old(items[i].item), old(items[i].item.id) in done)
  {
    for i := 0 to items.Length
      invariant forall k :: 0 <= k < i ==> items[k] == MatchItem(old(items[k].item), old(items[k].item.id) in done)
      invariant forall k :: i <= k < items.Length ==> items[k] == old(items[k])
    {
      items[i] := items[i].(matchDone := items[i].item.id in done);
    }
  }

  /** `Match.paginate_and_itemize_match_query`: the page of `listed`, each item
      flagged exactly when its match has been attacked at least once. */
  method PaginateAndItemize(listed: seq<Match>, page: int, perPage: nat, attacks: seq<Attack>)
    returns (r: Result<array<MatchItem>, int>)
    ensures r.Err? <==> Page(listed, page, perPage).Err?
    ensures r.Ok? ==> (fresh(r.value) && r.value.Length == |Page(listed, page, perPage).value| &&
      forall i :: 0 <= i < r.value.Length ==>
        r.value[i].item == Page(listed, page, perPage).value[i] &&
        (r.value[i].matchDone <==> MatchDone(r.value[i].item, attacks)))
  {
    var done := AttacksDone(listed, attacks);
    var p := Page(listed, page, perPage);
    if p.Err? {
      return Err(p.error);
    }
    var pageItems := p.value;
    var items := new MatchItem[|pageItems|](i requires 0 <= i < |pageItems| => MatchItem(pageItems[i], false));
    ItemizeMatches(items, done);
    forall i | 0 <= i < items.Length
      ensures items[i].matchDone <==> MatchDone(items[i].item, attacks)
    {
      var k := PageStart(page, perPage) + i;
      assert pageItems[i] == listed[k] && listed[k] in listed;
      assert items[i].item == pageItems[i];
    }
    r := Ok(items);
  }

  /** The position of the first team with the given name; a missing name
      (SQL NULL) names no team. */
  function FindTeamByName(teams: seq<Team>, name: Option<string>): (r: Option<nat>)
    ensures r.None? <==> name.None? || forall t :: t in teams ==> t.teamName != name.value
    ensures r.Some? ==> r.value < |teams| && teams[r.value].teamName == name.value
    ensures r.Some? ==> forall i :: 0 <= i < r.value ==> teams[i].teamName != name.value
  {
    if name.None? || teams == [] then None
    else if teams[0].teamName == name.value then Some(0)
    else
      var r := FindTeamByName(teams[1..], name);
      assert forall t :: t in teams ==> t == teams[0] || t in teams[1..];
      if r.None? then None else Some(r.value + 1)
  }
}

=== FILE: routes.dfy ===
/** The state-changing routes of app/routes.py: joining a team, generating the
    matches of a round, switching the competition phase and serving the cached
    leaderboard. The database tables and the application config are fields of
    one `Competition` object; the logged-in user, the clock, the shuffle and the
    number formatting are parameters. */
module Routes {
  import opened Collections
  import opened Text
  import opened Models

  // ----- generate_matches: the round-robin layout -----

  /** The position `j` places after `a` on a circle of `n` positions, for
      `0 <= a < n` and `0 <= j <= n`. */
  function Next(n: nat, a: int, j: int): int {
    if a + j < n then a + j else a + j - n
  }

  /** The position `j` places before `d` on a circle of `n` positions. */
  function Prev(n: nat, d: int, j: int): int {
    if d - j >= 0 then d - j else d - j + n
  }

  /** `Next` is the source's `(a + j) % n` on the positions it is used at. */
  lemma NextIsMod(n: nat, a: int, j: int)
    requires 0 <= a < n && 0 <= j <= n
    ensures Next(n, a, j) == (a + j) % n
  {
    if a + j < n {
      ModBelow(a + j, n);
    } else {
      ModOnce(a + j, n);
    }
  }

  lemma ModBelow(x: int, n: int)
    requires 0 <= x < n
    ensures x % n == x
  {
  }

  lemma ModOnce(x: int, n: int)
    requires n <= x < 2 * n
    ensures x % n == x - n
  {
  }

  /** Going `j` places forward from `a` lands on `d` exactly when `a` is `j`
      places before `d`. */
  lemma NextPrev(n: nat, a: int, d: int, j: int)
    requires 0 <= a < n && 0 <= d < n && 0 <= j <= n
    ensures Next(n, a, j) == d <==> a == Prev(n, d, j)
  {
  }

  /** The (attacker, defender) positions of the attacker at position `a`: the
      next `k` positions after it. */
  function AttackerRow(n: nat, k: nat, a: nat): (r: seq<(nat, nat)>)
    requires k < n || k == 0
    ensures |r| == k
    ensures forall j :: 0 <= j < k ==> r[j] == (a, Next(n, a, j + 1) as nat)
  {
    seq(k, j requires 0 <= j < k => (a, Next(n, a, j + 1) as nat))
  }

  /** The positions paired by the nested loops after the first `i` attackers. */
  function Pairs(n: nat, k: nat, i: nat): (r: seq<(nat, nat)>)
    requires (k < n || k == 0) && i <= n
    ensures forall p :: p in r ==> p.0 < n && p.1 < n
  {
    if i == 0 then [] else Pairs(n, k, i - 1) + AttackerRow(n, k, i - 1)
  }

  /** The first `i` attackers lay out `k` pairs each. */
  lemma {:induction false} PairsLength(n: nat, k: nat, i: nat)
    requires (k < n || k == 0) && i <= n
    ensures |Pairs(n, k, i)| == i * k
  {
    if i > 0 {
      PairsLength(n, k, i - 1);
      assert |Pairs(n, k, i)| == (i - 1) * k + k == i * k;
    }
  }

  /** A pair is laid out exactly when its attacker is among the first `i` and its
      defender lies 1 to `k` places after it. */
  lemma {:induction false} PairsMembership(n: nat, k: nat, i: nat, p: (nat, nat))
    requires (k < n || k == 0) && i <= n
    ensures p in Pairs(n, k, i) <==> p.0 < i && p.1 < n && exists j :: 1 <= j <= k && p.1 == Next(n, p.0, j)
  {
    if i > 0 {
      PairsMembership(n, k, i - 1, p);
      var row := AttackerRow(n, k, i - 1);
      assert p in Pairs(n, k, i) <==> p in Pairs(n, k, i - 1) || p in row;
      if p in row {
        var j :| 0 <= j < k && row[j] == p;
        assert 1 <= j + 1 <= k && p.1 == Next(n, p.0, j + 1);
      }
      if p.0 == i - 1 && p.1 < n && exists j :: 1 <= j <= k && p.1 == Next(n, p.0, j) {
        var j :| 1 <= j <= k && p.1 == Next(n, p.0, j);
        assert row[j - 1] == p;
      }
    }
  }

  /** Within one attacker's row the defenders are distinct and never the
      attacker. */
  lemma NextDistinct(n: nat, a: nat, j1: int, j2: int)
    requires a < n && 1 <= j1 < n && 1 <= j2 < n
    ensures Next(n, a, j1) != a
    ensures Next(n, a, j1) == Next(n, a, j2) ==> j1 == j2
  {
  }

  /** No pair is laid out twice. */
  lemma {:induction false} PairsNoDuplicates(n: nat, k: nat, i: nat)
    requires k < n && i <= n
    ensures NoDuplicates(Pairs(n, k, i))
  {
    if i > 0 {
      PairsNoDuplicates(n, k, i - 1);
      var prefix, row := Pairs(n, k, i - 1), AttackerRow(n, k, i - 1);
      var all := prefix + row;
      forall x, y | 0 <= x < y < |all| ensures all[x] != all[y] {
        if x >= |prefix| {
          NextDistinct(n, i - 1, x - |prefix| + 1, y - |prefix| + 1);
        } else if y >= |prefix| {
          PairsMembership(n, k, i - 1, all[x]);
          assert all[x] in prefix;
        }
      }
    }
  }

  /** The pairs in which position `d` defends: one for each of the `k`
      positions before it. */
  lemma DefenderPairs(n: nat, k: nat, d: nat)
    requires k < n && d < n
    ensures (set p | p in Pairs(n, k, n) && p.1 == d) == (set j | 1 <= j <= k :: (Prev(n, d, j) as nat, d))
  {
    forall p | p in Pairs(n, k, n) && p.1 == d ensures p in (set j | 1 <= j <= k :: (Prev(n, d, j) as nat, d)) {
      PairsMembership(n, k, n, p);
      var j :| 1 <= j <= k && p.1 == Next(n, p.0, j);
      NextPrev(n, p.0, d, j);
    }
    forall j | 1 <= j <= k ensures (Prev(n, d, j) as nat, d) in Pairs(n, k, n) {
      NextPrev(n, Prev(n, d, j), d, j);
      PairsMembership(n, k, n, (Prev(n, d, j) as nat, d));
    }
  }

  // ----- generate_matches: from positions to matches -----

  /** The matches for the laid-out pairs, the team at each position given by
      `ids`, numbered from `firstId` in creation order. */
  function ToMatches(ids: seq<int>, pairs: seq<(nat, nat)>, round: int, firstId: int): (r: seq<Match>)
    requires forall p :: p in pairs ==> p.0 < |ids| && p.1 < |ids|
    ensures |r| == |pairs|
    ensures forall t :: 0 <= t < |pairs| ==>
      r[t] == Match(firstId + t, ids[pairs[t].1], ids[pairs[t].0], round)
  {
    seq(|pairs|, t requires 0 <= t < |pairs| =>
      assert pairs[t] in pairs;
      Match(firstId + t, ids[pairs[t].1], ids[pairs[t].0], round))
  }

  /** The matches of a round: each team at position `a` of `ids` attacks the
      teams at the `k` positions after it, `k` below the number of teams. */
  function RoundMatches(ids: seq<int>, k: nat, round: int, firstId: int): (r: seq<Match>)
    requires k < |ids| || k == 0
  {
    ToMatches(ids, Pairs(|ids|, k, |ids|), round, firstId)
  }

  /** The round's matches: `n * k` of them, all in the round, numbered from
      `firstId`, none a team against itself, no pairing twice. */
  lemma RoundMatchesShape(ids: seq<int>, k: nat, round: int, firstId: int)
    requires k < |ids| && NoDuplicates(ids)
    ensures |RoundMatches(ids, k, round, firstId)| == |ids| * k
    ensures forall m :: m in RoundMatches(ids, k, round, firstId) ==>
      m.round == round && m.attackerTeamId != m.defenderTeamId &&
      m.attackerTeamId in ids && m.defenderTeamId in ids && firstId <= m.id < firstId + |ids| * k
    ensures UniqueMatches(RoundMatches(ids, k, round, firstId))
    ensures UniqueMatchIds(RoundMatches(ids, k, round, firstId))
  {
    PairsLength(|ids|, k, |ids|);
    RoundMatchesTeams(ids, k, round, firstId);
    RoundMatchesDistinct(ids, k, round, firstId);
  }

  lemma RoundMatchesTeams(ids: seq<int>, k: nat, round: int, firstId: int)
    requires k < |ids| && NoDuplicates(ids)
    ensures forall m :: m in RoundMatches(ids, k, round, firstId) ==>
      m.attackerTeamId != m.defenderTeamId
    ensures forall m :: m in RoundMatches(ids, k, round, firstId) ==>
      m.attackerTeamId in ids && m.defenderTeamId in ids
  {
    var n := |ids|;
    var pairs := Pairs(n, k, n);
    var ms := RoundMatches(ids, k, round, firstId);
    forall m | m in ms ensures m.attackerTeamId != m.defenderTeamId && m.attackerTeamId in ids && m.defenderTeamId in ids {
      var t :| 0 <= t < |ms| && ms[t] == m;
      var p := pairs[t];
      assert p in pairs;
      PairsMembership(n, k, n, p);
      var j :| 1 <= j <= k && p.1 == Next(n, p.0, j);
      NextDistinct(n, p.0, j, j);
    }
  }

  lemma RoundMatchesDistinct(ids: seq<int>, k: nat, round: int, firstId: int)
    requires k < |ids| && NoDuplicates(ids)
    ensures forall x, y :: 0 <= x < y < |RoundMatches(ids, k, round, firstId)| ==>
      var ms := RoundMatches(ids, k, round, firstId);
      (ms[x].defenderTeamId, ms[x].attackerTeamId) != (ms[y].defenderTeamId, ms[y].attackerTeamId)
  {
    var n := |ids|;
    var pairs := Pairs(n, k, n);
    var ms := RoundMatches(ids, k, round, firstId);
    PairsNoDuplicates(n, k, n);
    forall x, y | 0 <= x < y < |ms|
      ensures (ms[x].defenderTeamId, ms[x].attackerTeamId) != (ms[y].defenderTeamId, ms[y].attackerTeamId)
    {
      assert pairs[x] != pairs[y];
    }
  }

  /** The teams the team at position `a` attacks. */
  function Attacked(ids: seq<int>, k: nat, round: int, firstId: int, a: nat): set<int>
    requires k < |ids| && a < |ids|
  {
    set m | m in RoundMatches(ids, k, round, firstId) && m.attackerTeamId == ids[a] :: m.defenderTeamId
  }

  /** The teams the team at position `d` defends against. */
  function Attackers(ids: seq<int>, k: nat, round: int, firstId: int, d: nat): set<int>
    requires k < |ids| && d < |ids|
  {
    set m | m in RoundMatches(ids, k, round, firstId) && m.defenderTeamId == ids[d] :: m.attackerTeamId
  }

  lemma AttackedWithin(ids: seq<int>, k: nat, round: int, firstId: int, a: nat, x: int)
    requires k < |ids| && NoDuplicates(ids) && a < |ids|
    requires x in Attacked(ids, k, round, firstId, a)
    ensures exists j :: 1 <= j <= k && x == ids[Next(|ids|, a, j)]
  {
    var n := |ids|;
    var pairs := Pairs(n, k, n);
    var ms := RoundMatches(ids, k, round, firstId);
    var m :| m in ms && m.attackerTeamId == ids[a] && m.defenderTeamId == x;
    var t :| 0 <= t < |ms| && ms[t] == m;
    assert pairs[t] in pairs;
    PairsMembership(n, k, n, pairs[t]);
    assert pairs[t].0 == a;
  }

  lemma AttackedContains(ids: seq<int>, k: nat, round: int, firstId: int, a: nat, j: int)
    requires k < |ids| && a < |ids| && 1 <= j <= k
    ensures ids[Next(|ids|, a, j)] in Attacked(ids, k, round, firstId, a)
  {
    var n := |ids|;
    var pairs := Pairs(n, k, n);
    var ms := RoundMatches(ids, k, round, firstId);
    PairsMembership(n, k, n, (a, Next(n, a, j) as nat));
    var t :| 0 <= t < |pairs| && pairs[t] == (a, Next(n, a, j) as nat);
    assert ms[t] in ms;
  }

  lemma AttackersWithin(ids: seq<int>, k: nat, round: int, firstId: int, d: nat, x: int)
    requires k < |ids| && NoDuplicates(ids) && d < |ids|
    requires x in Attackers(ids, k, round, firstId, d)
    ensures exists j :: 1 <= j <= k && x == ids[Prev(|ids|, d, j)]
  {
    var n := |ids|;
    var pairs := Pairs(n, k, n);
    var ms := RoundMatches(ids, k, round, firstId);
    var m :| m in ms && m.defenderTeamId == ids[d] && m.attackerTeamId == x;
    var t :| 0 <= t < |ms| && ms[t] == m;
    var p := pairs[t];
    assert p in pairs;
    PairsMembership(n, k, n, p);
    assert p.1 == d;
    var j :| 1 <= j <= k && d == Next(n, p.0, j);
    NextPrev(n, p.0, d, j);
    assert x == ids[p.0];
  }

  lemma AttackersContains(ids: seq<int>, k: nat, round: int, firstId: int, d: nat, j: int)
    requires k < |ids| && d < |ids| && 1 <= j <= k
    ensures ids[Prev(|ids|, d, j)] in Attackers(ids, k, round, firstId, d)
  {
    var n := |ids|;
    var pairs := Pairs(n, k, n);
    var ms := RoundMatches(ids, k, round, firstId);
    NextPrev(n, Prev(n, d, j), d, j);
    PairsMembership(n, k, n, (Prev(n, d, j) as nat, d));
    var t :| 0 <= t < |pairs| && pairs[t] == (Prev(n, d, j) as nat, d);
    assert ms[t] in ms;
  }

  /** Each team attacks exactly `k` distinct teams. */
  lemma RoundMatchesAttacks(ids: seq<int>, k: nat, round: int, firstId: int, a: nat)
    requires k < |ids| && NoDuplicates(ids) && a < |ids|
    ensures |Attacked(ids, k, round, firstId, a)| == k
  {
    var n := |ids|;
    var f := (j: int) => if 1 <= j <= n then ids[Next(n, a, j)] else 0;
    var lhs := Attacked(ids, k, round, firstId, a);
    forall x | x in lhs ensures x in (set j | 1 <= j <= k :: f(j)) {
      AttackedWithin(ids, k, round, firstId, a, x);
      var j :| 1 <= j <= k && x == ids[Next(n, a, j)];
      assert x == f(j);
    }
    forall j | 1 <= j <= k ensures f(j) in lhs {
      AttackedContains(ids, k, round, firstId, a, j);
    }
    forall j1, j2 | 1 <= j1 <= k && 1 <= j2 <= k && f(j1) == f(j2) ensures j1 == j2 {
      NextDistinct(n, a, j1, j2);
    }
    InjectiveImageCard(k, f);
    assert lhs == set j | 1 <= j <= k :: f(j);
  }

  /** Each team defends against exactly `k` distinct teams. */
  lemma RoundMatchesDefends(ids: seq<int>, k: nat, round: int, firstId: int, d: nat)
    requires k < |ids| && NoDuplicates(ids) && d < |ids|
    ensures |Attackers(ids, k, round, firstId, d)| == k
  {
    var n := |ids|;
    var f := (j: int) => if 1 <= j <= n then ids[Prev(n, d, j)] else 0;
    var lhs := Attackers(ids, k, round, firstId, d);
    forall x | x in lhs ensures x in (set j | 1 <= j <= k :: f(j)) {
      AttackersWithin(ids, k, round, firstId, d, x);
      var j :| 1 <= j <= k && x == ids[Prev(n, d, j)];
      assert x == f(j);
    }
    forall j | 1 <= j <= k ensures f(j) in lhs {
      AttackersContains(ids, k, round, firstId, d, j);
    }
    forall j1, j2 | 1 <= j1 <= k && 1 <= j2 <= k && f(j1) == f(j2) ensures j1 == j2 {
      NextPrev(n, Prev(n, d, j1), d, j1);
      NextPrev(n, Prev(n, d, j2), d, j2);
    }
    InjectiveImageCard(k, f);
    assert lhs == set j | 1 <= j <= k :: f(j);
  }

  /** Matches added after existing ones, all in a round no existing match is
      in and numbered after every existing one, keep the table's constraints. */
  lemma AddRoundKeepsConstraints(old_: seq<Match>, ids: seq<int>, k: nat, round: int, firstId: int)
    requires UniqueMatches(old_) && UniqueMatchIds(old_)
    requires forall m :: m in old_ ==> m.id < firstId && m.round != round
    requires (k < |ids| || k == 0) && NoDuplicates(ids)
    ensures UniqueMatches(old_ + RoundMatches(ids, k, round, firstId))
    ensures UniqueMatchIds(old_ + RoundMatches(ids, k, round, firstId))
    ensures forall m :: m in old_ + RoundMatches(ids, k, round, firstId) ==> m.id < firstId + |ids| * k
  {
    var added := RoundMatches(ids, k, round, firstId);
    if k == 0 {
      PairsLength(|ids|, k, |ids|);
      assert |added| == 0;
      assert old_ + added == old_;
    } else {
      RoundMatchesShape(ids, k, round, firstId);
      var all := old_ + added;
      forall x, y | 0 <= x < y < |all|
        ensures all[x].id != all[y].id
        ensures (all[x].defenderTeamId, all[x].attackerTeamId, all[x].round) !=
                (all[y].defenderTeamId, all[y].attackerTeamId, all[y].round)
      {
        if y >= |old_| && x < |old_| {
          assert all[x] in old_;
          assert all[y] == added[y - |old_|] && added[y - |old_|] in added;
        } else if x >= |old_| {
          assert all[x] == added[x - |old_|] && all[y] == added[y - |old_|];
        }
      }
      forall m | m in all ensures m.id < firstId + |ids| * k {
        if m in old_ {
          assert firstId <= firstId + |ids| * k;
        }
      }
    }
  }

  /** The matches of attacker `a` against the first `j` positions after it,
      numbered from `start`. */
  function RowMatches(ids: seq<int>, a: nat, j: nat, round: int, start: int): seq<Match>
    requires a < |ids| && j < |ids|
  {
    seq(j, i requires 0 <= i < j => Match(start + i, ids[Next(|ids|, a, i + 1)], ids[a], round))
  }

  /** The matches of two runs of pairs are those of the first, then those of
      the second numbered on. */
  lemma ToMatchesAppend(ids: seq<int>, p1: seq<(nat, nat)>, p2: seq<(nat, nat)>, round: int, firstId: int)
    requires forall q :: q in p1 ==> q.0 < |ids| && q.1 < |ids|
    requires forall q :: q in p2 ==> q.0 < |ids| && q.1 < |ids|
    ensures forall q :: q in p1 + p2 ==> q.0 < |ids| && q.1 < |ids|
    ensures ToMatches(ids, p1 + p2, round, firstId) ==
      ToMatches(ids, p1, round, firstId) + ToMatches(ids, p2, round, firstId + |p1|)
  {
    var all := p1 + p2;
    var l, r1, r2 := ToMatches(ids, all, round, firstId), ToMatches(ids, p1, round, firstId),
                     ToMatches(ids, p2, round, firstId + |p1|);
    forall t | 0 <= t < |all| ensures l[t] == (r1 + r2)[t] {
      if t >= |p1| {
        assert all[t] == p2[t - |p1|];
      }
    }
  }

  lemma RowMatchesSnoc(ids: seq<int>, a: nat, j: nat, round: int, start: int)
    requires a < |ids| && 1 <= j < |ids|
    ensures RowMatches(ids, a, j, round, start) ==
      RowMatches(ids, a, j - 1, round, start) + [Match(start + j - 1, ids[Next(|ids|, a, j)], ids[a], round)]
  {
  }

  /** Laying out attacker `a` after the first `a` attackers adds its row's matches. */
  lemma PairsMatchesStep(ids: seq<int>, k: nat, a: nat, round: int, firstId: int)
    requires k < |ids| && a < |ids|
    ensures |Pairs(|ids|, k, a + 1)| == |Pairs(|ids|, k, a)| + k
    ensures ToMatches(ids, Pairs(|ids|, k, a + 1), round, firstId) ==
      ToMatches(ids, Pairs(|ids|, k, a), round, firstId) + RowMatches(ids, a, k, round, firstId + |Pairs(|ids|, k, a)|)
  {
    var n := |ids|;
    var done, row := Pairs(n, k, a), AttackerRow(n, k, a);
    assert Pairs(n, k, a + 1) == done + row;
    forall q | q in row ensures q.0 < n && q.1 < n {
      var i :| 0 <= i < |row| && row[i] == q;
    }
    ToMatchesAppend(ids, done, row, round, firstId);
    RowAsMatches(ids, k, a, round, firstId + |done|);
  }

  /** The matches of attacker `a`'s row of pairs. */
  lemma RowAsMatches(ids: seq<int>, k: nat, a: nat, round: int, start: int)
    requires k < |ids| && a < |ids|
    requires forall q :: q in AttackerRow(|ids|, k, a) ==> q.0 < |ids| && q.1 < |ids|
    ensures ToMatches(ids, AttackerRow(|ids|, k, a), round, start) == RowMatches(ids, a, k, round, start)
  {
  }

  /** The inner loop of `generate_matches`: the matches of the attacker at
      position `a` against the `k` positions after it, numbered from `start`. */
  method AttackerMatches(ids: seq<int>, k: nat, a: nat, round: int, start: int) returns (row: seq<Match>)
    requires k < |ids| && a < |ids|
    ensures row == RowMatches(ids, a, k, round, start)
  {
    var n := |ids|;
    row := [];
    for j := 1 to k + 1
      invariant row == RowMatches(ids, a, j - 1, round, start)
    {
      NextIsMod(n, a, j);
      RowMatchesSnoc(ids, a, j, round, start);
      row := row + [Match(start + j - 1, ids[(a + j) % n], ids[a], round)];
    }
  }

  /** The positions of a shuffle: every position taken exactly once. */
  predicate IsPermutation(perm: seq<nat>, n: nat) {
    |perm| == n && (forall i :: 0 <= i < n ==> perm[i] < n) &&
    forall i, j :: 0 <= i < j < n ==> perm[i] != perm[j]
  }

  /** A shuffle reaches every position. */
  lemma PermutationOnto(perm: seq<nat>, n: nat, x: nat)
    requires IsPermutation(perm, n) && x < n
    ensures exists i :: 0 <= i < n && perm[i] == x
  {
    var f := (j: int) => if 1 <= j <= n then perm[j - 1] as int else -1;
    forall a, b | 1 <= a <= n && 1 <= b <= n && a != b ensures f(a) != f(b) {
      if a < b { assert perm[a - 1] != perm[b - 1]; }
      else { assert perm[b - 1] != perm[a - 1]; }
    }
    InjectiveImageCard(n, f);
    var g := (j: int) => j - 1;
    InjectiveImageCard(n, g);
    var image := set j | 1 <= j <= n :: f(j);
    var positions := set j | 1 <= j <= n :: g(j);
    forall y | y in image ensures y in positions {
      var j :| 1 <= j <= n && f(j) == y;
      assert g(y + 1) == y;
    }
    SubsetOfSameSize(image, positions);
    assert g(x + 1) == x;
    assert x in positions;
    var j :| 1 <= j <= n && f(j) == x;
    assert perm[j - 1] == x;
  }

  /** A subset as large as the whole is the whole. */
  lemma SubsetOfSameSize(a: set<int>, b: set<int>)
    requires a <= b && |a| == |b|
    ensures a == b
  {
    assert a * b == a;
    assert a + b == b;
    assert |b - a| == 0;
  }

  // ----- the competition state -----

  predicate UniqueTeamIds(teams: seq<Team>) {
    forall i, j :: 0 <= i < j < |teams| ==> teams[i].id != teams[j].id
  }

  /** The user fills one of the team's member slots (an empty slot, SQL NULL,
      equals nobody). */
  predicate IsMemberOf(team: Team, userId: int) {
    team.member1Id == Some(userId) || team.member2Id == Some(userId)
  }

  /** `User.has_team`. */
  predicate HasTeam(teams: seq<Team>, userId: int) {
    exists t :: t in teams && IsMemberOf(t, userId)
  }

  /** No user is a member of two teams. */
  predicate OneTeamPerUser(teams: seq<Team>) {
    forall i, j :: 0 <= i < j < |teams| ==>
      (teams[i].member1Id.Some? ==> !IsMemberOf(teams[j], teams[i].member1Id.value)) &&
      (teams[i].member2Id.Some? ==> !IsMemberOf(teams[j], teams[i].member2Id.value))
  }

  /** No user is a member of two teams, stated for any user. */
  lemma OneTeamPerUserMembers(teams: seq<Team>)
    requires forall i, j, u :: 0 <= i < j < |teams| && IsMemberOf(teams[i], u) ==> !IsMemberOf(teams[j], u)
    ensures OneTeamPerUser(teams)
  {
  }

  /** Some member of the team is an admin: `Team.has_admin` without its
      lookup, the same under unique user ids. */
  predicate AdminMember(team: Team, users: seq<User>) {
    exists u :: u in users && u.isAdmin && IsMemberOf(team, u.id)
  }

  /** The teams that take part in the matches: those without an admin. */
  function Participants(teams: seq<Team>, users: seq<User>): (r: seq<Team>)
    ensures forall t :: t in r <==> t in teams && !AdminMember(t, users)
  {
    Filter(teams, (t: Team) => !AdminMember(t, users))
  }

  /** `min(MATCHES_PER_TEAM, n - 1)`, where a value below 1 makes no match. */
  function MatchesPerTeam(configured: int, n: nat): (k: nat)
    ensures n > 0 ==> k < n
    ensures k == 0 || k <= configured
    ensures configured >= 1 && n >= 2 ==> k >= 1
  {
    var m := if configured < n - 1 then configured else n - 1;
    if m < 0 then 0 else m
  }

  /** The ids of the participants in shuffled order. */
  function ShuffledIds(teams: seq<Team>, users: seq<User>, perm: seq<nat>): (ids: seq<int>)
    requires IsPermutation(perm, |Participants(teams, users)|)
    ensures |ids| == |perm|
  {
    var parts := Participants(teams, users);
    seq(|perm|, i requires 0 <= i < |perm| => parts[perm[i]].id)
  }

  lemma ShuffledIdsDistinct(teams: seq<Team>, users: seq<User>, perm: seq<nat>)
    requires UniqueTeamIds(teams)
    requires IsPermutation(perm, |Participants(teams, users)|)
    ensures NoDuplicates(ShuffledIds(teams, users, perm))
  {
    var parts := Participants(teams, users);
    FilterKeepsDistinctKeys(teams, (t: Team) => !AdminMember(t, users), (t: Team) => t.id);
    var ids := ShuffledIds(teams, users, perm);
    forall i, j | 0 <= i < j < |ids| ensures ids[i] != ids[j] {
      if perm[i] < perm[j] {
        assert parts[perm[i]].id != parts[perm[j]].id;
      } else {
        assert perm[j] < perm[i];
        assert parts[perm[j]].id != parts[perm[i]].id;
      }
    }
  }

  /** The round's matches as the nested loops create them. */
  function GeneratedMatches(teams: seq<Team>, users: seq<User>, perm: seq<nat>, configured: int,
                            round: int, firstId: int): (r: seq<Match>)
    requires IsPermutation(perm, |Participants(teams, users)|)
  {
    RoundMatches(ShuffledIds(teams, users, perm), MatchesPerTeam(configured, |perm|), round, firstId)
  }

  /** Every participating team attacks exactly `k` teams and defends against
      exactly `k` teams in the generated round, `k` being the configured number
      of matches per team capped at one less than the number of participants. */
  lemma ParticipantsPlay(teams: seq<Team>, users: seq<User>, perm: seq<nat>, configured: int,
                         round: int, firstId: int, t: Team)
    requires UniqueTeamIds(teams)
    requires IsPermutation(perm, |Participants(teams, users)|)
    requires t in teams && !AdminMember(t, users)
    ensures |set m | m in GeneratedMatches(teams, users, perm, configured, round, firstId) &&
                     m.attackerTeamId == t.id :: m.defenderTeamId| == MatchesPerTeam(configured, |perm|)
    ensures |set m | m in GeneratedMatches(teams, users, perm, configured, round, firstId) &&
                     m.defenderTeamId == t.id :: m.attackerTeamId| == MatchesPerTeam(configured, |perm|)
  {
    var parts := Participants(teams, users);
    var ids := ShuffledIds(teams, users, perm);
    var k := MatchesPerTeam(configured, |perm|);
    assert t in parts;
    var x :| 0 <= x < |parts| && parts[x] == t;
    PermutationOnto(perm, |parts|, x);
    var a :| 0 <= a < |perm| && perm[a] == x;
    assert ids[a] == t.id;
    ShuffledIdsDistinct(teams, users, perm);
    RoundMatchesAttacks(ids, k, round, firstId, a);
    RoundMatchesDefends(ids, k, round, firstId, a);
  }

  /** Teams with an admin member take part in no generated match. */
  lemma AdminTeamsSitOut(teams: seq<Team>, users: seq<User>, perm: seq<nat>, configured: int,
                         round: int, firstId: int, t: Team)
    requires UniqueTeamIds(teams)
    requires IsPermutation(perm, |Participants(teams, users)|)
    requires t in teams && AdminMember(t, users)
    ensures forall m :: m in GeneratedMatches(teams, users, perm, configured, round, firstId) ==>
      m.attackerTeamId != t.id && m.defenderTeamId != t.id
  {
    var ids := ShuffledIds(teams, users, perm);
    var k := MatchesPerTeam(configured, |perm|);
    if k > 0 {
      ShuffledIdsDistinct(teams, users, perm);
      AdminNotShuffled(teams, users, perm, t);
      RoundMatchesTeams(ids, k, round, firstId);
    } else {
      PairsLength(|ids|, k, |ids|);
    }
  }

  /** A team with an admin member is given no place in the shuffle. */
  lemma AdminNotShuffled(teams: seq<Team>, users: seq<User>, perm: seq<nat>, t: Team)
    requires UniqueTeamIds(teams)
    requires IsPermutation(perm, |Participants(teams, users)|)
    requires t in teams && AdminMember(t, users)
    ensures t.id !in ShuffledIds(teams, users, perm)
  {
    var parts := Participants(teams, users);
    var ids := ShuffledIds(teams, users, perm);
    forall i | 0 <= i < |ids| ensures ids[i] != t.id {
      var p := parts[perm[i]];
      assert p in parts;
      var x :| 0 <= x < |teams| && teams[x] == p;
      var y :| 0 <= y < |teams| && teams[y] == t;
      assert x != y;
      if x < y { assert teams[x].id != teams[y].id; } else { assert teams[y].id != teams[x].id; }
    }
  }

  /** The response of a route: done (with its flashed message), the usage page,
      or an abort with its HTTP code and flashed message. */
  datatype Outcome = Done(message: string) | ShowUsage | Abort(code: int, message: string)

  predicate RoundExists(matches: seq<Match>, round: int) {
    exists m :: m in matches && m.round == round
  }

  /** The checks of `generate_matches` before any match is created. */
  function GenerateCheck(isAdmin: bool, round: int, matches: seq<Match>): (o: Outcome)
    ensures o.Done? <==> isAdmin && round >= 1 && !RoundExists(matches, round) &&
                         (round > 1 ==> RoundExists(matches, round - 1))
  {
    if !isAdmin then Abort(403, "")
    else if round == 0 then ShowUsage
    else if round < 0 then Abort(400, "Cannot have a negative round number")
    else if RoundExists(matches, round) then Abort(400, "Already generated this round")
    else if round > 1 && !RoundExists(matches, round - 1) then
      Abort(400, "You have not generated the matches for round " + IntToString(round - 1))
    else Done("")
  }

  /** `set_phase`: the (attack, defence) flags each phase name selects. */
  function PhaseFlags(phase: string): (r: Option<(bool, bool)>)
    ensures r.Some? <==> phase == "Attack" || phase == "Defence" || phase == "None" || phase == "Both"
  {
    if phase == "Attack" then Some((true, false))
    else if phase == "Defence" then Some((false, true))
    else if phase == "None" then Some((false, false))
    else if phase == "Both" then Some((true, true))
    else None
  }

  /** The four phase names select the four flag combinations, one each. */
  lemma PhaseFlagsOneToOne(attack: bool, defence: bool)
    ensures exists phase :: PhaseFlags(phase) == Some((attack, defence))
    ensures forall p, q :: PhaseFlags(p).Some? && PhaseFlags(p) == PhaseFlags(q) ==> p == q
  {
    if attack && defence { assert PhaseFlags("Both") == Some((attack, defence)); }
    else if attack { assert PhaseFlags("Attack") == Some((attack, defence)); }
    else if defence { assert PhaseFlags("Defence") == Some((attack, defence)); }
    else { assert PhaseFlags("None") == Some((attack, defence)); }
  }

  // ----- join_team -----

  /** What `join_team` decides: join the team at a position, in its first slot
      or its second, or refuse with an HTTP code and a flashed message. */
  datatype JoinDecision = Join(index: nat, firstSlot: bool) | Refuse(code: int, message: string)

  /** `join_team` as the source is written: `is_admin` is a column, not a
      method, so calling it fails (HTTP 500) whenever the team has an admin. */
  function DecideJoinAsWritten(teams: seq<Team>, users: seq<User>, user: User, name: Option<string>): (d: JoinDecision)
    requires UniqueUserIds(users)
    ensures d.Join? ==> d.index < |teams|
  {
    if HasTeam(teams, user.id) then Refuse(400, "You already have a team")
    else match FindTeamByName(teams, name)
      case None => Refuse(404, "")
      case Some(i) =>
        if IsFull(teams[i]) then Refuse(400, "This team is already full")
        else if HasAdmin(teams[i], users) then Refuse(500, "")
        else Join(i, teams[i].member1Id.None?)
  }

  /** `join_team` as intended: a user without a team joins a named team that is
      not full, unless the team has an admin and the user is not one; the
      first slot is taken if empty, else the second. */
  function DecideJoin(teams: seq<Team>, users: seq<User>, user: User, name: Option<string>): (d: JoinDecision)
    requires UniqueUserIds(users)
    ensures d.Join? <==> (!HasTeam(teams, user.id) && FindTeamByName(teams, name).Some? &&
                          !IsFull(teams[FindTeamByName(teams, name).value]) &&
                          (AdminMember(teams[FindTeamByName(teams, name).value], users) ==> user.isAdmin))
    ensures d.Join? ==> (d.index == FindTeamByName(teams, name).value &&
                         (d.firstSlot <==> teams[d.index].member1Id.None?))
  {
    if HasTeam(teams, user.id) then Refuse(400, "You already have a team")
    else match FindTeamByName(teams, name)
      case None => Refuse(404, "")
      case Some(i) =>
        if IsFull(teams[i]) then Refuse(400, "This team is already full")
        else if HasAdmin(teams[i], users) && !user.isAdmin then Refuse(403, "")
        else Join(i, teams[i].member1Id.None?)
  }

  /** An admin joining a team whose only member is an admin is refused with a
      server error by the source, and let in by the intended rule. */
  lemma AdminJoinAsWrittenFails()
    ensures DecideJoinAsWritten([Team(1, "admins", Some(10), None)], [User(10, "a", "a@x", 100000, true)],
                                User(11, "b", "b@x", 100001, true), Some("admins")) == Refuse(500, "")
    ensures DecideJoin([Team(1, "admins", Some(10), None)], [User(10, "a", "a@x", 100000, true)],
                       User(11, "b", "b@x", 100001, true), Some("admins")) == Join(0, false)
  {
    var teams := [Team(1, "admins", Some(10), None)];
    var users := [User(10, "a", "a@x", 100000, true)];
    assert !HasTeam(teams, 11) by {
      forall t | t in teams ensures !IsMemberOf(t, 11) {
        assert t == teams[0];
      }
    }
    assert FindTeamByName(teams, Some("admins")) == Some(0);
    assert users[0] in users;
    assert HasAdmin(teams[0], users);
  }

  /** The teams after a user takes a slot of the team at position `i`. */
  function Joined(teams: seq<Team>, i: nat, userId: int, firstSlot: bool): (r: seq<Team>)
    requires i < |teams|
  {
    teams[i := if firstSlot then teams[i].(member1Id := Some(userId)) else teams[i].(member2Id := Some(userId))]
  }

  /** Joining puts the user in the chosen team, leaves its other slot and every
      other team as they were, and keeps every user in at most one team. */
  lemma JoinPlacesUser(teams: seq<Team>, i: nat, userId: int, firstSlot: bool)
    requires i < |teams| && OneTeamPerUser(teams) && !HasTeam(teams, userId)
    ensures IsMemberOf(Joined(teams, i, userId, firstSlot)[i], userId)
    ensures firstSlot ==> Joined(teams, i, userId, firstSlot)[i].member2Id == teams[i].member2Id
    ensures !firstSlot ==> Joined(teams, i, userId, firstSlot)[i].member1Id == teams[i].member1Id
    ensures forall j :: 0 <= j < |teams| && j != i ==> Joined(teams, i, userId, firstSlot)[j] == teams[j]
    ensures OneTeamPerUser(Joined(teams, i, userId, firstSlot))
    ensures UniqueTeamIds(teams) ==> UniqueTeamIds(Joined(teams, i, userId, firstSlot))
  {
    var r := Joined(teams, i, userId, firstSlot);
    forall x, y, u | 0 <= x < y < |r| ensures IsMemberOf(r[x], u) ==> !IsMemberOf(r[y], u) {
      if u == userId {
        if x == i {
          assert teams[y] in teams;
        } else {
          assert teams[x] in teams;
        }
      } else if IsMemberOf(r[x], u) {
        assert IsMemberOf(teams[x], u);
      }
    }
    OneTeamPerUserMembers(r);
  }

  // ----- the leaderboard -----

  /** A team's three scores, as `utility_score`, `attack_performance` and
      `total_score` give them. */
  datatype TeamScores = TeamScores(teamName: string, utility: Score, attack: Score, total: Score)

  /** A displayed row: scores that are numbers formatted, messages as they are. */
  datatype LeaderboardItem = LeaderboardItem(teamName: string, utilityScore: string, attackPerformance: string,
                                             score: string, ranking: int)

  function ScoresOf(team: Team, round: int, defences: seq<Defence>, matches: seq<Match>, attacks: seq<Attack>,
                    aggregate: Utility -> real): (r: TeamScores)
    ensures r.total == TotalScore(r.attack, r.utility)
  {
    var utility := UtilityScore(team.id, round, defences, aggregate);
    var attack := AttackPerformance(team.id, round, matches, attacks);
    TeamScores(team.teamName, utility, attack, TotalScore(attack, utility))
  }

  /** Every team's scores, in table order. */
  function Standings(teams: seq<Team>, round: int, defences: seq<Defence>, matches: seq<Match>,
                     attacks: seq<Attack>, aggregate: Utility -> real): (r: seq<TeamScores>)
    ensures |r| == |teams|
    ensures forall i :: 0 <= i < |teams| ==> r[i].teamName == teams[i].teamName
  {
    seq(|teams|, i requires 0 <= i < |teams| => ScoresOf(teams[i], round, defences, matches, attacks, aggregate))
  }

  /** The sort key: the total score, or -1 when it is a message. */
  function RankKey(e: TeamScores): real {
    if e.total.Num? then e.total.value else -1.0
  }

  /** The teams by decreasing total score (ties keep their order). */
  function Ranking(entries: seq<TeamScores>): (r: seq<TeamScores>)
    ensures multiset(r) == multiset(entries)
    ensures forall i, j :: 0 <= i < j < |r| ==> RankKey(r[i]) >= RankKey(r[j])
  {
    var r := SortBy(entries, (e: TeamScores) => [-RankKey(e)]);
    assert forall i, j :: 0 <= i < j < |r| ==> LexLe([-RankKey(r[i])], [-RankKey(r[j])]);
    r
  }

  /** A score as displayed: `"{:,.2f}".format` of a number, a message as it is. */
  function Shown(s: Score, format: real -> string): string {
    if s.Num? then format(s.value) else s.text
  }

  function ItemOf(e: TeamScores, ranking: int, format: real -> string): LeaderboardItem {
    LeaderboardItem(e.teamName, Shown(e.utility, format), Shown(e.attack, format), Shown(e.total, format), ranking)
  }

  /** The ranked rows: the i-th team of the ranking is shown with rank i + 1. */
  method RankItems(ranked: seq<TeamScores>, format: real -> string) returns (items: seq<LeaderboardItem>)
    ensures |items| == |ranked|
    ensures forall i :: 0 <= i < |ranked| ==> items[i] == ItemOf(ranked[i], i + 1, format)
  {
    items := [];
    for i := 0 to |ranked|
      invariant |items| == i
      invariant forall k :: 0 <= k < i ==> items[k] == ItemOf(ranked[k], k + 1, format)
    {
      items := items + [ItemOf(ranked[i], i + 1, format)];
    }
  }

  /** The displayed leaderboard. */
  function Leaderboard(entries: seq<TeamScores>, format: real -> string): (r: seq<LeaderboardItem>)
    ensures |r| == |entries|
  {
    var ranked := Ranking(entries);
    assert |ranked| == |multiset(ranked)| == |entries|;
    seq(|ranked|, i requires 0 <= i < |ranked| => ItemOf(ranked[i], i + 1, format))
  }

  lemma LeaderboardIsRankedItems(entries: seq<TeamScores>, format: real -> string, items: seq<LeaderboardItem>)
    requires |items| == |Ranking(entries)|
    requires forall i :: 0 <= i < |items| ==> items[i] == ItemOf(Ranking(entries)[i], i + 1, format)
    ensures items == Leaderboard(entries, format)
  {
  }

  /** `ranked` holds every entry once, by decreasing total score. */
  predicate IsRanking(ranked: seq<TeamScores>, entries: seq<TeamScores>) {
    multiset(ranked) == multiset(entries) &&
    forall i, j :: 0 <= i < j < |ranked| ==> RankKey(ranked[i]) >= RankKey(ranked[j])
  }

  /** The leaderboard shows every team once, by decreasing total score, the
      team in row i having rank i + 1. */
  lemma LeaderboardOrder(entries: seq<TeamScores>, format: real -> string)
    ensures exists ranked :: (IsRanking(ranked, entries) && |ranked| == |Leaderboard(entries, format)| &&
                              forall i :: 0 <= i < |ranked| ==>
                                Leaderboard(entries, format)[i] == ItemOf(ranked[i], i + 1, format))
  {
    var ranked := Ranking(entries);
    var shown := Leaderboard(entries, format);
    assert |ranked| == |multiset(ranked)| == |entries| == |shown|;
    assert IsRanking(ranked, entries);
    assert forall i :: 0 <= i < |ranked| ==> shown[i] == ItemOf(ranked[i], i + 1, format);
  }

  /** `CachedLeaderboard`: the last computed leaderboard and when it was made. */
  class CachedLeaderboard {
    var lastUpdate: real
    var leaderboard: Option<seq<LeaderboardItem>>

    constructor(startedAt: real)
      ensures lastUpdate == startedAt && leaderboard == None
    {
      lastUpdate := startedAt;
      leaderboard := None;
    }

    /** The cache is refreshed when it is empty or older than `cacheTime`. */
    predicate Stale(now: real, cacheTime: real)
      reads this
    {
      leaderboard.None? || now - lastUpdate > cacheTime
    }

    /** The `leaderboard` route: recompute and store the leaderboard when the
        cache is stale, stamping it with the clock reading taken after the
        computation, else serve the cached one unchanged. */
    method Serve(now: real, finishedAt: real, cacheTime: real, teams: seq<Team>, round: int,
                 defences: seq<Defence>, matches: seq<Match>, attacks: seq<Attack>,
                 aggregate: Utility -> real, format: real -> string)
      returns (items: seq<LeaderboardItem>)
      modifies this
      ensures old(Stale(now, cacheTime)) ==>
        items == Leaderboard(Standings(teams, round, defences, matches, attacks, aggregate), format) &&
        leaderboard == Some(items) && lastUpdate == finishedAt
      ensures !old(Stale(now, cacheTime)) ==>
        items == old(leaderboard).value && leaderboard == old(leaderboard) && lastUpdate == old(lastUpdate)
    {
      if Stale(now, cacheTime) {
        var entries := Standings(teams, round, defences, matches, attacks, aggregate);
        var ranked := Ranking(entries);
        items := RankItems(ranked, format);
        LeaderboardIsRankedItems(entries, format, items);
        lastUpdate := finishedAt;
        leaderboard := Some(items);
      } else {
        items := leaderboard.value;
      }
    }
  }

  /** The competition's database tables and the configuration flags the admin
      routes change. Match ids are handed out in creation order. */
  class Competition {
    var users: seq<User>
    var teams: seq<Team>
    var matches: seq<Match>
    var nextMatchId: int
    var round: int
    var attackPhase: bool
    var defencePhase: bool

    /** The constraints of the tables, and the rule that no user is in two teams. */
    predicate Valid()
      reads this
    {
      UniqueUserIds(users) && UniqueTeamIds(teams) && OneTeamPerUser(teams) &&
      UniqueMatches(matches) && UniqueMatchIds(matches) &&
      (forall m :: m in matches ==> m.id < nextMatchId)
    }

    constructor(users: seq<User>, teams: seq<Team>)
      requires UniqueUserIds(users) && UniqueTeamIds(teams) && OneTeamPerUser(teams)
      ensures Valid()
      ensures this.users == users && this.teams == teams && matches == [] && round == 1
      ensures attackPhase && defencePhase
    {
      this.users := users;
      this.teams := teams;
      matches := [];
      nextMatchId := 1;
      round := 1;
      attackPhase := true;
      defencePhase := true;
    }

    /** `set_phase`, for an admin: the flags the phase name selects, the phase
        defaulting to "None"; any other name is refused and changes nothing. */
    method SetPhase(isAdmin: bool, phaseArg: Option<string>) returns (o: Outcome)
      modifies this
      ensures users == old(users) && teams == old(teams) && matches == old(matches) &&
              nextMatchId == old(nextMatchId) && round == old(round)
      ensures var phase := if phaseArg.Some? then phaseArg.value else "None";
        if !isAdmin then o == Abort(403, "") && attackPhase == old(attackPhase) && defencePhase == old(defencePhase)
        else if PhaseFlags(phase).Some? then o == Done("") && (attackPhase, defencePhase) == PhaseFlags(phase).value
        else o == Abort(400, "Please follow the instructions") &&
             attackPhase == old(attackPhase) && defencePhase == old(defencePhase)
    {
      if !isAdmin {
        return Abort(403, "");
      }
      var phase := if phaseArg.Some? then phaseArg.value else "None";
      if phase == "Attack" {
        attackPhase, defencePhase := true, false;
      } else if phase == "Defence" {
        attackPhase, defencePhase := false, true;
      } else if phase == "None" {
        attackPhase, defencePhase := false, false;
      } else if phase == "Both" {
        attackPhase, defencePhase := true, true;
      } else {
        return Abort(400, "Please follow the instructions");
      }
      o := Done("");
    }

    /** `join_team` for the logged-in `user`, with the intended admin check. */
    method JoinTeam(user: User, name: Option<string>) returns (o: Outcome)
      requires Valid()
      modifies this
      ensures Valid()
      ensures users == old(users) && matches == old(matches) && nextMatchId == old(nextMatchId) &&
              round == old(round) && attackPhase == old(attackPhase) && defencePhase == old(defencePhase)
      ensures match DecideJoin(old(teams), users, user, name)
        case Refuse(code, message) => o == Abort(code, message) && teams == old(teams)
        case Join(i, firstSlot) =>
          o == Done("Congrats, you joined " + name.value) && teams == Joined(old(teams), i, user.id, firstSlot)
    {
      var d := DecideJoin(teams, users, user, name);
      match d
      case Refuse(code, message) =>
        o := Abort(code, message);
      case Join(i, firstSlot) =>
        JoinPlacesUser(teams, i, user.id, firstSlot);
        teams := Joined(teams, i, user.id, firstSlot);
        o := Done("Congrats, you joined " + name.value);
    }

    /** `generate_matches`: after the checks, every participating team (in the
        shuffled order `perm`) attacks the `k` teams after it on the circle,
        and the current round becomes the generated one. */
    method GenerateMatches(isAdmin: bool, newRound: int, configured: int, perm: seq<nat>) returns (o: Outcome)
      requires Valid()
      requires IsPermutation(perm, |Participants(teams, users)|)
      modifies this
      ensures Valid()
      ensures users == old(users) && teams == old(teams) &&
              attackPhase == old(attackPhase) && defencePhase == old(defencePhase)
      ensures o == GenerateCheck(isAdmin, newRound, old(matches))
      ensures o.Done? ==>
        matches == old(matches) + GeneratedMatches(teams, users, perm, configured, newRound, old(nextMatchId)) &&
        round == newRound
      ensures !o.Done? ==> matches == old(matches) && round == old(round) && nextMatchId == old(nextMatchId)
    {
      o := GenerateCheck(isAdmin, newRound, matches);
      if !o.Done? {
        return;
      }
      var ids := ShuffledIds(teams, users, perm);
      var k := MatchesPerTeam(configured, |ids|);
      ghost var before := matches;
      ghost var firstId := nextMatchId;
      AddRound(ids, k, newRound);
      ShuffledIdsDistinct(teams, users, perm);
      AddRoundKeepsConstraints(before, ids, k, newRound, firstId);
      round := newRound;
    }

    /** The nested loops of `generate_matches`: each position in turn attacks
        the `k` positions after it. */
    method AddRound(ids: seq<int>, k: nat, newRound: int)
      requires k < |ids| || k == 0
      modifies this
      ensures matches == old(matches) + RoundMatches(ids, k, newRound, old(nextMatchId))
      ensures nextMatchId == old(nextMatchId) + |ids| * k
      ensures users == old(users) && teams == old(teams) && round == old(round)
      ensures attackPhase == old(attackPhase) && defencePhase == old(defencePhase)
    {
      var n := |ids|;
      ghost var firstId := nextMatchId;
      ghost var before := matches;
      for i := 0 to n
        invariant matches == before + ToMatches(ids, Pairs(n, k, i), newRound, firstId)
        invariant nextMatchId == firstId + |Pairs(n, k, i)|
        invariant users == old(users) && teams == old(teams) && round == old(round)
        invariant attackPhase == old(attackPhase) && defencePhase == old(defencePhase)
      {
        AddAttacks(ids, k, i, newRound, firstId, before);
      }
      PairsLength(n, k, n);
    }

    /** One pass of the outer loop of `generate_matches`: the attacker at
        position `a` attacks the `k` positions after it. */
    method AddAttacks(ids: seq<int>, k: nat, a: nat, newRound: int, ghost firstId: int, ghost before: seq<Match>)
      requires (k < |ids| || k == 0) && a < |ids|
      requires matches == before + ToMatches(ids, Pairs(|ids|, k, a), newRound, firstId)
      requires nextMatchId == firstId + |Pairs(|ids|, k, a)|
      modifies this
      ensures matches == before + ToMatches(ids, Pairs(|ids|, k, a + 1), newRound, firstId)
      ensures nextMatchId == firstId + |Pairs(|ids|, k, a + 1)|
      ensures users == old(users) && teams == old(teams) && round == old(round)
      ensures attackPhase == old(attackPhase) && defencePhase == old(defencePhase)
    {
      var row := AttackerMatches(ids, k, a, newRound, nextMatchId);
      PairsMatchesStep(ids, k, a, newRound, firstId);
      ConcatAssoc(before, ToMatches(ids, Pairs(|ids|, k, a), newRound, firstId), row);
      matches := matches + row;
      nextMatchId := nextMatchId + k;
    }
  }
}

=== FILE: text.dfy ===
/** Python string behaviour the model relies on: `str(int)`, `int(str)`,
    `str.isascii`, `str.isspace`, `str.rfind`, `str.split(sep)[-1]` and
    `os.path.splitext` on POSIX paths. */
module Text {
  import opened Collections

  predicate IsDigit(c: char) {
    '0' <= c <= '9'
  }

  predicate AllDigits(s: string) {
    forall i :: 0 <= i < |s| ==> IsDigit(s[i])
  }

  function DigitChar(d: nat): (c: char)
    requires d < 10
    ensures IsDigit(c) && c as int - '0' as int == d
  {
    ('0' as int + d) as char
  }

  function DigitValue(c: char): nat
    requires IsDigit(c)
  {
    c as int - '0' as int
  }

  /** `str(n)` for a non-negative integer: its decimal digits, no leading zero. */
  function NatToString(n: nat): (s: string)
    ensures s != [] && AllDigits(s)
    decreases n
  {
    if n < 10 then [DigitChar(n)] else NatToString(n / 10) + [DigitChar(n % 10)]
  }

  /** `str(i)`: a minus sign before the digits of a negative integer. */
  function IntToString(i: int): (s: string)
    ensures s != []
  {
    if i < 0 then "-" + NatToString(-i) else NatToString(i)
  }

  /** The value of a string of decimal digits. */
  function DigitsValue(s: string): nat
    requires AllDigits(s)
  {
    if s == [] then 0 else 10 * DigitsValue(s[..|s| - 1]) + DigitValue(s[|s| - 1])
  }

  /** `int(s)` on the strings this model meets: an optional minus sign followed by
      at least one decimal digit. Anything else is the `ValueError` case. */
  function ParseInt(s: string): Option<int> {
    if |s| > 1 && s[0] == '-' && AllDigits(s[1..]) then Some(0 - DigitsValue(s[1..]) as int)
    else if s != [] && AllDigits(s) then Some(DigitsValue(s))
    else None
  }

  /** Reading back the digits that `str` wrote gives the number again. */
  lemma {:induction false} DigitsValueOfNatToString(n: nat)
    ensures DigitsValue(NatToString(n)) == n
    decreases n
  {
    if n >= 10 {
      DigitsValueOfNatToString(n / 10);
      var s := NatToString(n);
      assert s[..|s| - 1] == NatToString(n / 10);
    }
  }

  /** `int(str(i)) == i` for every integer. */
  lemma ParseIntOfIntToString(i: int)
    ensures ParseInt(IntToString(i)) == Some(i)
  {
    if i < 0 {
      DigitsValueOfNatToString(-i);
      assert IntToString(i)[1..] == NatToString(-i);
    } else {
      DigitsValueOfNatToString(i);
    }
  }

  /** Distinct integers have distinct decimal representations. */
  lemma IntToStringInjective(a: int, b: int)
    requires IntToString(a) == IntToString(b)
    ensures a == b
  {
    ParseIntOfIntToString(a);
    ParseIntOfIntToString(b);
  }

  /** `str.isascii`: true of the empty string. */
  predicate IsAscii(s: string) {
    forall i :: 0 <= i < |s| ==> s[i] as int < 128
  }

  /** The ASCII characters for which Python's `str.isspace` holds. */
  predicate IsSpaceChar(c: char) {
    9 <= c as int <= 13 || 28 <= c as int <= 32
  }

  /** `str.isspace`: false of the empty string. */
  predicate IsSpace(s: string) {
    s != [] && forall i :: 0 <= i < |s| ==> IsSpaceChar(s[i])
  }

  /** `str.rfind(c)`: the last index holding `c`, or -1. */
  function RFind(s: string, c: char): (k: int)
    ensures -1 <= k < |s|
    ensures k >= 0 ==> s[k] == c
    ensures forall i :: k < i < |s| ==> s[i] != c
  {
    if s == [] then -1
    else if s[|s| - 1] == c then |s| - 1
    else RFind(s[..|s| - 1], c)
  }

  /** `s.split(sep)[-1]`: what follows the last separator (all of `s` if none). */
  function LastField(s: string, sep: char): (r: string)
    ensures sep !in r
    ensures |r| <= |s| && r == s[|s| - |r|..]
  {
    s[RFind(s, sep) + 1..]
  }

  /** `os.path.splitext` for POSIX paths: the extension starts at the last dot of
      the last path component, unless that component consists of dots up to it. */
  function SplitExt(p: string): (r: (string, string))
    ensures r.0 + r.1 == p
    ensures r.1 == [] || (r.1[0] == '.' && '.' !in r.1[1..] && '/' !in r.1)
  {
    var sep := RFind(p, '/');
    var dot := RFind(p, '.');
    if dot > sep && exists i :: sep + 1 <= i < dot && p[i] != '.' then
      assert forall i :: dot < i < |p| ==> p[i] != '.' && p[i] != '/';
      (p[..dot], p[dot..])
    else
      (p, "")
  }

  /** A decimal representation holds no underscore. */
  lemma IntToStringNoUnderscore(i: int)
    ensures '_' !in IntToString(i)
  {
    var s := IntToString(i);
    if i < 0 {
      assert forall k :: 1 <= k < |s| ==> IsDigit(s[k]) by {
        assert s[1..] == NatToString(-i);
        forall k | 1 <= k < |s| ensures IsDigit(s[k]) {
          assert s[k] == s[1..][k - 1];
        }
      }
    }
  }

  /** `s.split(sep)[-1]` of a string ending in `sep` followed by a field that
      holds no `sep` is that field. */
  lemma LastFieldAfter(p: string, d: string, sep: char)
    requires p != [] && p[|p| - 1] == sep && sep !in d
    ensures LastField(p + d, sep) == d
  {
    var s := p + d;
    var k := RFind(s, sep);
    assert s[|p| - 1] == sep;
    assert s[|p|..] == d;
  }
}
